=== FILE: README.md ===
# Northwind ETL pipeline core, modelled in Dafny

This project models the core of a small batch ETL pipeline over the Northwind
sales data. The pipeline has four stages:

- **extract** (`etl/extract.py`) fetches the CSV files that are not yet on disk,
  checks that the mandatory ones are there and reads them.
- **load** (`etl/load.py`) renames headers case-insensitively and validates the
  required columns. It coerces dates and numbers, dropping the rows that do not
  parse, and runs the data-quality rule engine (`etl/dq.py`), whose issues it
  returns with the cleaned tables.
- **transform** (`etl/transform.py`) builds the customer dimension and the sales
  fact table, an inner join of order lines to orders with two derived fields.
- **build** (`etl/build.py`) left-joins the fact table to the dimensions, sums
  `line_amount` per customer, per country and (optionally) per product, and
  ranks the totals from largest to smallest.

A DataFrame is a `Table`: column labels plus rows of cells. A cell is `Null`
(NaN/NaT/None), `Num`, `Text`, `Stamp` (a timestamp) or `Day` (a date).
`pd.to_numeric` and `pd.to_datetime` are the parameters `parseNum` and
`parseDate`. `read_csv_robust` is the parameter `read`. The raw directory is a
class holding the set of file names on disk and the files fetched so far.
Errors are those the code raises: `KeyError`, `FileNotFoundError`, and the
`TypeError` of `OrderID <= 0` on text.

Modules, one file each:

- `Wrappers`: Option, Result, Outcome.
- `Text`: lower-casing, ordering, numerals, Python list rendering.
- `Seqs`: filter, map, dedup, sort.
- `Tables`: cells, column access, null dropping.
- `Frames`: projection, `drop_duplicates`, `merge`.
- `Schema`: `rename_columns`, `validate_required_columns`.
- `DataQuality`: `dq_checks`, `write_dq_logs`.
- `LoadStage`, `TransformStage`, `BuildStage`, `ExtractStage`: the four stages.
- `Pipeline`: how the stages' outputs meet the next stage's inputs.

Points where the code does less than its own comments suggest, or where its
behaviour is easy to misread; the model follows the code:

- `dim_customer` (`etl/transform.py:46-50`) removes duplicate whole rows of
  (CustomerID, CompanyName, Country). The comment above it promises one row per
  unique CustomerID, but two spellings of one customer's name give two rows
  with the same key (`TransformStage.DimCustomerKeyRepeats`).
- The product dimension (`etl/build.py:80`) likewise removes duplicate
  (ProductID, ProductName, CategoryID) rows. The comment says this ensures
  unique keys; two rows for one ProductID that differ in name or category both
  stay.
- `extract` (`etl/extract.py:125-128`) raises `FileNotFoundError` with the
  absent mandatory files joined by `, `, in the fixed order Customers,
  Orders, Order_Details, whatever order the files went missing in.
- `read_csv_robust` (`etl/extract.py:66-85`) tries a strict read, then a read
  that skips malformed lines. It is the parameter `read`.

## Model

| member | source | states |
|---|---|---|
| Text.Lower | etl/load.py:34 | the lower-case form has the same length, no ASCII capital, and every character that is not a capital where it was |
| Text.LowerFixes | etl/load.py:34 | a string without capitals is its own lower-case form |
| Text.LowerIdempotent | etl/load.py:34 | lower-casing twice is lower-casing once, so a lower-cased key looks itself up |
| Text.LexLeTotal | etl/load.py:60 | the string order used by `sorted` relates any two strings |
| Text.LexLeTransitive | etl/load.py:60 | the string order is transitive |
| Text.LexLeAntisymmetric | etl/load.py:60 | strings ordered both ways are equal |
| Text.NatToString | etl/dq.py:75 | `str(int)` is a non-empty digit string without a leading zero |
| Text.DecimalRoundTrip | etl/dq.py:75 | reading back the decimal rendering of a count gives the count |
| Text.PyListRepr | etl/load.py:60 | `str(list)` is bracketed; the empty list prints as `[]` and one name `a` as `['a']` |
| Text.JoinSnoc | etl/extract.py:128 | joining one more item appends the separator and the item |
| Text.PyListReprSnoc | etl/load.py:60 | one more name turns the closing bracket into `, 'x']` |
| Text.PyListReprTwo | etl/dq.py:45 | two names `a`, `b` print as `['a', 'b']` |
| Seqs.Dedup | etl/transform.py:49 | the result has no duplicates, holds exactly the input's elements and is no longer than the input |
| Seqs.DedupFirstOrder | etl/transform.py:49 | the kept elements come in the order of their first occurrences in the input |
| Seqs.FilterSubsequence | etl/load.py:137 | filtering keeps the surviving elements in their order |
| Seqs.FirstAt | etl/transform.py:49 | the first occurrence of an element: it is there and nowhere before |
| Seqs.SortBy | etl/build.py:59 | the result is ordered by the given total preorder and is a permutation of the input |
| Tables.IndexOf | etl/load.py:43 | the first position of a label; none exactly when the label is absent |
| Tables.ColumnAny | etl/dq.py:51-54 | `mask.any()` over `df[name]`: a test holds of some cell of the column iff it holds at some row |
| Tables.SetCell | etl/load.py:136 | assigning one column changes that cell only, and keeps the row's width |
| Tables.MapColumn | etl/load.py:136 | `df[c] = f(df[c])` keeps the columns and the row count |
| Tables.MapColumnGet | etl/load.py:136 | after `df[c] = f(df[c])` a cell reads `f` of the old cell in column `c` and the old cell in any other column |
| Tables.DropNull | etl/load.py:137 | `dropna(subset=...)` keeps the columns and exactly the rows with no null in the subset |
| Tables.DropNullInOrder | etl/load.py:137 | the rows `dropna` keeps stay in their order |
| Tables.UpdateRowGet | etl/load.py:140 | reading an updated row gives the new cell in the updated column and the old cell elsewhere |
| Tables.MapColumnRows | etl/load.py:140 | rewriting a column is mapping a row update over the rows |
| Tables.MissingColumns | etl/load.py:58-60 | `sorted(required - set(columns))`: exactly the absent names, without duplicates, sorted; empty iff all are present |
| Tables.LexLeIsTotalPreorder | etl/load.py:60 | the string order is a total preorder, so `sorted` applies |
| Tables.ToNumeric | etl/load.py:140 | a number parses to itself and a missing value does not parse |
| Tables.ToDatetime | etl/load.py:136 | a timestamp parses to itself and a missing value does not parse |
| Schema.LastIndexOf | etl/load.py:34 | the last header whose lower-case form is `l`, or none when no header has it |
| Schema.LowerIndex | etl/load.py:34 | the `{col.lower(): col}` dict maps every lower-cased header to its last spelling |
| Schema.RenameMap | etl/load.py:37-41 | a header is renamed iff it is the last spelling of an expected lower-case name, and it is renamed to that name's proper form |
| Schema.RenameAt | etl/load.py:37-43 | per header: renamed iff expected and last spelling, and renamed to the proper form |
| Schema.RenameHeaders | etl/load.py:37-43 | the headers after `df.rename`: same count, each renamed exactly as the map says |
| Schema.RenameColumns | etl/load.py:22-43 | `rename_columns` changes the headers as `RenameHeaders` says and keeps every row |
| Schema.RenameKeepsLower | etl/load.py:37-43 | renaming with a map whose proper names have the expected lower-case forms keeps each header's lower-case form |
| Schema.LastIndexOfSameLower | etl/load.py:34 | headers with the same lower-case forms give the same last-spelling positions |
| Schema.RenameIdempotent | etl/load.py:22-43 | with such a map, renaming twice is renaming once |
| Schema.RenameCaseInsensitive | etl/load.py:34-41 | when no two headers share a lower-case form, headers differing only in case are renamed to the same proper names |
| Schema.FieldMapsCanonical | etl/load.py:89-115 | each field map sends a lower-case name to a proper name with that lower-case form |
| Schema.RenameCollision | etl/load.py:34-41 | with `customerID` and `CUSTOMERID` both present, only the last is renamed |
| Schema.ValidateRequiredColumns | etl/load.py:46-60 | passes iff every required column is present; otherwise a `KeyError` whose message names exactly the absent columns, sorted |
| DataQuality.Coerce | etl/dq.py:62 | `pd.to_numeric(errors="coerce")` on a cell: numeric or missing; numbers and missing values unchanged; numeric iff the cell parses |
| DataQuality.CoerceNumeric | etl/dq.py:60-62 | the coercion loop keeps the header and the number of rows |
| DataQuality.CoerceNumericGet | etl/dq.py:60-62 | after the coercion loop a cell reads the coerced original in a listed column the frame has, and the original in any other column |
| DataQuality.MapColumnFixed | etl/dq.py:60-62 | rewriting a column with a map that fixes its cells leaves the table unchanged |
| DataQuality.CoerceNumericNumeric | etl/dq.py:60-62 | coercing columns that are already numeric or missing changes nothing |
| DataQuality.RuleIssuesMembers | etl/dq.py:51-83 | each rule's issue is in the list iff that rule fires, with the source's counts; the list is empty iff no rule fires |
| DataQuality.Issue.Message | etl/dq.py:45-83 | each issue text opens with the table its rule inspects: `order_details: ` for the Quantity, UnitPrice and Discount rules, `orders: ` otherwise |
| DataQuality.RuleIssuesOrdered | etl/dq.py:51-83 | issues come in rule order, at most one per rule, at most six |
| DataQuality.RuleIssuesNoSchemaMiss | etl/dq.py:46-83 | past the schema check no missing-columns issue is raised |
| DataQuality.ChainOrdered | etl/dq.py:51-83 | whichever rules fire, the appended issues come in strictly increasing rule order, all past the schema check, at most six |
| DataQuality.ChainMembers | etl/dq.py:51-83 | each rule's issue is appended iff that rule fired, carrying its count; nothing is appended iff no rule fired |
| DataQuality.Checks | etl/dq.py:22-85 | `dq_checks`: a missing order column returns that single issue; otherwise a text or timestamp OrderID raises `TypeError("OrderID")`; otherwise a missing numeric detail column raises `KeyError` for the first of Quantity, UnitPrice, Discount that the details lack; else the rule issues in order |
| DataQuality.DetailOutcome | etl/dq.py:67-85 | the detail-rule part fails iff a numeric detail column is missing: `KeyError("Quantity")` if Quantity is absent, else `KeyError("UnitPrice")` if UnitPrice is absent, else `KeyError("Discount")`; otherwise at most six ordered issues |
| DataQuality.CoercedColumn | etl/dq.py:60-62 | each cell of a coerced column is the coercion of the original cell |
| DataQuality.CoercedAny | etl/dq.py:60-70 | a rule's test holds of some coerced cell iff it holds of some original cell once coerced |
| DataQuality.CoercedBadDiscounts | etl/dq.py:73-75 | the bad-discount count is the number of rows whose coerced discount lies outside [0, 1] |
| DataQuality.OrphanCountRows | etl/dq.py:80-83 | the foreign-key count is the number of orders whose CustomerID no customer has |
| DataQuality.ChecksReachRules | etl/dq.py:43-85 | with all schema columns present, `dq_checks` returns exactly the rule issues on the coerced details |
| DataQuality.DetailOutcomeRules | etl/dq.py:67-85 | with all three detail columns present the detail part runs the value rules and cannot fail |
| DataQuality.OrderIdRules | etl/dq.py:51-54 | the null-OrderID and non-positive-OrderID issues are raised iff some order has such an OrderID |
| DataQuality.DetailValueRules | etl/dq.py:67-70 | the Quantity and UnitPrice issues are raised iff some coerced cell is non-positive, resp. negative |
| DataQuality.DiscountRule | etl/dq.py:73-75 | the discount issue carries the number of out-of-range discounts and is raised iff it is positive |
| DataQuality.FkRule | etl/dq.py:80-83 | the foreign-key issue is raised iff customers has CustomerID and some order is orphaned, and carries the orphan count |
| DataQuality.OrderIdRulesPass | etl/dq.py:51-54 | no OrderID issue iff every OrderID is present and positive |
| DataQuality.DetailRulesPass | etl/dq.py:67-75 | no detail issue iff every coerced quantity is positive, price non-negative and discount in [0, 1] |
| DataQuality.DiscountsPass | etl/dq.py:73-75 | no bad discount iff every coerced discount is in [0, 1] |
| DataQuality.ChecksPass | etl/dq.py:33-85 | `dq_checks` returns no issue iff every rule's condition holds on every row |
| DataQuality.DqChecks | etl/dq.py:36-85 | the imperative checks return what `Checks` specifies and leave the details coerced exactly when the schema check passed |
| DataQuality.DetailChecks | etl/dq.py:67-85 | the append sequence for the detail rules yields `DetailOutcome` |
| DataQuality.CoerceDetailColumns | etl/dq.py:60-62 | the coercion loop yields `CoerceNumeric` over Quantity, UnitPrice, Discount |
| DataQuality.DqLogs | etl/dq.py:104-124 | the run row carries the timestamp, PASS iff no issue, and the issue count; one detail row per issue, in order, with the same timestamp |
| DataQuality.DqLogsRoundTrip | etl/dq.py:112-124 | the detail rows give back the issue list, and the count matches them |
| DataQuality.FkExample | etl/dq.py:80-83 | one order for an unknown customer yields exactly the issue `orders: missing customer FK (1)` |
| DataQuality.ExampleOrdersPass | etl/dq.py:41-54 | well-formed sample orders raise no OrderID issue |
| DataQuality.NoDetailIssues | etl/dq.py:67-75 | no order line, no detail issue |
| DataQuality.ExampleOrphans | etl/dq.py:80-83 | the sample has exactly one orphaned order |
| LoadStage.CleanOrders | etl/load.py:136-137 | the cleaned orders keep the columns, and every remaining OrderDate is a timestamp |
| LoadStage.CleanDetails | etl/load.py:139-143 | the cleaned details keep the columns |
| LoadStage.CleanOrdersKeepsParsed | etl/load.py:136-137 | the cleaned orders are exactly the orders whose date parses, in order, with the parsed date |
| LoadStage.DateTestAgrees | etl/load.py:136-137 | an order survives `dropna` after the date coercion iff its OrderDate parses |
| LoadStage.CleanDetailRowCells | etl/load.py:139-142 | a cleaned line has coerced Quantity and UnitPrice, a coerced Discount defaulting to 0, and every other cell unchanged |
| LoadStage.ThroughCleaning | etl/load.py:139-142 | reading any column of a cleaned line, as the three assignments leave it |
| LoadStage.FillZeroCoerce | etl/load.py:140-142 | coercing then `fillna(0.0)` gives the parsed discount, or 0 |
| LoadStage.CoerceAllPresent | etl/load.py:139-140 | the coercion loop over three present columns is three column rewrites |
| LoadStage.CoerceThree | etl/load.py:139-140 | the coercion loop over three columns the frame has is three column rewrites in list order |
| DataQuality.CoerceStep | etl/dq.py:60-62 | one more iteration of the coercion loop rewrites the next column on what the earlier iterations gave when the frame has it, and skips it otherwise |
| LoadStage.CleanDetailsKeepsParsed | etl/load.py:139-143 | the cleaned details are exactly the lines whose Quantity and UnitPrice parse, in order, each cleaned |
| LoadStage.KeepTestAgrees | etl/load.py:143 | a cleaned line survives `dropna` iff its Quantity and UnitPrice parse |
| LoadStage.CleanDetailsRows | etl/load.py:139-142 | the column rewrites of the cleaning step map `CleanDetailRow` over the lines |
| LoadStage.CleanDetailsNumeric | etl/load.py:139-143 | every cleaned line has numeric Quantity, UnitPrice and Discount |
| LoadStage.CleanedRowNumeric | etl/load.py:139-143 | a line whose Quantity and UnitPrice parse is cleaned into one holding a number in each of the three numeric columns |
| LoadStage.DqCoercionStable | etl/load.py:139-143 | the quality gate's own coercion leaves cleaned details unchanged |
| LoadStage.NumericStable | etl/dq.py:60-62 | coercing a table whose three columns are numeric changes nothing |
| LoadStage.Renamed | etl/load.py:89-115 | renaming keeps every table's rows, and products is present iff it was |
| LoadStage.Validation | etl/load.py:121-129 | passes iff all three tables have their required columns; otherwise the `KeyError` of customers if they fail, else of orders, else of order_details |
| LoadStage.DetailRequiredNumeric | etl/load.py:127-140 | the validated details have the three numeric columns |
| LoadStage.LoadOutcome | etl/load.py:66-171 | a failed validation is returned as is; `load` fails only with a `KeyError` or the OrderID `TypeError` |
| LoadStage.CleanAndCheck | etl/load.py:136-171 | past validation, only the OrderID `TypeError` of the quality gate can fail |
| LoadStage.LoadValidated | etl/load.py:121-136 | a validated load proceeds to cleaning |
| LoadStage.LoadPastValidation | etl/load.py:121-136 | a successful load passed validation |
| LoadStage.CleanAndCheckKeeps | etl/load.py:165-171 | customers and products are returned as renamed; orders and details keep their columns |
| LoadStage.LoadKeepsTables | etl/load.py:165-171 | a successful load keeps every customer row and the renamed columns, with the required ones present, and products iff given |
| LoadStage.LoadCleanRows | etl/load.py:136-143 | a successful load returns exactly the orders whose date parses and the lines whose Quantity and UnitPrice parse, each cleaned, in order |
| LoadStage.CleanAndCheckRows | etl/load.py:136-171 | the returned tables are the cleaned ones and the issues are the quality gate's on them |
| LoadStage.CleanedChecks | etl/load.py:161 | on validated tables the quality gate raises no missing-columns issue and at most six issues |
| LoadStage.LoadCleanTypes | etl/load.py:136-143 | returned OrderDates are timestamps and returned Quantity, UnitPrice, Discount are numbers |
| LoadStage.LoadDqIssues | etl/load.py:161-170 | `dq_issues` is the quality gate's messages on the returned tables: no missing-columns issue, at most six |
| LoadStage.CleanAndCheckIssues | etl/load.py:161-170 | past validation the issue texts are the quality gate's messages on the cleaned tables, with no missing-columns issue and at most six |
| LoadStage.LoadFailures | etl/load.py:121-161 | `load` fails iff a required column is missing or some surviving OrderID is text or a timestamp |
| LoadStage.CleanAndCheckFails | etl/load.py:136-161 | past validation, failure iff some surviving OrderID is text or a timestamp |
| LoadStage.ChecksOnValidated | etl/dq.py:41-62 | on validated tables the quality gate fails iff some OrderID is text or a timestamp |
| LoadStage.Load | etl/load.py:66-171 | the step-by-step `load` returns `LoadOutcome` |
| LoadStage.RenameTables | etl/load.py:89-115 | renames the three tables and, if present, products |
| LoadStage.ValidateTables | etl/load.py:121-129 | validates the three tables in order, stopping at the first failure |
| LoadStage.CleanAndRunChecks | etl/load.py:136-171 | cleaning followed by the quality gate returns `CleanAndCheck` |
| LoadStage.CleanTables | etl/load.py:136-143 | the in-place assignments and `dropna` calls yield `CleanOrders` and `CleanDetails` |
| LoadStage.CoerceRequiredColumns | etl/load.py:139-140 | the coercion loop yields `CoerceNumeric` over the three columns |
| Frames.PickGet | etl/transform.py:48 | reading a selected column of a projected row gives the original cell |
| Frames.Project | etl/transform.py:46-48 | `.loc[:, names]` has exactly the requested columns, one row per row, and keeps every requested cell |
| Frames.ProjectMember | etl/transform.py:46-48 | a projected row is the projection of some input row, and every projection is present |
| Frames.DropDuplicates | etl/transform.py:49 | `drop_duplicates` keeps the columns and exactly the distinct rows |
| Frames.DropDuplicatesFirstOrder | etl/transform.py:49 | the first row of each group of identical rows is kept: rows come in the order of their first appearance |
| Frames.OtherColumns | etl/transform.py:60-64 | the right table's labels a merge adds: all but the key |
| Frames.OtherColumnsMember | etl/build.py:57 | the added labels are right labels, and every right label but the key is added |
| Frames.DropKeyGet | etl/transform.py:60-64 | dropping the key cell keeps every other right cell readable under its label |
| Frames.Merge | etl/transform.py:60-64 | `merge(on=key)` has the left columns followed by the right columns other than the key; its rows are counted by `Frames.JoinRowsCount` and, against distinct right keys, pinned one for one by `Frames.LeftJoinUniqueKeys` |
| Frames.RowJoinWidth | etl/transform.py:60-64 | every row one left row contributes is that row followed by the right non-key cells |
| Frames.JoinRowsWidth | etl/transform.py:60-64 | every merged row is as wide as the merged header |
| Frames.RowJoinInner | etl/transform.py:60-64 | one left row contributes exactly its merges with the right rows of equal key |
| Frames.InnerJoinMember | etl/transform.py:60-64 | an inner join holds exactly the merges of left and right rows with equal keys |
| Frames.RowJoinLeft | etl/build.py:57 | one left row contributes its matches, or itself padded with nulls when nothing matches |
| Frames.LeftJoinMember | etl/build.py:57 | a left join holds every matching pair's merge and each unmatched left row padded with nulls, and nothing else |
| Frames.LeftJoinKeepsRows | etl/build.py:57 | a left join has at least as many rows as its left table |
| Frames.RowJoinCount | etl/transform.py:60-64 | one left row contributes one merged row per right row with an equal key; under a left join, one padded row when no right row matches |
| Frames.JoinRowsAppend | etl/transform.py:60-64 | the merge of two runs of left rows is the merge of the first followed by that of the second, so a repeated left row contributes its matches again |
| Frames.JoinRowsCount | etl/transform.py:60-64 | `merge` emits exactly one row per matching (left, right) pair, plus one per unmatched left row under a left join |
| Frames.RowJoinUnique | etl/build.py:57 | against distinct right keys, a left row contributes exactly one row, which starts with that row |
| Frames.LeftJoinUniqueKeys | etl/build.py:57 | a left join against distinct right keys has as many rows as the left table, each starting with the left row at its position |
| Frames.JoinedGet | etl/build.py:57 | a merged row reads left columns from the left row and the others from the right row |
| Frames.PaddedGet | etl/build.py:57 | an unmatched merged row reads left columns from the left row and null elsewhere |
| TransformStage.DimCustomer | etl/transform.py:46-50 | `dim_customer` has the three columns, no duplicate row, and exactly the projections of the customers |
| TransformStage.OrderDayForgetsTime | etl/transform.py:66 | two timestamps give the same `order_date` iff they fall on the same calendar day; a missing date stays missing |
| TransformStage.LineAmountExample | etl/transform.py:67 | 3 units at 10.0 with a 0.1 discount give 27.0 |
| TransformStage.LineAmountRange | etl/transform.py:67 | a missing operand gives a missing amount; within the ranges the quality gate checks the amount lies between 0 and the undiscounted `UnitPrice * Quantity` |
| TransformStage.FactSales | etl/transform.py:59-77 | `fact_sales` has exactly the eight fact columns, in order |
| TransformStage.OtherKeyColumns | etl/transform.py:60-62 | the order columns the join adds are CustomerID and OrderDate |
| TransformStage.Transform | etl/transform.py:18-88 | returns the dimension and fact tables with their columns, and `products` unchanged, None included |
| TransformStage.FactRow | etl/transform.py:59-77 | a fact row built from one line and one order has one cell per fact column |
| TransformStage.JoinedRowGet | etl/transform.py:60-64 | a joined line reads line columns from the line and CustomerID and OrderDate from the order |
| TransformStage.DerivedGet | etl/transform.py:65-68 | a derived row reads `order_date` and `line_amount` as computed and the rest as joined |
| TransformStage.PipelineRowIsFactRow | etl/transform.py:59-77 | join, derive and select produce `FactRow` of the line and order |
| TransformStage.FactCellGet | etl/transform.py:59-77 | each fact cell is the line's, the order's, or the derived value, as `FactCell` says |
| TransformStage.FactCellDay | etl/transform.py:66 | the fact row's `order_date` is the date part of the order's OrderDate |
| TransformStage.FactCellAmount | etl/transform.py:67 | the fact row's `line_amount` is the line's `UnitPrice * Quantity * (1 - Discount)` |
| TransformStage.FactCellFromOrder | etl/transform.py:60-64 | the fact row's CustomerID and OrderDate are the order's |
| TransformStage.FactCellFromLine | etl/transform.py:60-64 | the fact row's detail columns are the line's |
| TransformStage.DerivedMember | etl/transform.py:65-68 | the derived rows are exactly the derivations of the joined rows |
| TransformStage.FactSalesSound | etl/transform.py:59-77 | every fact row is `FactRow` of a line and an order with the same OrderID, so a line without its order yields none |
| TransformStage.FactSalesComplete | etl/transform.py:59-77 | every line and order with the same OrderID yield their fact row |
| TransformStage.FactSalesCount | etl/transform.py:59-64 | the fact table has one row per pair of a detail line and an order with equal OrderID, so duplicated lines are counted twice |
| TransformStage.DimCustomerOnItsColumns | etl/transform.py:46-50 | on a table with exactly the three columns the dimension holds exactly its rows |
| TransformStage.DimCustomerKeyRepeats | etl/transform.py:46-50 | two customer rows with one CustomerID and two spellings of the company name both stay, as distinct dimension rows with that CustomerID |
| BuildStage.AddTo | etl/build.py:58 | adding an entry grows its group's total by its amount, or opens its group; other totals and distinct keys are kept |
| BuildStage.AddToSumAll | etl/build.py:58 | adding an entry raises the grand total by its amount |
| BuildStage.GroupSum | etl/build.py:58 | `groupby(...).sum()`: distinct keys, exactly the non-missing keys of the entries, each total the reference sum of its key |
| BuildStage.EntryKeys | etl/build.py:58 | the groups are exactly the non-missing values the table's group column takes |
| BuildStage.GroupSumConserves | etl/build.py:58 | the group totals add up to the amounts of all entries with a key |
| BuildStage.LookupMember | etl/build.py:58 | with distinct keys each group's total is found under its key |
| BuildStage.AtLeastIsTotalPreorder | etl/build.py:59 | the descending order on totals is a total preorder |
| BuildStage.SortDesc | etl/build.py:59 | `sort_values(ascending=False)`: non-increasing and a permutation of its input |
| BuildStage.Aggregate | etl/build.py:56-59 | ranked non-increasing, one total per distinct non-missing key of the table, each the sum of that key's `line_amount`s |
| BuildStage.RankingExample | etl/build.py:59 | any three totals of 50, 200 and 10, in that order, rank as 200, 50, 10 |
| BuildStage.SalesBy | etl/build.py:56-71 | fails iff a column is missing, in the order the pipeline meets them: a join key missing from either table raises `KeyError(joinKey)`; else a group key in neither table raises `KeyError(groupKey)`; else a missing `line_amount` raises `Column not found: line_amount`; otherwise the aggregate of the left join |
| BuildStage.SalesByKeys | etl/build.py:56-58 | the groups are exactly the non-missing dimension values reached by some fact row through the join |
| BuildStage.SalesByRows | etl/build.py:56-58 | the rows the rankings sum over number one per matching fact–dimension pair plus each unmatched fact row; with distinct dimension keys they are the fact rows one for one, in order |
| BuildStage.DimProduct | etl/build.py:80 | the product dimension has the three columns, no duplicate row, and exactly the projections of the products |
| BuildStage.Absent | etl/build.py:80 | exactly the requested labels the table lacks |
| BuildStage.AbsentInOrder | etl/build.py:80 | the absent labels keep the order in which they were requested |
| BuildStage.SalesByProduct | etl/build.py:77-86 | none iff products is absent or lacks ProductID; a `KeyError` naming the absent labels if it lacks ProductName or CategoryID; otherwise the ranking by ProductName |
| BuildStage.Build | etl/build.py:24-110 | passes `dim_customer` and `fact_sales` through unchanged, ranks by CompanyName and by Country, has a product ranking iff products with ProductID are given; fails iff a ranking fails, with the error of the first failing one (customer, then country, then product) |
| ExtractStage.WantedMember | etl/extract.py:52-55 | the files a download pass ensures are exactly those not skipped |
| ExtractStage.WantedLocals | etl/extract.py:52-55 | the names a download pass makes sure of (`Wanted`) are names of the files it visits, all of them when products are wanted |
| ExtractStage.Pending | etl/extract.py:52-63 | a pass fetches exactly the wanted files not already present |
| ExtractStage.NothingPending | etl/extract.py:59-60 | once every wanted file is present a pass fetches nothing |
| ExtractStage.ProductsNotFetched | etl/extract.py:54-55 | without products, Products.csv is neither fetched nor ensured |
| ExtractStage.MissingFiles | etl/extract.py:125-126 | exactly the absent mandatory files |
| ExtractStage.MissingFilesOrdered | etl/extract.py:125-126 | the absent mandatory files are listed in the order Customers, Orders, Order_Details |
| ExtractStage.ExtractOutcome | etl/extract.py:125-147 | fails iff a mandatory file is absent, with the message listing them; otherwise the three tables as read, and products iff wanted and present |
| ExtractStage.ExtractAfterDownload | etl/extract.py:119-147 | after a download pass extraction succeeds, and loads products iff they are wanted |
| ExtractStage.FilesDistinct | etl/extract.py:35-40 | the four local file names are distinct |
| ExtractStage.UrlInjective | etl/extract.py:61 | two files share a download URL iff they share a remote name |
| ExtractStage.UrlsDistinct | etl/extract.py:32-40 | the four files are downloaded from four different URLs, the order details from `order-details.csv` |
| ExtractStage.WantedSnoc | etl/extract.py:52-55 | one more file adds its name unless skipped |
| ExtractStage.PendingSnoc | etl/extract.py:52-63 | one more file is fetched at the end iff wanted and absent |
| ExtractStage.PassStep | etl/extract.py:52-63 | visiting a file adds it to the present names, and fetches it iff wanted and absent |
| ExtractStage.VisitStep | etl/extract.py:52-63 | one loop iteration keeps the present names and the fetch log in step with the files visited so far |
| ExtractStage.RawDir.DownloadFiles | etl/extract.py:45-63 | afterwards every wanted file is present and nothing else is added; the fetched files are exactly those that were missing, in order |
| ExtractStage.RawDir.DownloadEach | etl/extract.py:52-63 | the loop over a file list with distinct names adds exactly the wanted names and fetches exactly the pending files |
| ExtractStage.RawDir.Extract | etl/extract.py:91-147 | with `auto_download` the directory gains the wanted files, without it nothing changes; the result is `ExtractOutcome` on the directory afterwards |
| ExtractStage.DownloadTwice | etl/extract.py:59-63 | a second download pass fetches nothing and changes nothing |
| Pipeline.LoadFeedsTransform | etl/transform.py:46-62 | a successful load returns every column the transform stage reads |
| Pipeline.BuildOnModelTables | etl/build.py:56-86 | on tables shaped like the transform output, `build` fails only on a malformed product catalog |
| Pipeline.RankingsSucceed | etl/build.py:56-71 | on tables shaped like the transform output the customer and country rankings find every column they read |
| Pipeline.TransformFeedsBuild | etl/build.py:47-49 | the transform output meets the build stage's requirements |

## Left out

- Parquet writes (`to_parquet` throughout), directory creation and the clock
  (`datetime.utcnow()`) are I/O. The dq log timestamp is a parameter of
  `DataQuality.DqLogs`.
- `urllib.request.urlretrieve` is not modelled: a download always succeeds and
  is recorded as the file fetched (its URL is `ExtractStage.Url`). Progress
  printing is left out.
- `read_csv_robust` is the parameter `read`: CSV parsing lives inside pandas.
- `pd.to_numeric` and `pd.to_datetime` are the parameters `parseNum` and
  `parseDate`. Floating-point arithmetic is modelled with `real`, so rounding in
  `line_amount` and in the sums is not modelled.
- Lower-casing covers ASCII letters only.
- Duplicate column labels are not modelled: a label reads its first column.
- Merging tables that share a non-key column (pandas' `_x`/`_y` suffixes) is not
  modelled. `BuildStage.SalesBy` and `BuildStage.Build` require no such overlap.
  The transform stage's tables never overlap (`Pipeline.TransformFeedsBuild`).
- TransformStage.FactSales: requires the columns it reads. The `KeyError` pandas
  raises when one is missing is not modelled, and neither is the column
  overwrite of `assign` when the order lines already carry CustomerID, OrderDate,
  `order_date` or `line_amount`. The membership lemmas assume `Disjoint`.
- TransformStage.DimCustomer: requires the three columns it projects; the
  `KeyError` of a missing one is not modelled.
- TransformStage.LineAmount: multiplying a text cell raises `TypeError` in
  pandas; the model makes the amount missing instead. After cleaning, the
  operands are always numbers (`LoadStage.LoadCleanTypes`).
- TransformStage.OrderDay: `.dt` on a non-datetime column raises in pandas; the
  model makes the date missing.
- BuildStage.Aggregate: states ordering only up to ties. `sort_values` uses an
  unstable sort, so the source fixes no order among equal totals. The model
  groups in order of first appearance and sorts by insertion.
- Categorical `observed=True` has no effect on non-categorical keys and is not
  modelled.
- DataQuality.Checks: pandas comparisons of mixed numeric and text OrderIDs raise
  `TypeError`; the model raises it when any OrderID is text or a timestamp.
  pandas' exact message is not modelled.
- Text.PyListRepr: quotes every name with single quotes. Python switches to
  double quotes for a name that holds `'` and escapes backslashes and control
  characters. The names rendered are required-column constants, which hold
  none of these.
- BuildStage.SalesByProduct: pandas wraps its `KeyError` message in quotes; the
  model keeps the text inside them.
- The CLI and stage sequencing (`etl/run.py`), the dashboards and the parquet
  viewer are not part of this model.

=== FILE: build.dfy ===
/** The build stage (etl/build.py): sales totals by customer, by country
    and, when a product catalog is present, by product, each ranked by
    total sales. */
module BuildStage {
  import opened Wrappers
  import opened Seqs
  import opened Text
  import opened Tables
  import opened Frames

  /** One row of an aggregate: a group key and its summed `line_amount`. */
  datatype Total = Total(key: Value, amount: real)

  /** What `build` returns. */
  datatype Built = Built(
    dimCustomer: Table,
    factSales: Table,
    salesByCustomer: seq<Total>,
    salesByCountry: seq<Total>,
    salesByProduct: Option<seq<Total>>)

  /** The contribution of one cell to `.sum()`: missing values are skipped. */
  function Amount(v: Value): real
  {
    if v.Num? then v.n else 0.0
  }

  function TotalKey(t: Total): Value
  {
    t.key
  }

  /** No two totals share a group key. */
  predicate DistinctKeys(g: seq<Total>)
  {
    DistinctBy(g, TotalKey)
  }

  function KeysOf(g: seq<Total>): set<Value>
  {
    set t | t in g :: t.key
  }

  /** The total recorded for `k`, or zero when `k` has no group. */
  function Lookup(g: seq<Total>, k: Value): real
  {
    if g == [] then 0.0
    else if g[0].key == k then g[0].amount
    else Lookup(g[1..], k)
  }

  /** The reference sum: the amounts of all entries whose key is `k`. */
  function SumFor(entries: seq<Total>, k: Value): real
  {
    if entries == [] then 0.0
    else
      var last := entries[|entries| - 1];
      SumFor(entries[..|entries| - 1], k) + (if last.key == k then last.amount else 0.0)
  }

  /** The sum of every amount in `g`. */
  function SumAll(g: seq<Total>): real
  {
    if g == [] then 0.0 else SumAll(g[..|g| - 1]) + g[|g| - 1].amount
  }

  /** The sum of the amounts whose key is not missing. */
  function SumKeyed(entries: seq<Total>): real
  {
    if entries == [] then 0.0
    else
      var last := entries[|entries| - 1];
      SumKeyed(entries[..|entries| - 1]) + (if last.key.Null? then 0.0 else last.amount)
  }

  /** Adds one entry to the running groups: its group's total grows by the
      entry's amount, or a new group is opened at the end. */
  function AddTo(g: seq<Total>, e: Total): (r: seq<Total>)
    ensures KeysOf(r) == KeysOf(g) + {e.key}
    ensures DistinctKeys(g) ==> DistinctKeys(r)
    ensures forall k :: Lookup(r, k) == Lookup(g, k) + (if k == e.key then e.amount else 0.0)
  {
    if g == [] then [e]
    else
      assert g == [g[0]] + g[1..];
      KeysCons(g[0], g[1..]);
      if g[0].key == e.key then
        KeysCons(Total(e.key, g[0].amount + e.amount), g[1..]);
        [Total(e.key, g[0].amount + e.amount)] + g[1..]
      else
        var rest := AddTo(g[1..], e);
        KeysCons(g[0], rest);
        [g[0]] + rest
  }

  lemma KeysCons(t: Total, g: seq<Total>)
    ensures KeysOf([t] + g) == {t.key} + KeysOf(g)
  {
    assert forall u :: u in [t] + g <==> u == t || u in g;
  }

  /** Adding an entry raises the grand total by its amount. */
  lemma {:induction false} AddToSumAll(g: seq<Total>, e: Total)
    ensures SumAll(AddTo(g, e)) == SumAll(g) + e.amount
  {
    if g != [] {
      if g[0].key == e.key {
        SumAllCons(g[0], g[1..]);
        SumAllCons(Total(e.key, g[0].amount + e.amount), g[1..]);
        assert g == [g[0]] + g[1..];
      } else {
        AddToSumAll(g[1..], e);
        SumAllCons(g[0], g[1..]);
        SumAllCons(g[0], AddTo(g[1..], e));
        assert g == [g[0]] + g[1..];
      }
    }
  }

  lemma {:induction false} SumAllCons(t: Total, g: seq<Total>)
    ensures SumAll([t] + g) == t.amount + SumAll(g)
  {
    if g != [] {
      var n := |g| - 1;
      assert ([t] + g)[..|[t] + g| - 1] == [t] + g[..n];
      SumAllCons(t, g[..n]);
    }
  }

  /** `groupby(key)[...].sum()`: one total per distinct non-missing key;
      entries with a missing key are dropped. pandas orders the groups by
      key; this model lists them in order of first appearance instead, an
      order the descending sort that follows makes irrelevant except
      between equal totals. */
  function GroupSum(entries: seq<Total>): (r: seq<Total>)
    ensures DistinctKeys(r)
    ensures KeysOf(r) == set e | e in entries && !e.key.Null? :: e.key
    ensures forall k: Value :: !k.Null? ==> Lookup(r, k) == SumFor(entries, k)
  {
    if entries == [] then []
    else
      var init := entries[..|entries| - 1];
      var e := entries[|entries| - 1];
      var prev := GroupSum(init);
      assert forall x :: x in entries <==> x in init || x == e;
      if e.key.Null? then prev else AddTo(prev, e)
  }

  /** Grouping neither loses nor invents amount: the totals add up to the
      sum of the entries with a key. */
  lemma {:induction false} GroupSumConserves(entries: seq<Total>)
    ensures SumAll(GroupSum(entries)) == SumKeyed(entries)
  {
    if entries != [] {
      var init := entries[..|entries| - 1];
      var e := entries[|entries| - 1];
      GroupSumConserves(init);
      if !e.key.Null? {
        AddToSumAll(GroupSum(init), e);
      }
    }
  }

  /** With distinct keys, a group's recorded total is its `Lookup`. */
  lemma {:induction false} LookupMember(g: seq<Total>, t: Total)
    requires DistinctKeys(g) && t in g
    ensures Lookup(g, t.key) == t.amount
  {
    if g[0] != t {
      assert DistinctKeys(g[1..]) by {
        forall i, j | 0 <= i < j < |g[1..]| ensures g[1..][i].key != g[1..][j].key {
          assert TotalKey(g[i + 1]) != TotalKey(g[j + 1]);
        }
      }
      var i :| 0 <= i < |g| && g[i] == t;
      assert TotalKey(g[0]) != TotalKey(g[i]);
      LookupMember(g[1..], t);
    }
  }

  /** The ranking order of `sort_values("line_amount", ascending=False)`. */
  function AtLeast(a: Total, b: Total): bool
  {
    a.amount >= b.amount
  }

  lemma AtLeastIsTotalPreorder()
    ensures TotalPreorder(AtLeast)
  {
  }

  /** The totals ranked from largest to smallest. */
  function SortDesc(g: seq<Total>): (r: seq<Total>)
    ensures SortedBy(r, AtLeast)
    ensures multiset(r) == multiset(g)
  {
    AtLeastIsTotalPreorder();
    SortBy(g, AtLeast)
  }

  /** The row a merged row contributes to a group-by on `groupKey`. */
  function EntryOf(columns: seq<string>, groupKey: string): seq<Value> -> Total
  {
    row => Total(Get(columns, row, groupKey), Amount(Get(columns, row, "line_amount")))
  }

  function Entries(t: Table, groupKey: string): seq<Total>
  {
    Map(t.rows, EntryOf(t.columns, groupKey))
  }

  /** `t.groupby(groupKey)["line_amount"].sum().sort_values(ascending=False)`:
      ranked, one total per distinct non-missing key of `t`, each the sum
      of that key's rows. */
  function Aggregate(t: Table, groupKey: string): (r: seq<Total>)
    ensures SortedBy(r, AtLeast)
    ensures DistinctKeys(r)
    ensures forall k: Value :: k in KeysOf(r) <==>
      !k.Null? && exists row :: row in t.rows && Get(t.columns, row, groupKey) == k
    ensures forall x :: x in r ==> x.amount == SumFor(Entries(t, groupKey), x.key)
  {
    var entries := Entries(t, groupKey);
    var g := GroupSum(entries);
    var r := SortDesc(g);
    PermutationDistinctBy(g, r, TotalKey);
    assert forall x :: x in r <==> x in g by {
      assert forall x :: x in r <==> x in multiset(r);
    }
    forall x | x in r ensures x.amount == SumFor(entries, x.key) {
      LookupMember(g, x);
      assert x.key in KeysOf(g);
    }
    forall k ensures k in KeysOf(r) <==>
      !k.Null? && exists row :: row in t.rows && Get(t.columns, row, groupKey) == k
    {
      EntryKeys(t, groupKey, k);
    }
    r
  }

  /** The group keys are the non-missing values of the key column. */
  lemma EntryKeys(t: Table, groupKey: string, k: Value)
    ensures k in KeysOf(GroupSum(Entries(t, groupKey))) <==>
      !k.Null? && exists row :: row in t.rows && Get(t.columns, row, groupKey) == k
  {
    var f := EntryOf(t.columns, groupKey);
    if !k.Null? && exists row :: row in t.rows && Get(t.columns, row, groupKey) == k {
      var row :| row in t.rows && Get(t.columns, row, groupKey) == k;
      MapMember(t.rows, f, f(row));
    }
    if k in KeysOf(GroupSum(Entries(t, groupKey))) {
      var e :| e in Entries(t, groupKey) && !e.key.Null? && e.key == k;
      MapMember(t.rows, f, e);
    }
  }

  /** The ranking of the totals {A: 50, B: 200, C: 10} is B, A, C. */
  lemma RankingExample(a: Total, b: Total, c: Total)
    requires a.amount == 50.0 && b.amount == 200.0 && c.amount == 10.0
    ensures SortDesc([a, b, c]) == [b, a, c]
  {
    AtLeastIsTotalPreorder();
    assert [a, b, c][1..] == [b, c];
    SortedPair(b, c);
    InsertBetween(a, b, c);
  }

  /** Two totals already in descending order stay as they are. */
  lemma SortedPair(b: Total, c: Total)
    requires b.amount >= c.amount
    ensures TotalPreorder(AtLeast) && SortBy([b, c], AtLeast) == [b, c]
  {
    AtLeastIsTotalPreorder();
    assert [b, c][1..] == [c] && [c][1..] == [];
    assert SortBy([c], AtLeast) == [c];
  }

  /** A total between two descending ones is inserted between them. */
  lemma InsertBetween(a: Total, b: Total, c: Total)
    requires b.amount > a.amount >= c.amount
    ensures TotalPreorder(AtLeast) && SortedBy([b, c], AtLeast)
    ensures InsertBy(a, [b, c], AtLeast) == [b, a, c]
  {
    AtLeastIsTotalPreorder();
    assert [b, c][1..] == [c];
    InsertByPast(a, [b, c], AtLeast);
    InsertByFront(a, [c], AtLeast);
  }

  /** Merged columns need no `_x`/`_y` suffixes: the right table shares no
      column but the key with the left one. */
  predicate NoOverlap(lcols: seq<string>, rcols: seq<string>, key: string)
  {
    forall c :: c in rcols && c != key ==> c !in lcols
  }

  /** The message of the `KeyError` raised by selecting a column the
      group-by lacks. */
  function NotFound(column: string): string
  {
    "Column not found: " + column
  }

  /** `fact.merge(dim, on=joinKey, how="left").groupby(groupKey)["line_amount"]
      .sum().sort_values("line_amount", ascending=False)`. A key missing
      from the merge, the group-by or the summed column raises `KeyError`. */
  function SalesBy(fact: Table, dim: Table, joinKey: string, groupKey: string): (r: Result<seq<Total>, Error>)
    requires NoOverlap(fact.columns, dim.columns, joinKey)
    ensures r.Failure? <==>
      !(joinKey in fact.columns && joinKey in dim.columns
        && (groupKey in fact.columns || groupKey in dim.columns)
        && (("line_amount" in fact.columns) || "line_amount" in dim.columns))
    ensures r.Failure? ==> r.error == KeyError(joinKey) || r.error == KeyError(groupKey) || r.error == KeyError(NotFound("line_amount"))
    ensures joinKey !in fact.columns || joinKey !in dim.columns ==> r == Failure(KeyError(joinKey))
    ensures (joinKey in fact.columns && joinKey in dim.columns
             && groupKey !in fact.columns && groupKey !in dim.columns) ==>
      r == Failure(KeyError(groupKey))
    ensures (joinKey in fact.columns && joinKey in dim.columns
             && (groupKey in fact.columns || groupKey in dim.columns)
             && "line_amount" !in fact.columns && "line_amount" !in dim.columns) ==>
      r == Failure(KeyError(NotFound("line_amount")))
    ensures r.Success? ==> r.value == Aggregate(Merge(fact, dim, joinKey, Left), groupKey)
  {
    if joinKey !in fact.columns || joinKey !in dim.columns then Failure(KeyError(joinKey))
    else
      var merged := Merge(fact, dim, joinKey, Left);
      assert forall c :: c in merged.columns <==> c in fact.columns || c in dim.columns by {
        OtherColumnsMember(dim.columns, joinKey);
      }
      if groupKey !in merged.columns then Failure(KeyError(groupKey))
      else if "line_amount" !in merged.columns then Failure(KeyError(NotFound("line_amount")))
      else Success(Aggregate(merged, groupKey))
  }

  /** The rows the rankings sum over: one per fact row and matching
      dimension row, plus each unmatched fact row once; with a dimension
      whose join keys are distinct, exactly the fact rows, in order, each
      extended by its dimension columns. */
  lemma SalesByRows(fact: Table, dim: Table, joinKey: string)
    requires joinKey in fact.columns && joinKey in dim.columns
    ensures |Merge(fact, dim, joinKey, Left).rows| == JoinCount(fact.columns, fact.rows, dim, joinKey, Left)
    ensures UniqueKeys(dim, joinKey) ==> StartsWith(Merge(fact, dim, joinKey, Left).rows, fact.rows)
  {
    JoinRowsCount(fact.columns, fact.rows, dim, joinKey, Left);
    if UniqueKeys(dim, joinKey) {
      LeftJoinUniqueKeys(fact.columns, fact.rows, dim, joinKey);
    }
  }

  /** The groups of a successful `SalesBy` over a dimension column are
      exactly the non-missing values that column takes on a dimension row
      some fact row joins to; fact rows without a match join to a missing
      key and count towards no group. */
  lemma SalesByKeys(fact: Table, dim: Table, joinKey: string, groupKey: string, k: Value)
    requires NoOverlap(fact.columns, dim.columns, joinKey)
    requires SalesBy(fact, dim, joinKey, groupKey).Success? && groupKey !in fact.columns
    ensures k in KeysOf(SalesBy(fact, dim, joinKey, groupKey).value) <==>
      !k.Null? && exists f, d ::
                    f in fact.rows && d in dim.rows
                    && Get(dim.columns, d, joinKey) == Get(fact.columns, f, joinKey)
                    && Get(dim.columns, d, groupKey) == k
  {
    var merged := Merge(fact, dim, joinKey, Left);
    var other := OtherColumns(dim.columns, joinKey);
    if k in KeysOf(SalesBy(fact, dim, joinKey, groupKey).value) {
      var row :| row in merged.rows && Get(merged.columns, row, groupKey) == k;
      LeftJoinMember(fact.columns, fact.rows, dim, joinKey, row);
      var f :| f in fact.rows &&
        ((exists d :: d in dim.rows && Get(dim.columns, d, joinKey) == Get(fact.columns, f, joinKey)
            && row == f + DropKey(dim.columns, d, joinKey))
         || ((forall d :: d in dim.rows ==> Get(dim.columns, d, joinKey) != Get(fact.columns, f, joinKey))
             && row == f + Nulls(|dim.columns| - 1)));
      if exists d :: d in dim.rows && Get(dim.columns, d, joinKey) == Get(fact.columns, f, joinKey)
          && row == f + DropKey(dim.columns, d, joinKey) {
        var d :| d in dim.rows && Get(dim.columns, d, joinKey) == Get(fact.columns, f, joinKey)
          && row == f + DropKey(dim.columns, d, joinKey);
        JoinedGet(fact.columns, f, dim.columns, d, joinKey, groupKey);
      } else {
        PaddedGet(fact.columns, f, other, groupKey);
      }
    }
    if !k.Null? && exists f, d ::
                    f in fact.rows && d in dim.rows
                    && Get(dim.columns, d, joinKey) == Get(fact.columns, f, joinKey)
                    && Get(dim.columns, d, groupKey) == k {
      var f, d :| f in fact.rows && d in dim.rows
                    && Get(dim.columns, d, joinKey) == Get(fact.columns, f, joinKey)
                    && Get(dim.columns, d, groupKey) == k;
      var row := f + DropKey(dim.columns, d, joinKey);
      LeftJoinMember(fact.columns, fact.rows, dim, joinKey, row);
      JoinedGet(fact.columns, f, dim.columns, d, joinKey, groupKey);
      assert row in merged.rows;
    }
  }

  const ProductDimColumns: seq<string> := ["ProductID", "ProductName", "CategoryID"]

  /** `products.loc[:, ["ProductID", "ProductName", "CategoryID"]]
      .drop_duplicates()`: each distinct projection of a product once. */
  function DimProduct(products: Table): (r: Table)
    requires HasColumns(products, ProductDimColumns)
    ensures r.columns == ProductDimColumns
    ensures NoDuplicates(r.rows)
    ensures forall x :: x in r.rows <==>
      exists row :: row in products.rows && x == Pick(products.columns, row, ProductDimColumns)
  {
    var projected := Project(products, ProductDimColumns);
    forall x ensures x in projected.rows <==>
      exists row :: row in products.rows && x == Pick(products.columns, row, ProductDimColumns)
    {
      ProjectMember(products, ProductDimColumns, x);
    }
    DropDuplicates(projected)
  }

  function NotAmong(columns: seq<string>): string -> bool
  {
    c => c !in columns
  }

  /** The requested labels a table lacks, in the order requested. */
  function Absent(columns: seq<string>, names: seq<string>): (r: seq<string>)
    ensures forall c :: c in r <==> c in names && c !in columns
  {
    Filter(names, NotAmong(columns))
  }

  /** The absent labels keep the order in which they were requested. */
  lemma AbsentInOrder(columns: seq<string>, names: seq<string>)
    ensures Subsequence(Absent(columns, names), names)
  {
    FilterSubsequence(names, NotAmong(columns));
  }

  /** The optional product ranking: none unless a product table with a
      ProductID column is present; a `KeyError` naming the absent labels
      when that table lacks ProductName or CategoryID. */
  function SalesByProduct(fact: Table, products: Option<Table>): (r: Result<Option<seq<Total>>, Error>)
    requires products.Some? ==> NoOverlap(fact.columns, ProductDimColumns, "ProductID")
    ensures (r.Success? && r.value.None?) <==> products.None? || "ProductID" !in products.value.columns
    ensures r.Failure? ==> r.error.KeyError?
    ensures r.Failure? && products.Some? && !HasColumns(products.value, ProductDimColumns) ==>
      r.error == KeyError(PyListRepr(Absent(products.value.columns, ProductDimColumns)) + " not in index")
    ensures r.Success? && r.value.Some? ==>
      products.Some? && HasColumns(products.value, ProductDimColumns)
      && SalesBy(fact, DimProduct(products.value), "ProductID", "ProductName") == Success(r.value.value)
  {
    if products.None? || "ProductID" !in products.value.columns then Success(None)
    else if !HasColumns(products.value, ProductDimColumns) then
      Failure(KeyError(PyListRepr(Absent(products.value.columns, ProductDimColumns)) + " not in index"))
    else
      match SalesBy(fact, DimProduct(products.value), "ProductID", "ProductName")
      case Failure(e) => Failure(e)
      case Success(totals) => Success(Some(totals))
  }

  /** `build`: the three rankings, with the dimension and fact tables
      passed through unchanged. */
  function Build(dim: Table, fact: Table, products: Option<Table>): (r: Result<Built, Error>)
    requires NoOverlap(fact.columns, dim.columns, "CustomerID")
    requires products.Some? ==> NoOverlap(fact.columns, ProductDimColumns, "ProductID")
    ensures r.Success? ==> r.value.dimCustomer == dim && r.value.factSales == fact
    ensures r.Success? ==>
      && Success(r.value.salesByCustomer) == SalesBy(fact, dim, "CustomerID", "CompanyName")
      && Success(r.value.salesByCountry) == SalesBy(fact, dim, "CustomerID", "Country")
    ensures r.Success? ==>
      (r.value.salesByProduct.Some? <==> products.Some? && "ProductID" in products.value.columns)
    ensures r.Failure? ==> r.error.KeyError?
    ensures SalesBy(fact, dim, "CustomerID", "CompanyName").Failure? ==>
      r == Failure(SalesBy(fact, dim, "CustomerID", "CompanyName").error)
    ensures (SalesBy(fact, dim, "CustomerID", "CompanyName").Success?
             && SalesBy(fact, dim, "CustomerID", "Country").Failure?) ==>
      r == Failure(SalesBy(fact, dim, "CustomerID", "Country").error)
    ensures (SalesBy(fact, dim, "CustomerID", "CompanyName").Success?
             && SalesBy(fact, dim, "CustomerID", "Country").Success?
             && SalesByProduct(fact, products).Failure?) ==>
      r == Failure(SalesByProduct(fact, products).error)
    ensures r.Success? <==>
      SalesBy(fact, dim, "CustomerID", "CompanyName").Success?
      && SalesBy(fact, dim, "CustomerID", "Country").Success?
      && SalesByProduct(fact, products).Success?
  {
    var byCustomer := SalesBy(fact, dim, "CustomerID", "CompanyName");
    var byCountry := SalesBy(fact, dim, "CustomerID", "Country");
    var byProduct := SalesByProduct(fact, products);
    if byCustomer.Failure? then Failure(byCustomer.error)
    else if byCountry.Failure? then Failure(byCountry.error)
    else if byProduct.Failure? then Failure(byProduct.error)
    else Success(Built(dim, fact, byCustomer.value, byCountry.value, byProduct.value))
  }
}

=== FILE: dq.dfy ===
/** The data-quality rule engine run on the cleaned tables, and the summary
    and detail rows it logs. */
module DataQuality {
  import opened Wrappers
  import opened Text
  import opened Seqs
  import opened Tables

  const RequiredOrderColumns: seq<string> := ["OrderID", "CustomerID", "OrderDate"]
  const NumericDetailColumns: seq<string> := ["Quantity", "UnitPrice", "Discount"]

  /** One violated rule; `Message()` is the text the pipeline records. */
  datatype Issue =
    | MissingOrderColumns(missing: seq<string>)
    | OrderIdNulls
    | OrderIdNotPositive
    | QuantityNotPositive
    | UnitPriceNegative
    | DiscountOutOfRange(bad: nat)
    | MissingCustomerFk(orphans: nat)
  {
    /** The position of the rule in the battery. */
    function Rank(): (r: nat)
      ensures r <= 6
    {
      match this
      case MissingOrderColumns(_) => 0
      case OrderIdNulls => 1
      case OrderIdNotPositive => 2
      case QuantityNotPositive => 3
      case UnitPriceNegative => 4
      case DiscountOutOfRange(_) => 5
      case MissingCustomerFk(_) => 6
    }

    /** The table the rule inspects. */
    function Table(): string
    {
      if 3 <= Rank() <= 5 then "order_details" else "orders"
    }

    /** What the rule found. */
    function Finding(): string
    {
      match this
      case MissingOrderColumns(cols) => "missing columns " + PyListRepr(cols)
      case OrderIdNulls => "OrderID has nulls"
      case OrderIdNotPositive => "OrderID must be > 0"
      case QuantityNotPositive => "Quantity must be > 0"
      case UnitPriceNegative => "UnitPrice must be >= 0"
      case DiscountOutOfRange(n) => "Discount must be 0..1 (bad=" + NatToString(n) + ")"
      case MissingCustomerFk(n) => "missing customer FK (" + NatToString(n) + ")"
    }

    /** The issue text: it opens with the name of the table the rule inspects. */
    function Message(): (r: string)
      ensures Table() + ": " <= r
      ensures 3 <= Rank() <= 5 ==> "order_details: " <= r
      ensures !(3 <= Rank() <= 5) ==> "orders: " <= r
    {
      Table() + ": " + Finding()
    }
  }

  /** The issue texts, in order. */
  function Messages(issues: seq<Issue>): seq<string>
  {
    Map(issues, (x: Issue) => x.Message())
  }

  /** Issues appear in the order of the rules that raised them, at most one per rule. */
  predicate RankOrdered(issues: seq<Issue>)
  {
    forall i, j :: 0 <= i < j < |issues| ==> issues[i].Rank() < issues[j].Rank()
  }

  /** A list ordered by strictly increasing rank, all of rank `lo` or more,
      holds at most one issue per remaining rule. */
  lemma {:induction false} RankBound(issues: seq<Issue>, lo: nat)
    requires lo <= 7
    requires RankOrdered(issues)
    requires forall x :: x in issues ==> lo <= x.Rank()
    ensures |issues| + lo <= 7
  {
    if issues != [] {
      assert issues[0] in issues;
      var rest := issues[1..];
      assert RankOrdered(rest) by {
        forall i, j | 0 <= i < j < |rest| ensures rest[i].Rank() < rest[j].Rank() {
          assert rest[i] == issues[i + 1] && rest[j] == issues[j + 1];
        }
      }
      forall x | x in rest ensures lo + 1 <= x.Rank() {
        var k :| 0 <= k < |rest| && rest[k] == x;
        assert issues[0].Rank() < issues[k + 1].Rank();
      }
      if rest != [] {
        assert rest[0] in rest;
        RankBound(rest, lo + 1);
      }
    }
  }

  /** Cells that cannot be compared with a number: `<=` on them raises TypeError. */
  predicate Incomparable(v: Value)
  {
    v.Text? || v.Stamp? || v.Day?
  }

  predicate NonPositive(v: Value)
  {
    v.Num? && v.n <= 0.0
  }

  predicate Negative(v: Value)
  {
    v.Num? && v.n < 0.0
  }

  /** `v < 0 | v > 1`; a null cell compares false both ways. */
  predicate OutsideUnit(v: Value)
  {
    v.Num? && (v.n < 0.0 || v.n > 1.0)
  }

  /** One cell through `pd.to_numeric(errors="coerce")`. */
  function Coerce(parseNum: string -> Option<real>, v: Value): (r: Value)
    ensures r.Null? || r.Num?
    ensures v.Null? || v.Num? ==> r == v
    ensures r.Num? <==> ToNumeric(parseNum, v).Some?
    ensures r.Num? ==> r.n == ToNumeric(parseNum, v).value
  {
    NumOrNull(ToNumeric(parseNum, v))
  }

  /** The cell-wise rewrite `pd.to_numeric` applies to a column. */
  function Coercer(parseNum: string -> Option<real>): Value -> Value
  {
    v => Coerce(parseNum, v)
  }

  /** `df[c] = pd.to_numeric(df[c], errors="coerce")` for each listed column
      the frame has; the others are skipped. */
  function CoerceNumeric(t: Table, cols: seq<string>, parseNum: string -> Option<real>): (r: Table)
    ensures r.columns == t.columns && |r.rows| == |t.rows|
  {
    if cols == [] then t
    else
      var prev := CoerceNumeric(t, cols[..|cols| - 1], parseNum);
      var c := cols[|cols| - 1];
      if c in prev.columns then MapColumn(prev, c, Coercer(parseNum)) else prev
  }

  /** What a cell of a coerced frame reads: the coerced original cell in a
      listed column the frame has, the original cell in any other. */
  lemma {:induction false} CoerceNumericGet(t: Table, cols: seq<string>, parseNum: string -> Option<real>, i: nat, c: string)
    requires i < |t.rows|
    ensures var r := CoerceNumeric(t, cols, parseNum);
      Get(r.columns, r.rows[i], c) ==
        if c in cols && c in t.columns then Coerce(parseNum, Get(t.columns, t.rows[i], c))
        else Get(t.columns, t.rows[i], c)
  {
    if cols != [] {
      var init := cols[..|cols| - 1];
      CoerceNumericGet(t, init, parseNum, i, c);
      CoerceLastGet(t, cols, parseNum, i, c);
      assert c in cols <==> c in init || c == cols[|cols| - 1] by {
        assert cols == init + [cols[|cols| - 1]];
      }
    }
  }

  /** The last iteration of the coercion loop rewrites one cell of a row
      when the frame has its column. */
  lemma CoerceLastGet(t: Table, cols: seq<string>, parseNum: string -> Option<real>, i: nat, c: string)
    requires cols != [] && i < |t.rows|
    ensures var prev := CoerceNumeric(t, cols[..|cols| - 1], parseNum);
      var r := CoerceNumeric(t, cols, parseNum);
      Get(r.columns, r.rows[i], c) ==
        if c == cols[|cols| - 1] && c in t.columns then Coerce(parseNum, Get(prev.columns, prev.rows[i], c))
        else Get(prev.columns, prev.rows[i], c)
  {
    var prev := CoerceNumeric(t, cols[..|cols| - 1], parseNum);
    var last := cols[|cols| - 1];
    if last in prev.columns {
      MapColumnGet(prev, last, Coercer(parseNum), i, c);
    }
  }

  /** One more iteration of the coercion loop rewrites the next column
      when the frame has it and skips it otherwise. */
  lemma CoerceStep(t: Table, cols: seq<string>, k: nat, parseNum: string -> Option<real>)
    requires k < |cols|
    ensures var prev := CoerceNumeric(t, cols[..k], parseNum);
      CoerceNumeric(t, cols[..k + 1], parseNum)
        == if cols[k] in t.columns then MapColumn(prev, cols[k], Coercer(parseNum)) else prev
  {
    assert cols[..k + 1] == cols[..k] + [cols[k]];
    CoerceAppend(t, cols[..k], cols[k], parseNum);
  }

  /** Coercing one more listed column rewrites it when the frame has it. */
  lemma CoerceAppend(t: Table, cols: seq<string>, c: string, parseNum: string -> Option<real>)
    ensures var prev := CoerceNumeric(t, cols, parseNum);
      CoerceNumeric(t, cols + [c], parseNum)
        == if c in t.columns then MapColumn(prev, c, Coercer(parseNum)) else prev
  {
    assert (cols + [c])[..|cols|] == cols;
  }

  /** Rewriting a column with a function that fixes each of its cells
      leaves the frame as it is. */
  lemma MapColumnFixed(t: Table, c: string, f: Value -> Value)
    requires c in t.columns
    requires forall i :: 0 <= i < |t.rows| ==> f(Get(t.columns, t.rows[i], c)) == Get(t.columns, t.rows[i], c)
    ensures MapColumn(t, c, f) == t
  {
    var r := MapColumn(t, c, f);
    var k := IndexOf(t.columns, c).value;
    forall i | 0 <= i < |t.rows| ensures r.rows[i] == t.rows[i] {
      assert t.rows[i] in t.rows;
      assert r.rows[i] == t.rows[i][k := t.rows[i][k]];
    }
    assert r.rows == t.rows;
  }

  /** Coercing a frame whose listed columns hold only numbers and nulls
      leaves it as it is. */
  lemma {:induction false} CoerceNumericNumeric(t: Table, cols: seq<string>, parseNum: string -> Option<real>)
    requires forall i, c :: 0 <= i < |t.rows| && c in cols ==>
      Get(t.columns, t.rows[i], c).Null? || Get(t.columns, t.rows[i], c).Num?
    ensures CoerceNumeric(t, cols, parseNum) == t
  {
    if cols != [] {
      var init := cols[..|cols| - 1];
      var c := cols[|cols| - 1];
      forall i, x | 0 <= i < |t.rows| && x in init
        ensures Get(t.columns, t.rows[i], x).Null? || Get(t.columns, t.rows[i], x).Num?
      {
        assert x in cols;
      }
      CoerceNumericNumeric(t, init, parseNum);
      if c in t.columns {
        forall i | 0 <= i < |t.rows|
          ensures Coercer(parseNum)(Get(t.columns, t.rows[i], c)) == Get(t.columns, t.rows[i], c)
        {
          assert c in cols;
        }
        MapColumnFixed(t, c, Coercer(parseNum));
      }
    }
  }

  /** `(~orders.CustomerID.isin(customers.CustomerID)).sum()`; a null key
      matches a null key. */
  function OrphanCount(customers: Table, orders: Table): nat
  {
    Count(Column(orders, "CustomerID"), Unmatched(Column(customers, "CustomerID")))
  }

  /** `~isin(known)` on one cell. */
  function Unmatched(known: seq<Value>): Value -> bool
  {
    v => v !in known
  }

  /** `[x]` when the rule fires, nothing otherwise: one `issues.append`. */
  function When(fires: bool, x: Issue): seq<Issue>
  {
    if fires then [x] else []
  }

  predicate OrderIdHasNull(orders: Table)
  {
    Null in Column(orders, "OrderID")
  }

  predicate OrderIdHasNonPositive(orders: Table)
  {
    exists v :: v in Column(orders, "OrderID") && NonPositive(v)
  }

  predicate QuantityHasNonPositive(od: Table)
  {
    exists v :: v in Column(od, "Quantity") && NonPositive(v)
  }

  predicate UnitPriceHasNegative(od: Table)
  {
    exists v :: v in Column(od, "UnitPrice") && Negative(v)
  }

  /** `(od.Discount.lt(0) | od.Discount.gt(1)).sum()`. */
  function BadDiscounts(od: Table): nat
  {
    Count(Column(od, "Discount"), OutsideUnit)
  }

  /** `"CustomerID" in customers and "CustomerID" in orders`. */
  predicate FkChecked(customers: Table, orders: Table)
  {
    "CustomerID" in customers.columns && "CustomerID" in orders.columns
  }

  /** The issues the value rules raise, in the order the rules run. */
  function RuleIssues(customers: Table, orders: Table, od: Table): seq<Issue>
  {
    Chain(OrderIdHasNull(orders), OrderIdHasNonPositive(orders), QuantityHasNonPositive(od),
          UnitPriceHasNegative(od), BadDiscounts(od),
          FkChecked(customers, orders) && OrphanCount(customers, orders) > 0, OrphanCount(customers, orders))
  }

  /** The six `append`s of the value rules, given which rules fired and the
      two counts. */
  function Chain(nulls: bool, nonPositive: bool, quantity: bool, price: bool, bad: nat, fk: bool, orphans: nat): seq<Issue>
  {
    When(nulls, OrderIdNulls) + When(nonPositive, OrderIdNotPositive)
    + When(quantity, QuantityNotPositive) + When(price, UnitPriceNegative)
    + When(bad > 0, DiscountOutOfRange(bad)) + When(fk, MissingCustomerFk(orphans))
  }

  /** Appending the issue of a later rule keeps the list in rule order. */
  lemma AppendRanked(s: seq<Issue>, fires: bool, x: Issue)
    requires RankOrdered(s)
    requires forall y :: y in s ==> y.Rank() < x.Rank()
    ensures RankOrdered(s + When(fires, x))
    ensures forall y :: y in s + When(fires, x) ==> y.Rank() <= x.Rank()
  {
    var r := s + When(fires, x);
    forall i, j | 0 <= i < j < |r| ensures r[i].Rank() < r[j].Rank() {
      if j >= |s| {
        assert r[i] in s;
      }
    }
  }

  /** Whether a run gets as far as coercing the detail columns. */
  predicate ReachesCoercion(orders: Table)
  {
    && MissingColumns(orders.columns, RequiredOrderColumns) == []
    && !(exists v :: v in Column(orders, "OrderID") && Incomparable(v))
  }

  /** Whichever rules fire, their issues come out in rule order. */
  lemma ChainOrdered(nulls: bool, nonPositive: bool, quantity: bool, price: bool, bad: nat, fk: bool, orphans: nat)
    ensures var s := Chain(nulls, nonPositive, quantity, price, bad, fk, orphans);
      RankOrdered(s) && (forall x :: x in s ==> 1 <= x.Rank()) && |s| <= 6
  {
    var s0 := When(nulls, OrderIdNulls);
    AppendRanked(s0, nonPositive, OrderIdNotPositive);
    var s1 := s0 + When(nonPositive, OrderIdNotPositive);
    AppendRanked(s1, quantity, QuantityNotPositive);
    var s2 := s1 + When(quantity, QuantityNotPositive);
    AppendRanked(s2, price, UnitPriceNegative);
    var s3 := s2 + When(price, UnitPriceNegative);
    AppendRanked(s3, bad > 0, DiscountOutOfRange(bad));
    var s4 := s3 + When(bad > 0, DiscountOutOfRange(bad));
    AppendRanked(s4, fk, MissingCustomerFk(orphans));
    var s5 := s4 + When(fk, MissingCustomerFk(orphans));
    forall x | x in s5 ensures 1 <= x.Rank() {
      assert x in s0 || x in s1 || x in s2 || x in s3 || x in s4 || x.Rank() == 6;
    }
    RankBound(s5, 1);
  }

  /** Each issue is in the list exactly when its rule fired, carrying its count. */
  lemma ChainMembers(nulls: bool, nonPositive: bool, quantity: bool, price: bool, bad: nat, fk: bool, orphans: nat)
    ensures var s := Chain(nulls, nonPositive, quantity, price, bad, fk, orphans);
      && (OrderIdNulls in s <==> nulls)
      && (OrderIdNotPositive in s <==> nonPositive)
      && (QuantityNotPositive in s <==> quantity)
      && (UnitPriceNegative in s <==> price)
      && (forall n :: DiscountOutOfRange(n) in s <==> bad > 0 && n == bad)
      && (forall n :: MissingCustomerFk(n) in s <==> fk && n == orphans)
      && (s == [] <==> !nulls && !nonPositive && !quantity && !price && bad == 0 && !fk)
  {
    ChainEmpty(nulls, nonPositive, quantity, price, bad, fk, orphans);
    var s := Chain(nulls, nonPositive, quantity, price, bad, fk, orphans);
    ChainMember(nulls, nonPositive, quantity, price, bad, fk, orphans, OrderIdNulls);
    ChainMember(nulls, nonPositive, quantity, price, bad, fk, orphans, OrderIdNotPositive);
    ChainMember(nulls, nonPositive, quantity, price, bad, fk, orphans, QuantityNotPositive);
    ChainMember(nulls, nonPositive, quantity, price, bad, fk, orphans, UnitPriceNegative);
    forall n ensures DiscountOutOfRange(n) in s <==> bad > 0 && n == bad {
      ChainMember(nulls, nonPositive, quantity, price, bad, fk, orphans, DiscountOutOfRange(n));
    }
    forall n ensures MissingCustomerFk(n) in s <==> fk && n == orphans {
      ChainMember(nulls, nonPositive, quantity, price, bad, fk, orphans, MissingCustomerFk(n));
    }
  }

  /** The rule issues a chain of `append`s may hold, given which rules fired. */
  predicate ChainHas(nulls: bool, nonPositive: bool, quantity: bool, price: bool, bad: nat, fk: bool, orphans: nat, y: Issue)
  {
    || (nulls && y == OrderIdNulls)
    || (nonPositive && y == OrderIdNotPositive)
    || (quantity && y == QuantityNotPositive)
    || (price && y == UnitPriceNegative)
    || (bad > 0 && y == DiscountOutOfRange(bad))
    || (fk && y == MissingCustomerFk(orphans))
  }

  lemma ChainMember(nulls: bool, nonPositive: bool, quantity: bool, price: bool, bad: nat, fk: bool, orphans: nat, y: Issue)
    ensures y in Chain(nulls, nonPositive, quantity, price, bad, fk, orphans) <==> ChainHas(nulls, nonPositive, quantity, price, bad, fk, orphans, y)
  {
    var s0 := When(nulls, OrderIdNulls);
    var s1 := s0 + When(nonPositive, OrderIdNotPositive);
    AppendMember(s0, nonPositive, OrderIdNotPositive);
    var s2 := s1 + When(quantity, QuantityNotPositive);
    AppendMember(s1, quantity, QuantityNotPositive);
    var s3 := s2 + When(price, UnitPriceNegative);
    AppendMember(s2, price, UnitPriceNegative);
    var s4 := s3 + When(bad > 0, DiscountOutOfRange(bad));
    AppendMember(s3, bad > 0, DiscountOutOfRange(bad));
    AppendMember(s4, fk, MissingCustomerFk(orphans));
  }

  /** The list is empty exactly when no rule fired. */
  lemma ChainEmpty(nulls: bool, nonPositive: bool, quantity: bool, price: bool, bad: nat, fk: bool, orphans: nat)
    ensures Chain(nulls, nonPositive, quantity, price, bad, fk, orphans) == [] <==>
      !nulls && !nonPositive && !quantity && !price && bad == 0 && !fk
  {
    var s := Chain(nulls, nonPositive, quantity, price, bad, fk, orphans);
    assert |s| == |When(nulls, OrderIdNulls)| + |When(nonPositive, OrderIdNotPositive)|
      + |When(quantity, QuantityNotPositive)| + |When(price, UnitPriceNegative)|
      + |When(bad > 0, DiscountOutOfRange(bad))| + |When(fk, MissingCustomerFk(orphans))|;
  }

  /** What one `append` adds to the list. */
  lemma AppendMember(s: seq<Issue>, fires: bool, x: Issue)
    ensures forall y :: y in s + When(fires, x) <==> y in s || (fires && y == x)
  {
  }

  /** The issues of the value rules, seen rule by rule. */
  lemma RuleIssuesMembers(customers: Table, orders: Table, od: Table)
    ensures var s := RuleIssues(customers, orders, od);
      && (OrderIdNulls in s <==> OrderIdHasNull(orders))
      && (OrderIdNotPositive in s <==> OrderIdHasNonPositive(orders))
      && (QuantityNotPositive in s <==> QuantityHasNonPositive(od))
      && (UnitPriceNegative in s <==> UnitPriceHasNegative(od))
      && (forall n :: DiscountOutOfRange(n) in s <==> BadDiscounts(od) > 0 && n == BadDiscounts(od))
      && (forall n :: MissingCustomerFk(n) in s <==>
            FkChecked(customers, orders) && OrphanCount(customers, orders) > 0 && n == OrphanCount(customers, orders))
      && (s == [] <==>
            && !OrderIdHasNull(orders) && !OrderIdHasNonPositive(orders)
            && !QuantityHasNonPositive(od) && !UnitPriceHasNegative(od) && BadDiscounts(od) == 0
            && !(FkChecked(customers, orders) && OrphanCount(customers, orders) > 0))
  {
    var orphans := OrphanCount(customers, orders);
    ChainMembers(OrderIdHasNull(orders), OrderIdHasNonPositive(orders),
      QuantityHasNonPositive(od), UnitPriceHasNegative(od), BadDiscounts(od),
      FkChecked(customers, orders) && orphans > 0, orphans);
  }

  /** The value rules raise issues in rule order, at most six. */
  lemma RuleIssuesOrdered(customers: Table, orders: Table, od: Table)
    ensures RankOrdered(RuleIssues(customers, orders, od))
    ensures |RuleIssues(customers, orders, od)| <= 6
  {
    var orphans := OrphanCount(customers, orders);
    ChainOrdered(OrderIdHasNull(orders), OrderIdHasNonPositive(orders),
      QuantityHasNonPositive(od), UnitPriceHasNegative(od), BadDiscounts(od),
      FkChecked(customers, orders) && orphans > 0, orphans);
  }

  /** The value rules never report a schema miss. */
  lemma RuleIssuesNoSchemaMiss(customers: Table, orders: Table, od: Table)
    ensures forall x :: x in RuleIssues(customers, orders, od) ==> !x.MissingOrderColumns?
  {
    var orphans := OrphanCount(customers, orders);
    ChainOrdered(OrderIdHasNull(orders), OrderIdHasNonPositive(orders),
      QuantityHasNonPositive(od), UnitPriceHasNegative(od), BadDiscounts(od),
      FkChecked(customers, orders) && orphans > 0, orphans);
  }

  /** The outcome of one run of the rule battery: the issues raised, or the
      exception a cell of the wrong type or a missing detail column raises. */
  function Checks(customers: Table, orders: Table, od: Table, parseNum: string -> Option<real>): (r: Result<seq<Issue>, Error>)
    ensures var missing := MissingColumns(orders.columns, RequiredOrderColumns);
      missing != [] ==> r == Success([MissingOrderColumns(missing)])
    ensures r.Success? ==> RankOrdered(r.value)
    ensures r.Success? && ReachesCoercion(orders) ==> |r.value| <= 6
    ensures r.Failure? <==>
      (&& MissingColumns(orders.columns, RequiredOrderColumns) == []
       && ((exists v :: v in Column(orders, "OrderID") && Incomparable(v))
           || !HasColumns(od, NumericDetailColumns)))
    ensures r.Failure? ==> r.error == TypeError("OrderID") || MissingDetail(r.error, od.columns)
    ensures (MissingColumns(orders.columns, RequiredOrderColumns) == []
             && exists v :: v in Column(orders, "OrderID") && Incomparable(v)) ==>
      r == Failure(TypeError("OrderID"))
    ensures ReachesCoercion(orders) && "Quantity" !in od.columns ==> r == Failure(KeyError("Quantity"))
    ensures ReachesCoercion(orders) && "Quantity" in od.columns && "UnitPrice" !in od.columns ==>
      r == Failure(KeyError("UnitPrice"))
    ensures (ReachesCoercion(orders) && "Quantity" in od.columns && "UnitPrice" in od.columns
             && "Discount" !in od.columns) ==>
      r == Failure(KeyError("Discount"))
  {
    var missing := MissingColumns(orders.columns, RequiredOrderColumns);
    if missing != [] then Success([MissingOrderColumns(missing)])
    else if exists v :: v in Column(orders, "OrderID") && Incomparable(v) then Failure(TypeError("OrderID"))
    else DetailOutcome(customers, orders, CoerceNumeric(od, NumericDetailColumns, parseNum))
  }

  /** The KeyError raised on reading a numeric detail column the table lacks. */
  predicate MissingDetail(e: Error, columns: seq<string>)
  {
    e.KeyError? && e.message in NumericDetailColumns && e.message !in columns
  }

  /** The battery from the coercion loop on, given the coerced details:
      reading a missing detail column raises, else the value rules run. */
  function DetailOutcome(customers: Table, orders: Table, coerced: Table): (r: Result<seq<Issue>, Error>)
    ensures r.Failure? <==> !HasColumns(coerced, NumericDetailColumns)
    ensures r.Success? ==> RankOrdered(r.value) && |r.value| <= 6
    ensures r.Failure? ==> MissingDetail(r.error, coerced.columns)
    ensures "Quantity" !in coerced.columns ==> r == Failure(KeyError("Quantity"))
    ensures "Quantity" in coerced.columns && "UnitPrice" !in coerced.columns ==> r == Failure(KeyError("UnitPrice"))
    ensures "Quantity" in coerced.columns && "UnitPrice" in coerced.columns && "Discount" !in coerced.columns ==>
      r == Failure(KeyError("Discount"))
  {
    if "Quantity" !in coerced.columns then Failure(KeyError("Quantity"))
    else if "UnitPrice" !in coerced.columns then Failure(KeyError("UnitPrice"))
    else if "Discount" !in coerced.columns then Failure(KeyError("Discount"))
    else
      RuleIssuesOrdered(customers, orders, coerced);
      Success(RuleIssues(customers, orders, coerced))
  }

  /** The coerced detail column holds each original cell through `pd.to_numeric`. */
  lemma CoercedColumn(od: Table, parseNum: string -> Option<real>, c: string)
    requires c in NumericDetailColumns && c in od.columns
    ensures var coerced := CoerceNumeric(od, NumericDetailColumns, parseNum);
      forall i :: 0 <= i < |od.rows| ==>
        Get(coerced.columns, coerced.rows[i], c) == Coerce(parseNum, Get(od.columns, od.rows[i], c))
  {
    forall i | 0 <= i < |od.rows|
      ensures var coerced := CoerceNumeric(od, NumericDetailColumns, parseNum);
        Get(coerced.columns, coerced.rows[i], c) == Coerce(parseNum, Get(od.columns, od.rows[i], c))
    {
      CoerceNumericGet(od, NumericDetailColumns, parseNum, i, c);
    }
  }

  /** A test holds of some coerced cell exactly when it holds of some
      original cell once coerced. */
  lemma CoercedAny(od: Table, parseNum: string -> Option<real>, c: string, p: Value -> bool)
    requires c in NumericDetailColumns && c in od.columns
    ensures (exists v :: v in Column(CoerceNumeric(od, NumericDetailColumns, parseNum), c) && p(v)) <==>
      exists i :: 0 <= i < |od.rows| && p(Coerce(parseNum, Get(od.columns, od.rows[i], c)))
  {
    CoercedColumn(od, parseNum, c);
    ColumnAny(CoerceNumeric(od, NumericDetailColumns, parseNum), c, p);
  }

  /** The Discount count is the number of rows whose coerced Discount lies outside 0..1. */
  lemma CoercedBadDiscounts(od: Table, parseNum: string -> Option<real>)
    requires "Discount" in od.columns
    ensures BadDiscounts(CoerceNumeric(od, NumericDetailColumns, parseNum)) == |BadDiscountRows(od, parseNum)|
  {
    var d := Column(CoerceNumeric(od, NumericDetailColumns, parseNum), "Discount");
    CountIsCardinality(d, OutsideUnit);
    assert "Discount" in NumericDetailColumns;
    CoercedColumn(od, parseNum, "Discount");
    forall i | 0 <= i < |d|
      ensures OutsideUnit(d[i]) == DiscountOutside(parseNum)(Column(od, "Discount")[i])
    {
    }
    PositionsPointwise(d, OutsideUnit, Column(od, "Discount"), DiscountOutside(parseNum));
  }

  /** The FK count is the number of orders whose CustomerID no customer carries. */
  lemma OrphanCountRows(customers: Table, orders: Table)
    ensures OrphanCount(customers, orders) == |OrphanRows(customers, orders)|
  {
    var ids := Column(orders, "CustomerID");
    var orphan := Unmatched(Column(customers, "CustomerID"));
    CountIsCardinality(ids, orphan);
    var counted := Positions(ids, orphan);
    forall i ensures i in counted <==> i in OrphanRows(customers, orders) {
      if 0 <= i < |ids| {
        assert orphan(ids[i]) == (Get(orders.columns, orders.rows[i], "CustomerID") !in Column(customers, "CustomerID"));
      }
    }
    assert counted == OrphanRows(customers, orders);
  }

  /** A Discount cell that, once coerced, lies outside 0..1. */
  function DiscountOutside(parseNum: string -> Option<real>): Value -> bool
  {
    v => OutsideUnit(Coerce(parseNum, v))
  }

  /** The rows whose Discount, once coerced, lies outside 0..1. */
  ghost function BadDiscountRows(od: Table, parseNum: string -> Option<real>): set<int>
  {
    Positions(Column(od, "Discount"), DiscountOutside(parseNum))
  }

  /** The orders whose CustomerID no customer row carries. */
  ghost function OrphanRows(customers: Table, orders: Table): set<int>
  {
    set i | 0 <= i < |orders.rows| && Get(orders.columns, orders.rows[i], "CustomerID") !in Column(customers, "CustomerID")
  }

  /** The issues a run raises once the schema check passes and no cell
      breaks the comparisons. */
  lemma ChecksReachRules(customers: Table, orders: Table, od: Table, parseNum: string -> Option<real>)
    requires ReachesCoercion(orders) && HasColumns(od, NumericDetailColumns)
    ensures Checks(customers, orders, od, parseNum)
      == Success(RuleIssues(customers, orders, CoerceNumeric(od, NumericDetailColumns, parseNum)))
  {
    var coerced := CoerceNumeric(od, NumericDetailColumns, parseNum);
    assert Checks(customers, orders, od, parseNum) == DetailOutcome(customers, orders, coerced);
    DetailOutcomeRules(customers, orders, coerced);
  }

  /** With every numeric detail column present, the detail part of the
      battery runs the value rules. */
  lemma DetailOutcomeRules(customers: Table, orders: Table, coerced: Table)
    requires HasColumns(coerced, NumericDetailColumns)
    ensures DetailOutcome(customers, orders, coerced) == Success(RuleIssues(customers, orders, coerced))
  {
    var n := NumericDetailColumns;
    assert n[0] in n && n[1] in n && n[2] in n;
  }

  /** The OrderID rules fire exactly when some order has a null, or a
      non-positive, OrderID. */
  lemma OrderIdRules(customers: Table, orders: Table, od: Table, parseNum: string -> Option<real>)
    requires ReachesCoercion(orders) && HasColumns(od, NumericDetailColumns)
    ensures var issues := Checks(customers, orders, od, parseNum).value;
      && (OrderIdNulls in issues <==>
            exists i :: 0 <= i < |orders.rows| && Get(orders.columns, orders.rows[i], "OrderID").Null?)
      && (OrderIdNotPositive in issues <==>
            exists i :: 0 <= i < |orders.rows| && NonPositive(Get(orders.columns, orders.rows[i], "OrderID")))
  {
    ChecksReachRules(customers, orders, od, parseNum);
    RuleIssuesMembers(customers, orders, CoerceNumeric(od, NumericDetailColumns, parseNum));
    ColumnAny(orders, "OrderID", NonPositive);
    ColumnAny(orders, "OrderID", (v: Value) => v.Null?);
    assert OrderIdHasNull(orders) <==> exists v :: v in Column(orders, "OrderID") && v == Null;
  }

  /** The Quantity rule fires exactly when some Quantity parses to a number
      at most 0, the UnitPrice rule exactly when some UnitPrice parses to a
      negative number; a null or unparseable cell never fires either. */
  lemma DetailValueRules(customers: Table, orders: Table, od: Table, parseNum: string -> Option<real>)
    requires ReachesCoercion(orders) && HasColumns(od, NumericDetailColumns)
    ensures var issues := Checks(customers, orders, od, parseNum).value;
      && (QuantityNotPositive in issues <==>
            exists i :: 0 <= i < |od.rows| && NonPositive(Coerce(parseNum, Get(od.columns, od.rows[i], "Quantity"))))
      && (UnitPriceNegative in issues <==>
            exists i :: 0 <= i < |od.rows| && Negative(Coerce(parseNum, Get(od.columns, od.rows[i], "UnitPrice"))))
  {
    ChecksReachRules(customers, orders, od, parseNum);
    RuleIssuesMembers(customers, orders, CoerceNumeric(od, NumericDetailColumns, parseNum));
    assert "Quantity" in NumericDetailColumns && "UnitPrice" in NumericDetailColumns;
    CoercedAny(od, parseNum, "Quantity", NonPositive);
    CoercedAny(od, parseNum, "UnitPrice", Negative);
  }

  /** The Discount rule fires exactly when some coerced Discount lies outside
      0..1, and reports how many rows do; null discounts are not counted. */
  lemma DiscountRule(customers: Table, orders: Table, od: Table, parseNum: string -> Option<real>)
    requires ReachesCoercion(orders) && HasColumns(od, NumericDetailColumns)
    ensures var issues := Checks(customers, orders, od, parseNum).value;
      forall n :: DiscountOutOfRange(n) in issues <==> n > 0 && n == |BadDiscountRows(od, parseNum)|
  {
    ChecksReachRules(customers, orders, od, parseNum);
    RuleIssuesMembers(customers, orders, CoerceNumeric(od, NumericDetailColumns, parseNum));
    assert "Discount" in NumericDetailColumns;
    CoercedBadDiscounts(od, parseNum);
  }

  /** The FK rule fires exactly when customers has a CustomerID column and
      some order's CustomerID is not among it, and reports how many orders. */
  lemma FkRule(customers: Table, orders: Table, od: Table, parseNum: string -> Option<real>)
    requires ReachesCoercion(orders) && HasColumns(od, NumericDetailColumns)
    ensures var issues := Checks(customers, orders, od, parseNum).value;
      forall n :: MissingCustomerFk(n) in issues <==>
        "CustomerID" in customers.columns && n > 0 && n == |OrphanRows(customers, orders)|
  {
    ChecksReachRules(customers, orders, od, parseNum);
    RuleIssuesMembers(customers, orders, CoerceNumeric(od, NumericDetailColumns, parseNum));
    OrphanCountRows(customers, orders);
    assert "CustomerID" in orders.columns by {
      assert "CustomerID" in RequiredOrderColumns;
    }
  }

  /** No OrderID rule fires exactly when every OrderID is a non-null value above 0. */
  lemma OrderIdRulesPass(orders: Table)
    ensures !OrderIdHasNull(orders) && !OrderIdHasNonPositive(orders) <==>
      forall i :: 0 <= i < |orders.rows| ==>
        var id := Get(orders.columns, orders.rows[i], "OrderID"); !id.Null? && !NonPositive(id)
  {
    ColumnAny(orders, "OrderID", NonPositive);
    ColumnAny(orders, "OrderID", (v: Value) => v.Null?);
    assert OrderIdHasNull(orders) <==> exists v :: v in Column(orders, "OrderID") && v == Null;
  }

  /** No detail rule fires exactly when every coerced Quantity, UnitPrice and
      Discount is in range or null. */
  lemma DetailRulesPass(od: Table, parseNum: string -> Option<real>)
    requires HasColumns(od, NumericDetailColumns)
    ensures var coerced := CoerceNumeric(od, NumericDetailColumns, parseNum);
      !QuantityHasNonPositive(coerced) && !UnitPriceHasNegative(coerced) && BadDiscounts(coerced) == 0 <==>
      forall i :: 0 <= i < |od.rows| ==>
        && !NonPositive(Coerce(parseNum, Get(od.columns, od.rows[i], "Quantity")))
        && !Negative(Coerce(parseNum, Get(od.columns, od.rows[i], "UnitPrice")))
        && !OutsideUnit(Coerce(parseNum, Get(od.columns, od.rows[i], "Discount")))
  {
    assert "Quantity" in NumericDetailColumns && "UnitPrice" in NumericDetailColumns;
    CoercedAny(od, parseNum, "Quantity", NonPositive);
    CoercedAny(od, parseNum, "UnitPrice", Negative);
    CoercedBadDiscounts(od, parseNum);
    DiscountsPass(od, parseNum);
  }

  /** No Discount is counted exactly when every coerced Discount is in 0..1 or null. */
  lemma DiscountsPass(od: Table, parseNum: string -> Option<real>)
    ensures BadDiscountRows(od, parseNum) == {} <==>
      forall i :: 0 <= i < |od.rows| ==> !OutsideUnit(Coerce(parseNum, Get(od.columns, od.rows[i], "Discount")))
  {
    var bad := BadDiscountRows(od, parseNum);
    if bad != {} {
      var i :| i in bad;
      assert DiscountOutside(parseNum)(Column(od, "Discount")[i]);
    }
    if exists i :: 0 <= i < |od.rows| && OutsideUnit(Coerce(parseNum, Get(od.columns, od.rows[i], "Discount"))) {
      var i :| 0 <= i < |od.rows| && OutsideUnit(Coerce(parseNum, Get(od.columns, od.rows[i], "Discount")));
      assert DiscountOutside(parseNum)(Column(od, "Discount")[i]);
      assert i in bad;
    }
  }

  /** A run that gets past the schema and type checks raises no issue
      exactly when every rule passes on every row. */
  lemma ChecksPass(customers: Table, orders: Table, od: Table, parseNum: string -> Option<real>)
    requires ReachesCoercion(orders) && HasColumns(od, NumericDetailColumns)
    ensures Checks(customers, orders, od, parseNum).value == [] <==>
      && (forall i :: 0 <= i < |orders.rows| ==>
            var id := Get(orders.columns, orders.rows[i], "OrderID"); !id.Null? && !NonPositive(id))
      && (forall i :: 0 <= i < |od.rows| ==>
            && !NonPositive(Coerce(parseNum, Get(od.columns, od.rows[i], "Quantity")))
            && !Negative(Coerce(parseNum, Get(od.columns, od.rows[i], "UnitPrice")))
            && !OutsideUnit(Coerce(parseNum, Get(od.columns, od.rows[i], "Discount"))))
      && ("CustomerID" in customers.columns ==> OrphanRows(customers, orders) == {})
  {
    ChecksReachRules(customers, orders, od, parseNum);
    RuleIssuesMembers(customers, orders, CoerceNumeric(od, NumericDetailColumns, parseNum));
    OrderIdRulesPass(orders);
    DetailRulesPass(od, parseNum);
    OrphanCountRows(customers, orders);
    assert "CustomerID" in orders.columns by {
      assert "CustomerID" in RequiredOrderColumns;
    }
  }

  /** The rule battery as the pipeline runs it: issues are appended rule by
      rule, a schema miss returns early, and the numeric detail columns are
      coerced in place, so the caller's `od` comes back coerced once the
      coercion step is reached. */
  method DqChecks(customers: Table, orders: Table, od: Table, parseNum: string -> Option<real>)
    returns (r: Result<seq<Issue>, Error>, odAfter: Table)
    ensures r == Checks(customers, orders, od, parseNum)
    ensures odAfter == if ReachesCoercion(orders) then CoerceNumeric(od, NumericDetailColumns, parseNum) else od
  {
    var missing := MissingColumns(orders.columns, RequiredOrderColumns);
    if missing != [] {
      return Success([MissingOrderColumns(missing)]), od;
    }
    var issues := When(OrderIdHasNull(orders), OrderIdNulls);
    if exists v :: v in Column(orders, "OrderID") && Incomparable(v) {
      return Failure(TypeError("OrderID")), od;
    }
    issues := issues + When(OrderIdHasNonPositive(orders), OrderIdNotPositive);
    odAfter := CoerceDetailColumns(od, parseNum);
    r := DetailChecks(customers, orders, odAfter, issues);
  }

  /** The rest of the battery, after the coercion loop, given the issues
      the OrderID rules raised. */
  method DetailChecks(customers: Table, orders: Table, coerced: Table, orderIssues: seq<Issue>)
    returns (r: Result<seq<Issue>, Error>)
    requires orderIssues == When(OrderIdHasNull(orders), OrderIdNulls) + When(OrderIdHasNonPositive(orders), OrderIdNotPositive)
    ensures r == DetailOutcome(customers, orders, coerced)
  {
    if "Quantity" !in coerced.columns {
      return Failure(KeyError("Quantity"));
    }
    if "UnitPrice" !in coerced.columns {
      return Failure(KeyError("UnitPrice"));
    }
    if "Discount" !in coerced.columns {
      return Failure(KeyError("Discount"));
    }
    var issues := orderIssues;
    issues := issues + When(QuantityHasNonPositive(coerced), QuantityNotPositive);
    issues := issues + When(UnitPriceHasNegative(coerced), UnitPriceNegative);
    var bad := BadDiscounts(coerced);
    issues := issues + When(bad > 0, DiscountOutOfRange(bad));
    var orphans := OrphanCount(customers, orders);
    issues := issues + When(FkChecked(customers, orders) && orphans > 0, MissingCustomerFk(orphans));
    r := Success(issues);
  }

  /** The loop `for col in ["Quantity", "UnitPrice", "Discount"]` that
      coerces each of those columns the frame has. */
  method CoerceDetailColumns(od: Table, parseNum: string -> Option<real>) returns (odAfter: Table)
    ensures odAfter == CoerceNumeric(od, NumericDetailColumns, parseNum)
  {
    odAfter := od;
    for i := 0 to |NumericDetailColumns|
      invariant odAfter == CoerceNumeric(od, NumericDetailColumns[..i], parseNum)
    {
      var col := NumericDetailColumns[i];
      CoerceStep(od, NumericDetailColumns, i, parseNum);
      if col in odAfter.columns {
        odAfter := MapColumn(odAfter, col, Coercer(parseNum));
      }
    }
    assert NumericDetailColumns[..|NumericDetailColumns|] == NumericDetailColumns;
  }

  /** One row of the run summary log. */
  datatype DqRun = DqRun(runTs: string, status: string, issuesCount: nat)

  /** One row of the detail log. */
  datatype DqIssueRow = DqIssueRow(runTs: string, detail: string)

  datatype DqLog = DqLog(run: DqRun, details: seq<DqIssueRow>)

  /** The rows `write_dq_logs` persists for one run stamped `ts`. */
  function DqLogs(issues: seq<string>, ts: string): (log: DqLog)
    ensures log.run.runTs == ts
    ensures log.run.status in {"PASS", "FAIL"}
    ensures log.run.status == "PASS" <==> issues == []
    ensures log.run.issuesCount == |issues|
    ensures |log.details| == |issues|
    ensures forall i :: 0 <= i < |issues| ==> log.details[i].detail == issues[i] && log.details[i].runTs == ts
  {
    DqLog(DqRun(ts, if issues == [] then "PASS" else "FAIL", |issues|),
          Map(issues, (d: string) => DqIssueRow(ts, d)))
  }

  /** The detail log reads back as the issue list, and the summary counts it. */
  lemma DqLogsRoundTrip(issues: seq<string>, ts: string)
    ensures var log := DqLogs(issues, ts);
      Map(log.details, (row: DqIssueRow) => row.detail) == issues
      && log.run.issuesCount == |log.details|
  {
    var log := DqLogs(issues, ts);
    var back := Map(log.details, (row: DqIssueRow) => row.detail);
    assert |back| == |issues|;
    forall i | 0 <= i < |issues| ensures back[i] == issues[i] {
    }
  }

  const SampleStamp: Value := Stamp(DateTime(Date(1996, 7, 4), 0))

  /** Customers {C1} and orders for C1 and C2: one order lacks its customer,
      and that is the only issue. */
  lemma FkExample(customers: Table, orders: Table, od: Table, parseNum: string -> Option<real>)
    requires customers.columns == ["CustomerID"] && customers.rows == [[Text("C1")]]
    requires orders.columns == RequiredOrderColumns
    requires orders.rows == [[Num(10248.0), Text("C1"), SampleStamp], [Num(10249.0), Text("C2"), SampleStamp]]
    requires od.columns == ["OrderID", "ProductID", "UnitPrice", "Quantity", "Discount"] && od.rows == []
    ensures var r := Checks(customers, orders, od, parseNum);
      r.Success? && |r.value| == 1 && r.value[0] == MissingCustomerFk(1)
  {
    ExampleOrdersPass(orders);
    assert HasColumns(od, NumericDetailColumns);
    ChecksReachRules(customers, orders, od, parseNum);
    var coerced := CoerceNumeric(od, NumericDetailColumns, parseNum);
    NoDetailIssues(coerced);
    ExampleOrphans(customers, orders);
  }

  lemma ExampleOrdersPass(orders: Table)
    requires orders.columns == RequiredOrderColumns
    requires orders.rows == [[Num(10248.0), Text("C1"), SampleStamp], [Num(10249.0), Text("C2"), SampleStamp]]
    ensures ReachesCoercion(orders)
    ensures !OrderIdHasNull(orders) && !OrderIdHasNonPositive(orders)
  {
    assert IndexOf(orders.columns, "OrderID") == Some(0);
    var ids := Column(orders, "OrderID");
    assert ids == [Num(10248.0), Num(10249.0)];
  }

  lemma NoDetailIssues(od: Table)
    requires od.rows == []
    ensures !QuantityHasNonPositive(od) && !UnitPriceHasNegative(od) && BadDiscounts(od) == 0
  {
    assert Column(od, "Discount") == [];
  }

  lemma ExampleOrphans(customers: Table, orders: Table)
    requires customers.columns == ["CustomerID"] && customers.rows == [[Text("C1")]]
    requires orders.columns == RequiredOrderColumns
    requires orders.rows == [[Num(10248.0), Text("C1"), SampleStamp], [Num(10249.0), Text("C2"), SampleStamp]]
    ensures FkChecked(customers, orders) && OrphanCount(customers, orders) == 1
  {
    assert IndexOf(customers.columns, "CustomerID") == Some(0);
    assert IndexOf(orders.columns, "CustomerID") == Some(1);
    var known := Column(customers, "CustomerID");
    var ids := Column(orders, "CustomerID");
    assert known == [Text("C1")];
    assert ids == [Text("C1"), Text("C2")];
    assert ids[..1] == [Text("C1")];
    assert Count(ids[..1], Unmatched(known)) == 0 by {
      assert ids[..1][..0] == [];
    }
  }
}

=== FILE: extract.dfy ===
/** The extract stage (etl/extract.py): fetching the Northwind CSV files
    that are not yet on disk, checking that the mandatory ones are there,
    and reading them. The raw directory is a set of file names; a download
    is recorded as the file it fetches, whose address is its `Url`. */
module ExtractStage {
  import opened Wrappers
  import opened Seqs
  import opened Text
  import opened Tables

  /** A local file name and the remote name it is downloaded from. */
  datatype FileSpec = FileSpec(local: string, remote: string)

  const BaseUrl: string := "https://raw.githubusercontent.com/neo4j-contrib/northwind-neo4j/master/data"

  /** The files, in the order `download_files` visits them. */
  const Files: seq<FileSpec> := [
    FileSpec("Customers.csv", "customers.csv"),
    FileSpec("Orders.csv", "orders.csv"),
    FileSpec("Order_Details.csv", "order-details.csv"),
    FileSpec("Products.csv", "products.csv")
  ]

  const RequiredFiles: seq<string> := ["Customers.csv", "Orders.csv", "Order_Details.csv"]

  /** The URL a file is fetched from. */
  function Url(f: FileSpec): string
  {
    BaseUrl + "/" + f.remote
  }

  /** Two files are fetched from the same URL only if they have the same
      remote name. */
  lemma UrlInjective(f: FileSpec, g: FileSpec)
    ensures Url(f) == Url(g) <==> f.remote == g.remote
  {
    var n := |BaseUrl| + 1;
    assert Url(f)[n..] == f.remote && Url(g)[n..] == g.remote;
  }

  /** The four files are fetched from four different URLs, the order
      details from `order-details.csv`. */
  lemma UrlsDistinct()
    ensures forall i, j :: 0 <= i < j < |Files| ==> Url(Files[i]) != Url(Files[j])
    ensures Url(Files[2]) == BaseUrl + "/order-details.csv"
  {
    forall i, j | 0 <= i < j < |Files| ensures Url(Files[i]) != Url(Files[j]) {
      UrlInjective(Files[i], Files[j]);
    }
  }

  /** Products.csv is passed over when products are not wanted. */
  predicate Skipped(f: FileSpec, useProducts: bool)
  {
    !useProducts && f.local == "Products.csv"
  }

  function Locals(files: seq<FileSpec>): set<string>
  {
    set f | f in files :: f.local
  }

  /** The local names `download_files` makes sure of. */
  function Wanted(files: seq<FileSpec>, useProducts: bool): set<string>
  {
    if files == [] then {}
    else
      var f := files[|files| - 1];
      Wanted(files[..|files| - 1], useProducts) + (if Skipped(f, useProducts) then {} else {f.local})
  }

  /** The wanted names are names of the files visited, all of them when
      products are wanted. */
  lemma {:induction false} WantedLocals(files: seq<FileSpec>, useProducts: bool)
    ensures Wanted(files, useProducts) <= Locals(files)
    ensures useProducts ==> Wanted(files, useProducts) == Locals(files)
  {
    if files != [] {
      var init := files[..|files| - 1];
      WantedLocals(init, useProducts);
      assert files == init + [files[|files| - 1]];
      assert Locals(files) == Locals(init) + {files[|files| - 1].local};
    }
  }

  /** A name is wanted exactly when some file not skipped has it. */
  lemma {:induction false} WantedMember(files: seq<FileSpec>, useProducts: bool, n: string)
    ensures n in Wanted(files, useProducts) <==> exists f :: f in files && !Skipped(f, useProducts) && f.local == n
  {
    if files != [] {
      var init := files[..|files| - 1];
      WantedMember(init, useProducts, n);
      assert forall g :: g in files <==> g in init || g == files[|files| - 1];
    }
  }

  /** The files a download pass fetches, in order: those wanted and not
      present before the pass. */
  function Pending(files: seq<FileSpec>, present: set<string>, useProducts: bool): (r: seq<FileSpec>)
    ensures forall f :: f in r <==> f in files && !Skipped(f, useProducts) && f.local !in present
  {
    if files == [] then []
    else
      var f := files[|files| - 1];
      var init := files[..|files| - 1];
      assert forall g :: g in files <==> g in init || g == f;
      Pending(init, present, useProducts)
        + (if !Skipped(f, useProducts) && f.local !in present then [f] else [])
  }

  /** Once every wanted file is present, a pass has nothing to fetch. */
  lemma {:induction false} NothingPending(files: seq<FileSpec>, present: set<string>, useProducts: bool)
    requires Wanted(files, useProducts) <= present
    ensures Pending(files, present, useProducts) == []
  {
    if files != [] {
      var f := files[|files| - 1];
      var init := files[..|files| - 1];
      assert Wanted(init, useProducts) <= Wanted(files, useProducts) by {
        assert forall g :: g in init ==> g in files;
      }
      NothingPending(init, present, useProducts);
      if !Skipped(f, useProducts) {
        assert f.local in Wanted(files, useProducts);
      }
    }
  }

  /** Without products, Products.csv is never fetched. */
  lemma ProductsNotFetched(present: set<string>)
    ensures forall f :: f in Pending(Files, present, false) ==> f.local != "Products.csv"
    ensures "Products.csv" !in Wanted(Files, false)
  {
    WantedMember(Files, false, "Products.csv");
  }

  /** `[f for f in required if not (RAW / f).exists()]`. */
  function MissingFiles(present: set<string>): (r: seq<string>)
    ensures forall f :: f in r <==> f in RequiredFiles && f !in present
    ensures |r| <= |RequiredFiles|
  {
    Filter(RequiredFiles, AbsentFrom(present))
  }

  function AbsentFrom(present: set<string>): string -> bool
  {
    f => f !in present
  }

  /** The absent mandatory files keep the order of the mandatory list. */
  lemma MissingFilesOrdered(present: set<string>)
    ensures MissingFiles(present) ==
      (if "Customers.csv" in present then [] else ["Customers.csv"])
      + (if "Orders.csv" in present then [] else ["Orders.csv"])
      + (if "Order_Details.csv" in present then [] else ["Order_Details.csv"])
  {
    var p := AbsentFrom(present);
    assert RequiredFiles[1..] == ["Orders.csv", "Order_Details.csv"];
    assert RequiredFiles[1..][1..] == ["Order_Details.csv"];
    assert RequiredFiles[1..][1..][1..] == [];
    assert Filter(["Order_Details.csv"], p) ==
      (if "Order_Details.csv" in present then [] else ["Order_Details.csv"]);
  }

  /** What `extract` returns from a directory holding `present`, with
      `read` standing for reading one CSV file. */
  function ExtractOutcome(present: set<string>, useProducts: bool, read: string -> Table): (r: Result<RawTables, Error>)
    ensures r.Failure? <==> exists f :: f in RequiredFiles && f !in present
    ensures r.Failure? ==>
      r.error == FileNotFoundError("Missing required files: " + Join(MissingFiles(present), ", "))
    ensures r.Success? ==>
      && r.value.customers == read("Customers.csv")
      && r.value.orders == read("Orders.csv")
      && r.value.od == read("Order_Details.csv")
    ensures r.Success? ==> (r.value.products.Some? <==> useProducts && "Products.csv" in present)
    ensures r.Success? && r.value.products.Some? ==> r.value.products.value == read("Products.csv")
  {
    var missing := MissingFiles(present);
    if missing != [] then
      assert missing[0] in missing;
      Failure(FileNotFoundError("Missing required files: " + Join(missing, ", ")))
    else
      var products := if useProducts && "Products.csv" in present then Some(read("Products.csv")) else None;
      Success(RawTables(read("Customers.csv"), read("Orders.csv"), read("Order_Details.csv"), products))
  }

  /** After a download pass every mandatory file is present, so extraction
      with `auto_download` succeeds, and loads products exactly when they
      are wanted. */
  lemma ExtractAfterDownload(present: set<string>, useProducts: bool, read: string -> Table)
    ensures ExtractOutcome(present + Wanted(Files, useProducts), useProducts, read).Success?
    ensures ExtractOutcome(present + Wanted(Files, useProducts), useProducts, read).value.products.Some?
      <==> useProducts
  {
    var after := present + Wanted(Files, useProducts);
    WantedMember(Files, useProducts, "Customers.csv");
    WantedMember(Files, useProducts, "Orders.csv");
    WantedMember(Files, useProducts, "Order_Details.csv");
    WantedMember(Files, useProducts, "Products.csv");
    assert Files[0] in Files && Files[1] in Files && Files[2] in Files;
    assert useProducts ==> Files[3] in Files && "Products.csv" in after;
  }

  /** The local names of the files are distinct. */
  lemma FilesDistinct()
    ensures DistinctLocals(Files)
  {
  }

  /** Appending a file adds its name to the wanted ones unless skipped. */
  lemma WantedSnoc(files: seq<FileSpec>, f: FileSpec, useProducts: bool)
    ensures Wanted(files + [f], useProducts) ==
      Wanted(files, useProducts) + (if Skipped(f, useProducts) then {} else {f.local})
  {
    var more := files + [f];
    assert more[..|more| - 1] == files && more[|more| - 1] == f;
  }

  /** Appending a file adds its fetch at the end when it is pending. */
  lemma PendingSnoc(files: seq<FileSpec>, f: FileSpec, present: set<string>, useProducts: bool)
    ensures Pending(files + [f], present, useProducts) ==
      Pending(files, present, useProducts)
        + (if !Skipped(f, useProducts) && f.local !in present then [f] else [])
  {
    var more := files + [f];
    assert more[..|more| - 1] == files && more[|more| - 1] == f;
    var a := Pending(files, present, useProducts);
    var tail := if !Skipped(f, useProducts) && f.local !in present then [f] else [];
    assert Pending(more, present, useProducts) == a + tail;
  }

  /** The local names in `files` are distinct. */
  predicate DistinctLocals(files: seq<FileSpec>)
  {
    forall i, j :: 0 <= i < j < |files| ==> files[i].local != files[j].local
  }

  /** What visiting the file at position `i` adds to the wanted names and
      to the fetches; no earlier file has its name. */
  lemma PassStep(files: seq<FileSpec>, i: nat, present: set<string>, useProducts: bool)
    requires i < |files| && DistinctLocals(files)
    ensures files[i].local !in Wanted(files[..i], useProducts)
    ensures Wanted(files[..i + 1], useProducts) ==
      Wanted(files[..i], useProducts) + (if Skipped(files[i], useProducts) then {} else {files[i].local})
    ensures Pending(files[..i + 1], present, useProducts) ==
      Pending(files[..i], present, useProducts)
        + (if !Skipped(files[i], useProducts) && files[i].local !in present then [files[i]] else [])
  {
    assert files[..i + 1] == files[..i] + [files[i]];
    assert forall g :: g in files[..i] ==> g.local != files[i].local;
    WantedMember(files[..i], useProducts, files[i].local);
    WantedSnoc(files[..i], files[i], useProducts);
    PendingSnoc(files[..i], files[i], present, useProducts);
  }

  /** One visit of the loop of `download_files`: checking the directory as
      it stands so far is checking it as it stood before the pass. */
  lemma VisitStep(files: seq<FileSpec>, i: nat, start: set<string>, log: seq<FileSpec>,
                  onDisk: set<string>, got: seq<FileSpec>, useProducts: bool)
    requires i < |files| && DistinctLocals(files)
    requires onDisk == start + Wanted(files[..i], useProducts)
    requires got == log + Pending(files[..i], start, useProducts)
    ensures var fetch := !Skipped(files[i], useProducts) && files[i].local !in onDisk;
      && (if fetch then onDisk + {files[i].local} else onDisk) == start + Wanted(files[..i + 1], useProducts)
      && (if fetch then got + [files[i]] else got) == log + Pending(files[..i + 1], start, useProducts)
  {
    PassStep(files, i, start, useProducts);
    VisitLog(files, i, start, log, useProducts);
  }

  /** The fetch log after one more fetch. */
  lemma VisitLog(files: seq<FileSpec>, i: nat, start: set<string>, log: seq<FileSpec>, useProducts: bool)
    requires i < |files|
    ensures var p := Pending(files[..i], start, useProducts);
      log + p + [files[i]] == log + (p + [files[i]])
  {
  }

  /** The local raw-data directory. */
  class RawDir {
    /** The names of the files on disk. */
    var present: set<string>
    /** The files fetched so far, in order; each from its `Url`. */
    var fetched: seq<FileSpec>

    constructor (files: set<string>)
      ensures present == files && fetched == []
    {
      present := files;
      fetched := [];
    }

    /** `download_files`: fetches every wanted file that is not on disk. */
    method DownloadFiles(useProducts: bool)
      modifies this
      ensures present == old(present) + Wanted(Files, useProducts)
      ensures fetched == old(fetched) + Pending(Files, old(present), useProducts)
    {
      FilesDistinct();
      DownloadEach(Files, useProducts);
    }

    /** The loop of `download_files` over a list of files with distinct
        local names. */
    method DownloadEach(files: seq<FileSpec>, useProducts: bool)
      requires DistinctLocals(files)
      modifies this
      ensures present == old(present) + Wanted(files, useProducts)
      ensures fetched == old(fetched) + Pending(files, old(present), useProducts)
    {
      var start, log := present, fetched;
      var onDisk, got := start, log;
      for i := 0 to |files|
        invariant onDisk == start + Wanted(files[..i], useProducts)
        invariant got == log + Pending(files[..i], start, useProducts)
      {
        var f := files[i];
        VisitStep(files, i, start, log, onDisk, got, useProducts);
        if !(!useProducts && f.local == "Products.csv") {
          if f.local !in onDisk {
            got := got + [f];
            onDisk := onDisk + {f.local};
          }
        }
      }
      assert files[..|files|] == files;
      present, fetched := onDisk, got;
    }

    /** `extract`: an optional download pass, then the presence check and
        the reads. */
    method Extract(useProducts: bool, autoDownload: bool, read: string -> Table) returns (r: Result<RawTables, Error>)
      modifies this
      ensures present == if autoDownload then old(present) + Wanted(Files, useProducts) else old(present)
      ensures fetched ==
        if autoDownload then old(fetched) + Pending(Files, old(present), useProducts) else old(fetched)
      ensures r == ExtractOutcome(present, useProducts, read)
    {
      if autoDownload {
        DownloadFiles(useProducts);
      }
      var missing := MissingFiles(present);
      if missing != [] {
        return Failure(FileNotFoundError("Missing required files: " + Join(missing, ", ")));
      }
      var products: Option<Table> := None;
      if useProducts && "Products.csv" in present {
        products := Some(read("Products.csv"));
      }
      r := Success(RawTables(read("Customers.csv"), read("Orders.csv"), read("Order_Details.csv"), products));
    }
  }

  /** A second download pass fetches nothing and changes nothing. */
  method DownloadTwice(dir: RawDir, useProducts: bool)
    modifies dir
    ensures dir.present == old(dir.present) + Wanted(Files, useProducts)
    ensures dir.fetched == old(dir.fetched) + Pending(Files, old(dir.present), useProducts)
  {
    dir.DownloadFiles(useProducts);
    ghost var between := dir.fetched;
    NothingPending(Files, dir.present, useProducts);
    dir.DownloadFiles(useProducts);
    assert dir.fetched == between;
  }
}

=== FILE: frames.dfy ===
/** The relational operations the transform and build stages chain:
    column selection (`df.loc[:, names]`), `drop_duplicates()`, and
    `merge(on=key)` as an inner or a left join. */
module Frames {
  import opened Wrappers
  import opened Seqs
  import opened Tables

  // ----- reading cells through rearranged rows -----

  /** Reading through a prepended column. */
  lemma GetCons(c0: string, cols: seq<string>, v0: Value, row: seq<Value>, c: string)
    ensures Get([c0] + cols, [v0] + row, c) == if c0 == c then v0 else Get(cols, row, c)
  {
    assert ([c0] + cols)[1..] == cols;
    assert ([v0] + row)[1..] == row;
  }

  /** Reading a row made of two parts: a column of the first part is read
      there, any other in the second. */
  lemma {:induction false} GetAppend(cols: seq<string>, row: seq<Value>, more: seq<string>, extra: seq<Value>, c: string)
    requires |row| == |cols|
    ensures Get(cols + more, row + extra, c) == if c in cols then Get(cols, row, c) else Get(more, extra, c)
  {
    if cols != [] {
      GetAppend(cols[1..], row[1..], more, extra, c);
      assert cols + more == [cols[0]] + (cols[1..] + more);
      assert row + extra == [row[0]] + (row[1..] + extra);
      GetCons(cols[0], cols[1..] + more, row[0], row[1..] + extra, c);
      GetCons(cols[0], cols[1..], row[0], row[1..], c);
      assert cols == [cols[0]] + cols[1..];
      assert row == [row[0]] + row[1..];
    } else {
      assert cols + more == more && row + extra == extra;
    }
  }

  // ----- selection -----

  /** The cells of one row under the listed columns, in that order. */
  function Pick(columns: seq<string>, row: seq<Value>, names: seq<string>): (r: seq<Value>)
    ensures |r| == |names|
  {
    seq(|names|, j requires 0 <= j < |names| => Get(columns, row, names[j]))
  }

  /** Reading a selected column gives the cell of the original row. */
  lemma PickGet(columns: seq<string>, row: seq<Value>, names: seq<string>, c: string)
    requires c in names
    ensures Get(names, Pick(columns, row, names), c) == Get(columns, row, c)
  {
    var k := IndexOf(names, c).value;
    assert names[k] == c;
  }

  function Picker(columns: seq<string>, names: seq<string>): seq<Value> -> seq<Value>
  {
    row => Pick(columns, row, names)
  }

  /** `t.loc[:, names]`: the listed columns of every row, in order. */
  function Project(t: Table, names: seq<string>): (r: Table)
    requires HasColumns(t, names)
    ensures r.columns == names && |r.rows| == |t.rows|
    ensures forall i, c :: 0 <= i < |t.rows| && c in names ==>
      Get(names, r.rows[i], c) == Get(t.columns, t.rows[i], c)
  {
    var rows := Map(t.rows, Picker(t.columns, names));
    forall i, c | 0 <= i < |t.rows| && c in names
      ensures Get(names, rows[i], c) == Get(t.columns, t.rows[i], c)
    {
      PickGet(t.columns, t.rows[i], names, c);
    }
    Frame(names, rows)
  }

  /** The rows of a selection are the selected original rows. */
  lemma ProjectMember(t: Table, names: seq<string>, x: seq<Value>)
    requires HasColumns(t, names)
    ensures x in Project(t, names).rows <==> exists row :: row in t.rows && x == Pick(t.columns, row, names)
  {
    var r := Project(t, names);
    if x in r.rows {
      var i :| 0 <= i < |r.rows| && r.rows[i] == x;
      assert t.rows[i] in t.rows;
    }
    if exists row :: row in t.rows && x == Pick(t.columns, row, names) {
      var row :| row in t.rows && x == Pick(t.columns, row, names);
      var i :| 0 <= i < |t.rows| && t.rows[i] == row;
      assert r.rows[i] == x;
    }
  }

  /** `df.drop_duplicates()`: the first of each group of identical rows. */
  function DropDuplicates(t: Table): (r: Table)
    ensures r.columns == t.columns
    ensures NoDuplicates(r.rows)
    ensures forall row :: row in r.rows <==> row in t.rows
  {
    var rows := Dedup(t.rows);
    Frame(t.columns, rows)
  }

  /** `drop_duplicates()` keeps the first of each group: the rows that
      remain come in the order of their first appearance. */
  lemma DropDuplicatesFirstOrder(t: Table)
    ensures FirstOrdered(DropDuplicates(t).rows, t.rows)
  {
    DedupFirstOrder(t.rows);
  }

  // ----- merge -----

  datatype How = Inner | Left

  /** A row without the cell at position `k`. */
  function DropAt<T>(s: seq<T>, k: nat): (r: seq<T>)
    ensures k < |s| ==> |r| == |s| - 1
  {
    if k < |s| then s[..k] + s[k + 1..] else s
  }

  /** The right frame's columns other than the join key, as the merge
      appends them. */
  function OtherColumns(rcols: seq<string>, key: string): (r: seq<string>)
    requires key in rcols
    ensures |r| == |rcols| - 1
  {
    DropAt(rcols, IndexOf(rcols, key).value)
  }

  /** The right columns a merge adds are the right columns, less the key. */
  lemma OtherColumnsMember(rcols: seq<string>, key: string)
    requires key in rcols
    ensures forall c :: c in OtherColumns(rcols, key) ==> c in rcols
    ensures forall c :: c in rcols && c != key ==> c in OtherColumns(rcols, key)
  {
    var k := IndexOf(rcols, key).value;
    assert rcols == rcols[..k] + [key] + rcols[k + 1..];
  }

  /** A right row without its join-key cell. */
  function DropKey(rcols: seq<string>, r: seq<Value>, key: string): seq<Value>
  {
    match IndexOf(rcols, key)
    case None => r
    case Some(k) => DropAt(r, k)
  }

  /** Reading a right row without its key cell: every other column reads
      as before. */
  lemma DropKeyGet(rcols: seq<string>, r: seq<Value>, key: string, c: string)
    requires key in rcols && |r| == |rcols| && c != key
    ensures |DropKey(rcols, r, key)| == |rcols| - 1
    ensures Get(OtherColumns(rcols, key), DropKey(rcols, r, key), c) == Get(rcols, r, c)
  {
    var k := IndexOf(rcols, key).value;
    var a, b := rcols[..k], rcols[k + 1..];
    var ra, rb := r[..k], r[k + 1..];
    assert rcols == a + ([key] + b);
    assert r == ra + ([r[k]] + rb);
    GetAppend(a, ra, b, rb, c);
    GetAppend(a, ra, [key] + b, [r[k]] + rb, c);
    GetCons(key, b, r[k], rb, c);
  }

  /** The nulls a left join pads an unmatched row with. */
  function Nulls(n: nat): (r: seq<Value>)
    ensures |r| == n && forall v :: v in r ==> v == Null
  {
    seq(n, _ => Null)
  }

  /** A right row whose key equals `k`; a null key matches a null key. */
  function KeyIs(rcols: seq<string>, key: string, k: Value): seq<Value> -> bool
  {
    r => Get(rcols, r, key) == k
  }

  /** The merged row of a left row and a matching right row. */
  function Glue(l: seq<Value>, rcols: seq<string>, key: string): seq<Value> -> seq<Value>
  {
    r => l + DropKey(rcols, r, key)
  }

  /** The right rows matching a left row. */
  function Matches(lcols: seq<string>, l: seq<Value>, right: Table, key: string): seq<seq<Value>>
  {
    Filter(right.rows, KeyIs(right.columns, key, Get(lcols, l, key)))
  }

  /** What one left row contributes: one merged row per match, in the
      right frame's order; under a left join an unmatched row is kept once,
      padded with nulls. */
  function RowJoin(lcols: seq<string>, l: seq<Value>, right: Table, key: string, how: How): seq<seq<Value>>
    requires key in right.columns
  {
    var m := Matches(lcols, l, right, key);
    if m == [] && how == Left then [l + Nulls(|right.columns| - 1)]
    else Map(m, Glue(l, right.columns, key))
  }

  /** The merged rows, left row by left row. */
  function JoinRows(lcols: seq<string>, lrows: seq<seq<Value>>, right: Table, key: string, how: How): seq<seq<Value>>
    requires key in right.columns
  {
    if lrows == [] then []
    else RowJoin(lcols, lrows[0], right, key, how) + JoinRows(lcols, lrows[1..], right, key, how)
  }

  /** Every row one left row contributes is that row followed by the right
      columns other than the key. */
  lemma RowJoinWidth(lcols: seq<string>, l: seq<Value>, right: Table, key: string, how: How)
    requires key in right.columns && |l| == |lcols|
    ensures forall x :: x in RowJoin(lcols, l, right, key, how) ==> |x| == |lcols| + |right.columns| - 1
  {
    var m := Matches(lcols, l, right, key);
    var k := IndexOf(right.columns, key).value;
    forall x | x in RowJoin(lcols, l, right, key, how) ensures |x| == |lcols| + |right.columns| - 1 {
      if !(m == [] && how == Left) {
        var i :| 0 <= i < |m| && Map(m, Glue(l, right.columns, key))[i] == x;
        assert m[i] in right.rows;
        assert |m[i]| == |right.columns|;
        assert x == l + DropAt(m[i], k);
      }
    }
  }

  /** Every merged row is one left row followed by the right columns other
      than the key. */
  lemma {:induction false} JoinRowsWidth(lcols: seq<string>, lrows: seq<seq<Value>>, right: Table, key: string, how: How)
    requires key in right.columns
    requires forall l :: l in lrows ==> |l| == |lcols|
    ensures forall x :: x in JoinRows(lcols, lrows, right, key, how) ==> |x| == |lcols| + |right.columns| - 1
  {
    if lrows != [] {
      assert lrows[0] in lrows;
      assert forall l' :: l' in lrows[1..] ==> l' in lrows;
      JoinRowsWidth(lcols, lrows[1..], right, key, how);
      RowJoinWidth(lcols, lrows[0], right, key, how);
    }
  }

  /** `left.merge(right, on=key, how=how)`: the left columns followed by
      the right columns other than the key. */
  function Merge(left: Table, right: Table, key: string, how: How): (r: Table)
    requires key in left.columns && key in right.columns
    ensures r.columns == left.columns + OtherColumns(right.columns, key)
  {
    JoinRowsWidth(left.columns, left.rows, right, key, how);
    Frame(left.columns + OtherColumns(right.columns, key), JoinRows(left.columns, left.rows, right, key, how))
  }

  /** The rows one left row contributes to an inner join. */
  lemma RowJoinInner(lcols: seq<string>, l: seq<Value>, right: Table, key: string, x: seq<Value>)
    requires key in right.columns
    ensures x in RowJoin(lcols, l, right, key, Inner) <==>
      exists r :: r in right.rows && Get(right.columns, r, key) == Get(lcols, l, key) && x == l + DropKey(right.columns, r, key)
  {
    var m := Matches(lcols, l, right, key);
    var g := Glue(l, right.columns, key);
    MapMember(m, g, x);
    if x in Map(m, g) {
      var r :| r in m && x == g(r);
      assert r in right.rows;
    }
  }

  /** An inner join holds exactly the merged rows of the pairs of a left
      and a right row with equal keys. */
  lemma {:induction false} InnerJoinMember(lcols: seq<string>, lrows: seq<seq<Value>>, right: Table, key: string, x: seq<Value>)
    requires key in right.columns
    ensures x in JoinRows(lcols, lrows, right, key, Inner) <==>
      exists l, r :: l in lrows && r in right.rows && Get(right.columns, r, key) == Get(lcols, l, key)
        && x == l + DropKey(right.columns, r, key)
  {
    if lrows != [] {
      InnerJoinMember(lcols, lrows[1..], right, key, x);
      RowJoinInner(lcols, lrows[0], right, key, x);
      assert forall l :: l in lrows <==> l == lrows[0] || l in lrows[1..];
    }
  }

  /** The rows one left row contributes to a left join. */
  lemma RowJoinLeft(lcols: seq<string>, l: seq<Value>, right: Table, key: string, x: seq<Value>)
    requires key in right.columns
    ensures x in RowJoin(lcols, l, right, key, Left) <==>
      (exists r :: r in right.rows && Get(right.columns, r, key) == Get(lcols, l, key) && x == l + DropKey(right.columns, r, key))
      || ((forall r :: r in right.rows ==> Get(right.columns, r, key) != Get(lcols, l, key))
          && x == l + Nulls(|right.columns| - 1))
  {
    var m := Matches(lcols, l, right, key);
    RowJoinInner(lcols, l, right, key, x);
    if m == [] {
      forall r | r in right.rows ensures Get(right.columns, r, key) != Get(lcols, l, key) {
        assert r !in m;
      }
    } else {
      assert m[0] in right.rows;
    }
  }

  /** A left join holds the merged rows of every matching pair, and each
      left row without a match once, padded with nulls. */
  lemma {:induction false} LeftJoinMember(lcols: seq<string>, lrows: seq<seq<Value>>, right: Table, key: string, x: seq<Value>)
    requires key in right.columns
    ensures x in JoinRows(lcols, lrows, right, key, Left) <==>
      exists l :: l in lrows &&
        ((exists r :: r in right.rows && Get(right.columns, r, key) == Get(lcols, l, key) && x == l + DropKey(right.columns, r, key))
         || ((forall r :: r in right.rows ==> Get(right.columns, r, key) != Get(lcols, l, key))
             && x == l + Nulls(|right.columns| - 1)))
  {
    if lrows != [] {
      LeftJoinMember(lcols, lrows[1..], right, key, x);
      RowJoinLeft(lcols, lrows[0], right, key, x);
      assert forall l :: l in lrows <==> l == lrows[0] || l in lrows[1..];
    }
  }

  /** A left join keeps every left row: each contributes at least one row. */
  lemma {:induction false} LeftJoinKeepsRows(lcols: seq<string>, lrows: seq<seq<Value>>, right: Table, key: string)
    requires key in right.columns
    ensures |JoinRows(lcols, lrows, right, key, Left)| >= |lrows|
  {
    if lrows != [] {
      LeftJoinKeepsRows(lcols, lrows[1..], right, key);
      var m := Matches(lcols, lrows[0], right, key);
      assert |RowJoin(lcols, lrows[0], right, key, Left)| >= 1;
    }
  }

  /** The number of right rows whose key equals the left row's. */
  function MatchCount(lcols: seq<string>, l: seq<Value>, right: Table, key: string): nat
  {
    Count(right.rows, KeyIs(right.columns, key, Get(lcols, l, key)))
  }

  /** The number of rows `merge` emits: for each left row, one per right
      row with an equal key, and under a left join one for a left row that
      nothing matches. */
  function JoinCount(lcols: seq<string>, lrows: seq<seq<Value>>, right: Table, key: string, how: How): nat
  {
    if lrows == [] then 0
    else
      var m := MatchCount(lcols, lrows[0], right, key);
      (if how == Left && m == 0 then 1 else m) + JoinCount(lcols, lrows[1..], right, key, how)
  }

  /** One left row contributes one row per matching right row, or one
      padded row under a left join when nothing matches. */
  lemma RowJoinCount(lcols: seq<string>, l: seq<Value>, right: Table, key: string, how: How)
    requires key in right.columns
    ensures var m := MatchCount(lcols, l, right, key);
      |RowJoin(lcols, l, right, key, how)| == if how == Left && m == 0 then 1 else m
  {
    FilterCount(right.rows, KeyIs(right.columns, key, Get(lcols, l, key)));
  }

  /** The merged rows of two runs of left rows are those of the first run
      followed by those of the second: a repeated left row contributes its
      matches again. */
  lemma {:induction false} JoinRowsAppend(lcols: seq<string>, a: seq<seq<Value>>, b: seq<seq<Value>>, right: Table, key: string, how: How)
    requires key in right.columns
    ensures JoinRows(lcols, a + b, right, key, how) == JoinRows(lcols, a, right, key, how) + JoinRows(lcols, b, right, key, how)
  {
    if a != [] {
      assert (a + b)[0] == a[0] && (a + b)[1..] == a[1..] + b;
      JoinRowsAppend(lcols, a[1..], b, right, key, how);
    } else {
      assert a + b == b;
    }
  }

  /** `merge` emits exactly as many rows as there are matching pairs, plus
      the unmatched left rows under a left join. */
  lemma {:induction false} JoinRowsCount(lcols: seq<string>, lrows: seq<seq<Value>>, right: Table, key: string, how: How)
    requires key in right.columns
    ensures |JoinRows(lcols, lrows, right, key, how)| == JoinCount(lcols, lrows, right, key, how)
  {
    if lrows != [] {
      RowJoinCount(lcols, lrows[0], right, key, how);
      JoinRowsCount(lcols, lrows[1..], right, key, how);
    }
  }

  /** No two right rows share a key value. */
  predicate UniqueKeys(right: Table, key: string)
  {
    forall i, j :: 0 <= i < j < |right.rows| ==>
      Get(right.columns, right.rows[i], key) != Get(right.columns, right.rows[j], key)
  }

  /** Against a right table with distinct keys a left row meets at most one
      match, so a left join contributes exactly one row that starts with it. */
  lemma RowJoinUnique(lcols: seq<string>, l: seq<Value>, right: Table, key: string)
    requires key in right.columns && UniqueKeys(right, key)
    ensures |RowJoin(lcols, l, right, key, Left)| == 1
    ensures RowJoin(lcols, l, right, key, Left)[0][..|l|] == l
  {
    var p := KeyIs(right.columns, key, Get(lcols, l, key));
    FilterAtMostOne(right.rows, p);
    var x := RowJoin(lcols, l, right, key, Left)[0];
    if Matches(lcols, l, right, key) != [] {
      assert x == l + DropKey(right.columns, Matches(lcols, l, right, key)[0], key);
    }
  }

  /** Each row of `rows` starts with the left row at its position. */
  predicate StartsWith(rows: seq<seq<Value>>, lrows: seq<seq<Value>>)
  {
    |rows| == |lrows| && forall i :: 0 <= i < |lrows| ==> |lrows[i]| <= |rows[i]| && rows[i][..|lrows[i]|] == lrows[i]
  }

  /** A single row starting with `l`, put before rows starting with
      `lrows`, gives rows starting with `[l] + lrows`. */
  lemma StartsWithCons(one: seq<seq<Value>>, rows: seq<seq<Value>>, l: seq<Value>, lrows: seq<seq<Value>>)
    requires |one| == 1 && |l| <= |one[0]| && one[0][..|l|] == l && StartsWith(rows, lrows)
    ensures StartsWith(one + rows, [l] + lrows)
  {
    var r, ls := one + rows, [l] + lrows;
    forall i | 0 < i < |ls| ensures |ls[i]| <= |r[i]| && r[i][..|ls[i]|] == ls[i] {
      assert r[i] == rows[i - 1] && ls[i] == lrows[i - 1];
    }
  }

  /** A left join against a right table with distinct keys keeps the left
      rows one for one, in order, each followed by its match or by nulls. */
  lemma {:induction false} LeftJoinUniqueKeys(lcols: seq<string>, lrows: seq<seq<Value>>, right: Table, key: string)
    requires key in right.columns && UniqueKeys(right, key)
    ensures StartsWith(JoinRows(lcols, lrows, right, key, Left), lrows)
  {
    if lrows != [] {
      var l, tail := lrows[0], lrows[1..];
      RowJoinUnique(lcols, l, right, key);
      LeftJoinUniqueKeys(lcols, tail, right, key);
      StartsWithCons(RowJoin(lcols, l, right, key, Left), JoinRows(lcols, tail, right, key, Left), l, tail);
      assert [l] + tail == lrows;
    }
  }

  /** Reading a merged row: a left column reads the left row, any other
      column the right row. */
  lemma JoinedGet(lcols: seq<string>, l: seq<Value>, rcols: seq<string>, r: seq<Value>, key: string, c: string)
    requires key in lcols && key in rcols && |l| == |lcols| && |r| == |rcols|
    ensures Get(lcols + OtherColumns(rcols, key), l + DropKey(rcols, r, key), c)
      == if c in lcols then Get(lcols, l, c) else Get(rcols, r, c)
  {
    GetAppend(lcols, l, OtherColumns(rcols, key), DropKey(rcols, r, key), c);
    if c !in lcols {
      DropKeyGet(rcols, r, key, c);
    }
  }

  /** Reading a padded row: the right columns read as null. */
  lemma PaddedGet(lcols: seq<string>, l: seq<Value>, more: seq<string>, c: string)
    requires |l| == |lcols|
    ensures Get(lcols + more, l + Nulls(|more|), c) == if c in lcols then Get(lcols, l, c) else Null
  {
    GetAppend(lcols, l, more, Nulls(|more|), c);
    var n := Nulls(|more|);
    match IndexOf(more, c)
    case None =>
    case Some(k) => assert n[k] in n;
  }
}

=== FILE: load.dfy ===
/** The load stage: header normalisation, required-column validation, type
    cleaning of orders and order details, and the data-quality run on the
    cleaned tables. */
module LoadStage {
  import opened Wrappers
  import opened Seqs
  import opened Tables
  import opened Schema
  import opened DataQuality

  const CustomerRequired: seq<string> := ["CustomerID", "CompanyName", "Country"]
  const DetailRequired: seq<string> := ["OrderID", "ProductID", "UnitPrice", "Quantity", "Discount"]
  /** The `dropna` subsets of the orders and of the order details. */
  const DateSubset: seq<string> := ["OrderDate"]
  const PriceSubset: seq<string> := ["Quantity", "UnitPrice"]

  /** What `load` returns: the cleaned tables and the issue texts of the
      data-quality run. */
  datatype Loaded = Loaded(customers: Table, orders: Table, od: Table, products: Option<Table>, dqIssues: seq<string>)

  /** One cell through `pd.to_datetime(errors="coerce")`. */
  function DateCoercer(parseDate: Value -> Option<DateTime>): Value -> Value
  {
    v => StampOrNull(ToDatetime(parseDate, v))
  }

  /** `fillna(0.0)` on one cell. */
  function FillZero(): Value -> Value
  {
    (v: Value) => if v.Null? then Num(0.0) else v
  }

  /** Orders with OrderDate parsed, dropping those whose date is missing or
      does not parse. */
  function CleanOrders(orders: Table, parseDate: Value -> Option<DateTime>): (r: Table)
    requires "OrderDate" in orders.columns
    ensures r.columns == orders.columns
    ensures forall row :: row in r.rows ==> Get(r.columns, row, "OrderDate").Stamp?
  {
    var parsed := MapColumn(orders, "OrderDate", DateCoercer(parseDate));
    var r := DropNull(parsed, DateSubset);
    forall row | row in r.rows ensures Get(r.columns, row, "OrderDate").Stamp? {
      var i :| 0 <= i < |parsed.rows| && parsed.rows[i] == row;
      MapColumnGet(orders, "OrderDate", DateCoercer(parseDate), i, "OrderDate");
      assert Complete(parsed.columns, DateSubset)(row);
      assert Get(r.columns, row, "OrderDate") != Null;
    }
    r
  }

  /** Order details with Quantity, UnitPrice and Discount coerced to numbers,
      a missing Discount read as 0.0, and the rows lacking a Quantity or a
      UnitPrice dropped. */
  function CleanDetails(od: Table, parseNum: string -> Option<real>): (r: Table)
    requires HasColumns(od, NumericDetailColumns)
    ensures r.columns == od.columns
  {
    var coerced := CoerceNumeric(od, NumericDetailColumns, parseNum);
    assert "Discount" in NumericDetailColumns;
    DropNull(MapColumn(coerced, "Discount", FillZero()), PriceSubset)
  }

  /** Whether an order's date parses. */
  function DateParses(columns: seq<string>, parseDate: Value -> Option<DateTime>): seq<Value> -> bool
  {
    row => ToDatetime(parseDate, Get(columns, row, "OrderDate")).Some?
  }

  /** The kept orders are exactly the input orders whose date parses, in
      their original order, each with its OrderDate replaced by the parsed
      timestamp. */
  lemma CleanOrdersKeepsParsed(orders: Table, parseDate: Value -> Option<DateTime>)
    requires "OrderDate" in orders.columns
    ensures CleanOrders(orders, parseDate).rows
      == Map(Filter(orders.rows, DateParses(orders.columns, parseDate)),
             Updater(orders.columns, "OrderDate", DateCoercer(parseDate)))
  {
    var update := Updater(orders.columns, "OrderDate", DateCoercer(parseDate));
    var complete := Complete(orders.columns, DateSubset);
    MapColumnRows(orders, "OrderDate", DateCoercer(parseDate));
    FilterMap(orders.rows, update, complete);
    forall row | row in orders.rows
      ensures Compose(update, complete)(row) == DateParses(orders.columns, parseDate)(row)
    {
      DateTestAgrees(orders.columns, parseDate, row);
    }
    FilterCongruent(orders.rows, Compose(update, complete), DateParses(orders.columns, parseDate));
  }

  /** An order keeps its OrderDate through the coercion exactly when the
      date parses. */
  lemma DateTestAgrees(columns: seq<string>, parseDate: Value -> Option<DateTime>, row: seq<Value>)
    requires "OrderDate" in columns && |row| == |columns|
    ensures Compose(Updater(columns, "OrderDate", DateCoercer(parseDate)), Complete(columns, DateSubset))(row)
      == DateParses(columns, parseDate)(row)
  {
    var r := UpdateRow(columns, "OrderDate", DateCoercer(parseDate), row);
    UpdateRowGet(columns, "OrderDate", DateCoercer(parseDate), row, "OrderDate");
    assert NoNullIn(columns, DateSubset, r) <==> Get(columns, r, "OrderDate") != Null;
  }

  /** The cleaning of one order-detail row: the three numeric columns
      coerced, then a missing Discount filled with 0.0. */
  function CleanDetailRow(columns: seq<string>, parseNum: string -> Option<real>): seq<Value> -> seq<Value>
  {
    row => CleanedRow(columns, parseNum, row)
  }

  function CleanedRow(columns: seq<string>, parseNum: string -> Option<real>, row: seq<Value>): seq<Value>
  {
    var q := UpdateRow(columns, "Quantity", Coercer(parseNum), row);
    var u := UpdateRow(columns, "UnitPrice", Coercer(parseNum), q);
    var d := UpdateRow(columns, "Discount", Coercer(parseNum), u);
    UpdateRow(columns, "Discount", FillZero(), d)
  }

  /** Whether a detail row's Quantity and UnitPrice both parse as numbers. */
  function NumbersParse(columns: seq<string>, parseNum: string -> Option<real>): seq<Value> -> bool
  {
    row => ToNumeric(parseNum, Get(columns, row, "Quantity")).Some?
      && ToNumeric(parseNum, Get(columns, row, "UnitPrice")).Some?
  }

  /** A cleaned detail row holds the parsed Quantity and UnitPrice (null when
      they do not parse), the parsed Discount or 0.0 when it is missing or
      does not parse, and every other cell unchanged. */
  lemma CleanDetailRowCells(columns: seq<string>, parseNum: string -> Option<real>, row: seq<Value>)
    requires HasColumns(Frame(columns, []), NumericDetailColumns) && |row| == |columns|
    ensures var r := CleanDetailRow(columns, parseNum)(row);
      && |r| == |row|
      && Get(columns, r, "Quantity") == Coerce(parseNum, Get(columns, row, "Quantity"))
      && Get(columns, r, "UnitPrice") == Coerce(parseNum, Get(columns, row, "UnitPrice"))
      && Get(columns, r, "Discount") ==
           (match ToNumeric(parseNum, Get(columns, row, "Discount"))
            case Some(x) => Num(x)
            case None => Num(0.0))
      && forall c :: c !in NumericDetailColumns ==> Get(columns, r, c) == Get(columns, row, c)
  {
    ThroughCleaning(columns, parseNum, row, "Quantity");
    ThroughCleaning(columns, parseNum, row, "UnitPrice");
    ThroughCleaning(columns, parseNum, row, "Discount");
    FillZeroCoerce(parseNum, Get(columns, row, "Discount"));
    forall c | c !in NumericDetailColumns
      ensures Get(columns, CleanedRow(columns, parseNum, row), c) == Get(columns, row, c)
    {
      ThroughCleaning(columns, parseNum, row, c);
    }
  }

  /** One column followed through the four rewrites of a detail row. */
  lemma ThroughCleaning(columns: seq<string>, parseNum: string -> Option<real>, row: seq<Value>, c: string)
    requires HasColumns(Frame(columns, []), NumericDetailColumns) && |row| == |columns|
    ensures |CleanedRow(columns, parseNum, row)| == |row|
    ensures Get(columns, CleanedRow(columns, parseNum, row), c) ==
      if c in PriceSubset then Coerce(parseNum, Get(columns, row, c))
      else if c == "Discount" then FillZero()(Coerce(parseNum, Get(columns, row, c)))
      else Get(columns, row, c)
  {
    assert "Quantity" in NumericDetailColumns && "UnitPrice" in NumericDetailColumns && "Discount" in NumericDetailColumns;
    var co := Coercer(parseNum);
    var q := UpdateRow(columns, "Quantity", co, row);
    var u := UpdateRow(columns, "UnitPrice", co, q);
    var d := UpdateRow(columns, "Discount", co, u);
    UpdateRowGet(columns, "Quantity", co, row, c);
    UpdateRowGet(columns, "UnitPrice", co, q, c);
    UpdateRowGet(columns, "Discount", co, u, c);
    UpdateRowGet(columns, "Discount", FillZero(), d, c);
  }

  /** `fillna(0.0)` after `to_numeric`: the parsed number, or 0.0. */
  lemma FillZeroCoerce(parseNum: string -> Option<real>, v: Value)
    ensures FillZero()(Coerce(parseNum, v)) ==
      match ToNumeric(parseNum, v)
      case Some(x) => Num(x)
      case None => Num(0.0)
  {
  }

  /** The three coercions of the cleaning step, one column after another. */
  function Coerced(t: Table, parseNum: string -> Option<real>): (r: Table)
    requires HasColumns(t, NumericDetailColumns)
    ensures r.columns == t.columns
  {
    var n := NumericDetailColumns;
    assert n[0] in n && n[1] in n && n[2] in n;
    MapColumn(MapColumn(MapColumn(t, n[0], Coercer(parseNum)), n[1], Coercer(parseNum)), n[2], Coercer(parseNum))
  }

  /** With all three numeric columns present, the coercion loop rewrites
      Quantity, then UnitPrice, then Discount. */
  lemma CoerceAllPresent(t: Table, parseNum: string -> Option<real>)
    requires HasColumns(t, NumericDetailColumns)
    ensures CoerceNumeric(t, NumericDetailColumns, parseNum) == Coerced(t, parseNum)
  {
    var n := NumericDetailColumns;
    assert n[0] in n && n[1] in n && n[2] in n;
    CoerceThree(t, n, parseNum);
  }

  /** The coercion loop over three columns the frame has is three column
      rewrites, in the listed order. */
  lemma CoerceThree(t: Table, cols: seq<string>, parseNum: string -> Option<real>)
    requires |cols| == 3 && cols[0] in t.columns && cols[1] in t.columns && cols[2] in t.columns
    ensures var co := Coercer(parseNum);
      CoerceNumeric(t, cols, parseNum) == MapColumn(MapColumn(MapColumn(t, cols[0], co), cols[1], co), cols[2], co)
  {
    assert cols[..0] == [] && cols[..3] == cols;
    CoerceStep(t, cols, 0, parseNum);
    CoerceStep(t, cols, 1, parseNum);
    CoerceStep(t, cols, 2, parseNum);
  }

  /** The cleaned details are the input rows whose Quantity and UnitPrice
      both parse, in their original order, each cleaned cell by cell: a row
      is dropped only when one of those two is missing or does not parse. */
  lemma CleanDetailsKeepsParsed(od: Table, parseNum: string -> Option<real>)
    requires HasColumns(od, NumericDetailColumns)
    ensures CleanDetails(od, parseNum).rows
      == Map(Filter(od.rows, NumbersParse(od.columns, parseNum)), CleanDetailRow(od.columns, parseNum))
  {
    var clean := CleanDetailRow(od.columns, parseNum);
    CleanDetailsRows(od, parseNum);
    var complete := Complete(od.columns, PriceSubset);
    FilterMap(od.rows, clean, complete);
    forall row | row in od.rows
      ensures Compose(clean, complete)(row) == NumbersParse(od.columns, parseNum)(row)
    {
      KeepTestAgrees(od.columns, parseNum, row);
    }
    FilterCongruent(od.rows, Compose(clean, complete), NumbersParse(od.columns, parseNum));
  }

  /** A cleaned row keeps its Quantity and UnitPrice exactly when both
      parse. */
  lemma KeepTestAgrees(columns: seq<string>, parseNum: string -> Option<real>, row: seq<Value>)
    requires HasColumns(Frame(columns, []), NumericDetailColumns) && |row| == |columns|
    ensures Compose(CleanDetailRow(columns, parseNum), Complete(columns, PriceSubset))(row)
      == NumbersParse(columns, parseNum)(row)
  {
    var r := CleanedRow(columns, parseNum, row);
    ThroughCleaning(columns, parseNum, row, PriceSubset[0]);
    ThroughCleaning(columns, parseNum, row, PriceSubset[1]);
    assert NoNullIn(columns, PriceSubset, r)
      <==> Get(columns, r, "Quantity") != Null && Get(columns, r, "UnitPrice") != Null;
  }

  /** Before the drop, the cleaning is a row-by-row rewrite. */
  lemma CleanDetailsRows(od: Table, parseNum: string -> Option<real>)
    requires HasColumns(od, NumericDetailColumns)
    ensures "Discount" in CoerceNumeric(od, NumericDetailColumns, parseNum).columns
    ensures MapColumn(CoerceNumeric(od, NumericDetailColumns, parseNum), "Discount", FillZero()).rows
      == Map(od.rows, CleanDetailRow(od.columns, parseNum))
  {
    CoerceAllPresent(od, parseNum);
    FourRewrites(od, parseNum);
    assert MapColumn(CoerceNumeric(od, NumericDetailColumns, parseNum), "Discount", FillZero()) == Rewritten(od, parseNum);
  }

  /** The four column rewrites of the cleaning step: the three coercions,
      then the zero fill of Discount. */
  function Rewritten(od: Table, parseNum: string -> Option<real>): (r: Table)
    requires HasColumns(od, NumericDetailColumns)
    ensures r.columns == od.columns && |r.rows| == |od.rows|
  {
    assert "Discount" in NumericDetailColumns;
    MapColumn(Coerced(od, parseNum), "Discount", FillZero())
  }

  /** The four column rewrites are one row-by-row rewrite. */
  lemma FourRewrites(od: Table, parseNum: string -> Option<real>)
    requires HasColumns(od, NumericDetailColumns)
    ensures Rewritten(od, parseNum).rows == Map(od.rows, CleanDetailRow(od.columns, parseNum))
  {
    var t4 := Rewritten(od, parseNum);
    forall i | 0 <= i < |od.rows| ensures t4.rows[i] == CleanDetailRow(od.columns, parseNum)(od.rows[i]) {
      FourRewritesAt(od, parseNum, i);
    }
    MapPointwise(od.rows, t4.rows, CleanDetailRow(od.columns, parseNum));
  }

  /** Row `i` through the four column rewrites. */
  lemma FourRewritesAt(od: Table, parseNum: string -> Option<real>, i: nat)
    requires HasColumns(od, NumericDetailColumns) && i < |od.rows|
    ensures Rewritten(od, parseNum).rows[i] == CleanedRow(od.columns, parseNum, od.rows[i])
  {
    var n := NumericDetailColumns;
    assert n[0] in n && n[1] in n && n[2] in n;
    assert n[0] == "Quantity" && n[1] == "UnitPrice" && n[2] == "Discount";
    var c := Coercer(parseNum);
    var t1 := MapColumn(od, "Quantity", c);
    var t2 := MapColumn(t1, "UnitPrice", c);
    var t3 := MapColumn(t2, "Discount", c);
    assert t3 == Coerced(od, parseNum);
    MapColumnRow(od, "Quantity", c, i);
    MapColumnRow(t1, "UnitPrice", c, i);
    MapColumnRow(t2, "Discount", c, i);
    MapColumnRow(t3, "Discount", FillZero(), i);
  }

  /** Every cleaned detail row holds numbers in Quantity, UnitPrice and Discount. */
  lemma CleanDetailsNumeric(od: Table, parseNum: string -> Option<real>)
    requires HasColumns(od, NumericDetailColumns)
    ensures var r := CleanDetails(od, parseNum);
      forall row, c :: row in r.rows && c in NumericDetailColumns ==> Get(r.columns, row, c).Num?
  {
    CleanDetailsKeepsParsed(od, parseNum);
    var kept := Filter(od.rows, NumbersParse(od.columns, parseNum));
    forall row, c | row in CleanDetails(od, parseNum).rows && c in NumericDetailColumns
      ensures Get(od.columns, row, c).Num?
    {
      MapMember(kept, CleanDetailRow(od.columns, parseNum), row);
      var k :| k in kept && row == CleanDetailRow(od.columns, parseNum)(k);
      CleanedRowNumeric(od.columns, parseNum, k, c);
    }
  }

  /** A detail row whose Quantity and UnitPrice parse is cleaned into one
      holding a number in each of the three numeric columns. */
  lemma CleanedRowNumeric(columns: seq<string>, parseNum: string -> Option<real>, row: seq<Value>, c: string)
    requires HasColumns(Frame(columns, []), NumericDetailColumns) && |row| == |columns|
    requires NumbersParse(columns, parseNum)(row) && c in NumericDetailColumns
    ensures Get(columns, CleanedRow(columns, parseNum, row), c).Num?
  {
    ThroughCleaning(columns, parseNum, row, c);
    assert c in PriceSubset || c == "Discount";
  }

  /** A cleaned detail table is already numeric, so the coercion the
      data-quality run applies to it in place changes nothing. */
  lemma DqCoercionStable(od: Table, parseNum: string -> Option<real>)
    requires HasColumns(od, NumericDetailColumns)
    ensures CoerceNumeric(CleanDetails(od, parseNum), NumericDetailColumns, parseNum) == CleanDetails(od, parseNum)
  {
    CleanDetailsNumeric(od, parseNum);
    NumericStable(CleanDetails(od, parseNum), parseNum);
  }

  lemma NumericStable(r: Table, parseNum: string -> Option<real>)
    requires forall row, c :: row in r.rows && c in NumericDetailColumns ==> Get(r.columns, row, c).Num?
    ensures CoerceNumeric(r, NumericDetailColumns, parseNum) == r
  {
    forall i, c | 0 <= i < |r.rows| && c in NumericDetailColumns
      ensures Get(r.columns, r.rows[i], c).Null? || Get(r.columns, r.rows[i], c).Num?
    {
      assert r.rows[i] in r.rows;
    }
    CoerceNumericNumeric(r, NumericDetailColumns, parseNum);
  }

  /** Step 1 of `load`: every table's headers normalised; the optional
      products table only when it was extracted. */
  function Renamed(raw: RawTables): (t: RawTables)
    ensures t.customers.rows == raw.customers.rows && t.orders.rows == raw.orders.rows && t.od.rows == raw.od.rows
    ensures t.products.Some? <==> raw.products.Some?
    ensures t.products.Some? ==> t.products.value.rows == raw.products.value.rows
  {
    RawTables(RenameColumns(raw.customers, CustomerFields),
              RenameColumns(raw.orders, OrderFields),
              RenameColumns(raw.od, DetailFields),
              match raw.products
              case None => None
              case Some(p) => Some(RenameColumns(p, ProductFields)))
  }

  /** Step 2 of `load`: customers, then orders, then order details are
      checked for their required columns; the first table found short
      raises. */
  function Validation(t: RawTables): (r: Outcome<Error>)
    ensures r.Pass? <==>
      HasColumns(t.customers, CustomerRequired) && HasColumns(t.orders, RequiredOrderColumns) && HasColumns(t.od, DetailRequired)
    ensures !HasColumns(t.customers, CustomerRequired) ==>
      r == ValidateRequiredColumns(t.customers, CustomerRequired, "customers")
    ensures HasColumns(t.customers, CustomerRequired) && !HasColumns(t.orders, RequiredOrderColumns) ==>
      r == ValidateRequiredColumns(t.orders, RequiredOrderColumns, "orders")
    ensures HasColumns(t.customers, CustomerRequired) && HasColumns(t.orders, RequiredOrderColumns) ==>
      r == ValidateRequiredColumns(t.od, DetailRequired, "order_details")
    ensures r.Fail? ==> r.error.KeyError?
  {
    match ValidateRequiredColumns(t.customers, CustomerRequired, "customers")
    case Fail(e) => Fail(e)
    case Pass =>
      match ValidateRequiredColumns(t.orders, RequiredOrderColumns, "orders")
      case Fail(e) => Fail(e)
      case Pass => ValidateRequiredColumns(t.od, DetailRequired, "order_details")
  }

  /** The detail columns `load` requires include the three numeric ones. */
  lemma DetailRequiredNumeric(od: Table)
    requires HasColumns(od, DetailRequired)
    ensures HasColumns(od, NumericDetailColumns)
  {
    forall c | c in NumericDetailColumns ensures c in od.columns {
      assert c in DetailRequired;
    }
  }

  /** What `load` returns, or the error it raises: headers normalised,
      required columns validated, orders and details cleaned, then the
      data-quality battery run on the cleaned tables. */
  function LoadOutcome(raw: RawTables, parseNum: string -> Option<real>, parseDate: Value -> Option<DateTime>)
    : (r: Result<Loaded, Error>)
    ensures Validation(Renamed(raw)).Fail? ==> r == Failure(Validation(Renamed(raw)).error)
    ensures r.Failure? ==> r.error.KeyError? || r.error == TypeError("OrderID")
  {
    var t := Renamed(raw);
    match Validation(t)
    case Fail(e) => Failure(e)
    case Pass => CleanAndCheck(t, parseNum, parseDate)
  }

  /** Steps 3 and 5 of `load` on validated tables: clean orders and
      details, then run the data-quality battery on the cleaned tables. */
  function CleanAndCheck(t: RawTables, parseNum: string -> Option<real>, parseDate: Value -> Option<DateTime>)
    : (r: Result<Loaded, Error>)
    requires HasColumns(t.customers, CustomerRequired) && HasColumns(t.orders, RequiredOrderColumns)
    requires HasColumns(t.od, DetailRequired)
    ensures r.Failure? ==> r.error == TypeError("OrderID")
  {
    DetailRequiredNumeric(t.od);
    assert "OrderDate" in RequiredOrderColumns;
    var orders := CleanOrders(t.orders, parseDate);
    var od := CleanDetails(t.od, parseNum);
    match Checks(t.customers, orders, od, parseNum)
    case Failure(e) => Failure(e)
    case Success(issues) => Success(Loaded(t.customers, orders, od, t.products, Messages(issues)))
  }

  /** Once validation passes, the load is the cleaning and the battery. */
  lemma LoadValidated(raw: RawTables, parseNum: string -> Option<real>, parseDate: Value -> Option<DateTime>)
    requires Validation(Renamed(raw)).Pass?
    ensures var t := Renamed(raw);
      && HasColumns(t.customers, CustomerRequired) && HasColumns(t.orders, RequiredOrderColumns)
      && HasColumns(t.od, DetailRequired)
      && LoadOutcome(raw, parseNum, parseDate) == CleanAndCheck(t, parseNum, parseDate)
  {
  }

  /** Past validation, the load is the cleaning and the battery. */
  lemma LoadPastValidation(raw: RawTables, parseNum: string -> Option<real>, parseDate: Value -> Option<DateTime>)
    requires LoadOutcome(raw, parseNum, parseDate).Success?
    ensures var t := Renamed(raw);
      && HasColumns(t.customers, CustomerRequired) && HasColumns(t.orders, RequiredOrderColumns)
      && HasColumns(t.od, DetailRequired)
      && LoadOutcome(raw, parseNum, parseDate) == CleanAndCheck(t, parseNum, parseDate)
  {
  }

  /** The cleaning passes customers and products on unchanged and keeps
      the headers of orders and details. */
  lemma CleanAndCheckKeeps(t: RawTables, parseNum: string -> Option<real>, parseDate: Value -> Option<DateTime>)
    requires HasColumns(t.customers, CustomerRequired) && HasColumns(t.orders, RequiredOrderColumns)
    requires HasColumns(t.od, DetailRequired)
    requires CleanAndCheck(t, parseNum, parseDate).Success?
    ensures var l := CleanAndCheck(t, parseNum, parseDate).value;
      && l.customers == t.customers && l.products == t.products
      && l.orders.columns == t.orders.columns && l.od.columns == t.od.columns
  {
  }

  /** A successful load passes customers and products on as renamed, and
      the orders and details it returns keep the validated columns. */
  lemma LoadKeepsTables(raw: RawTables, parseNum: string -> Option<real>, parseDate: Value -> Option<DateTime>)
    requires LoadOutcome(raw, parseNum, parseDate).Success?
    ensures var l := LoadOutcome(raw, parseNum, parseDate).value;
      && l.customers.rows == raw.customers.rows
      && HasColumns(l.customers, CustomerRequired)
      && l.orders.columns == Renamed(raw).orders.columns && HasColumns(l.orders, RequiredOrderColumns)
      && l.od.columns == Renamed(raw).od.columns && HasColumns(l.od, DetailRequired)
      && (l.products.Some? <==> raw.products.Some?)
  {
    LoadPastValidation(raw, parseNum, parseDate);
    CleanAndCheckKeeps(Renamed(raw), parseNum, parseDate);
  }

  /** A successful load returns exactly the orders whose date parses, dated,
      and exactly the detail lines whose Quantity and UnitPrice parse,
      cleaned, each in source order. */
  lemma LoadCleanRows(raw: RawTables, parseNum: string -> Option<real>, parseDate: Value -> Option<DateTime>)
    requires LoadOutcome(raw, parseNum, parseDate).Success?
    ensures var l := LoadOutcome(raw, parseNum, parseDate).value;
      var t := Renamed(raw);
      && l.orders.rows == Map(Filter(raw.orders.rows, DateParses(t.orders.columns, parseDate)),
                              Updater(t.orders.columns, "OrderDate", DateCoercer(parseDate)))
      && l.od.rows == Map(Filter(raw.od.rows, NumbersParse(t.od.columns, parseNum)), CleanDetailRow(t.od.columns, parseNum))
  {
    var t := Renamed(raw);
    LoadPastValidation(raw, parseNum, parseDate);
    CleanAndCheckRows(t, parseNum, parseDate);
    CleanOrdersKeepsParsed(t.orders, parseDate);
    CleanDetailsKeepsParsed(t.od, parseNum);
  }

  /** The cleaned tables the battery runs on are the ones returned. */
  lemma CleanAndCheckRows(t: RawTables, parseNum: string -> Option<real>, parseDate: Value -> Option<DateTime>)
    requires HasColumns(t.customers, CustomerRequired) && HasColumns(t.orders, RequiredOrderColumns)
    requires HasColumns(t.od, DetailRequired)
    requires CleanAndCheck(t, parseNum, parseDate).Success?
    ensures "OrderDate" in t.orders.columns && HasColumns(t.od, NumericDetailColumns)
    ensures var l := CleanAndCheck(t, parseNum, parseDate).value;
      && l.orders == CleanOrders(t.orders, parseDate) && l.od == CleanDetails(t.od, parseNum)
      && l.dqIssues == Messages(Checks(t.customers, l.orders, l.od, parseNum).value)
  {
    DetailRequiredNumeric(t.od);
    assert "OrderDate" in RequiredOrderColumns;
  }

  /** On validated, cleaned tables the battery never reports a schema miss
      and raises at most six issues. */
  lemma CleanedChecks(customers: Table, orders: Table, od: Table, parseNum: string -> Option<real>)
    requires HasColumns(orders, RequiredOrderColumns) && HasColumns(od, NumericDetailColumns)
    requires Checks(customers, orders, od, parseNum).Success?
    ensures var issues := Checks(customers, orders, od, parseNum).value;
      (forall x :: x in issues ==> !x.MissingOrderColumns?) && |issues| <= 6
  {
    assert ReachesCoercion(orders);
    ChecksReachRules(customers, orders, od, parseNum);
    RuleIssuesNoSchemaMiss(customers, orders, CoerceNumeric(od, NumericDetailColumns, parseNum));
  }

  /** A successful load returns dated orders and detail lines whose
      Quantity, UnitPrice and Discount are all numbers. */
  lemma LoadCleanTypes(raw: RawTables, parseNum: string -> Option<real>, parseDate: Value -> Option<DateTime>)
    requires LoadOutcome(raw, parseNum, parseDate).Success?
    ensures var l := LoadOutcome(raw, parseNum, parseDate).value;
      && (forall row :: row in l.orders.rows ==> Get(l.orders.columns, row, "OrderDate").Stamp?)
      && (forall row, c :: row in l.od.rows && c in NumericDetailColumns ==> Get(l.od.columns, row, c).Num?)
  {
    var t := Renamed(raw);
    LoadPastValidation(raw, parseNum, parseDate);
    CleanAndCheckRows(t, parseNum, parseDate);
    CleanDetailsNumeric(t.od, parseNum);
  }

  /** The issue list of a successful load is the rendering of the battery
      run on the tables it returns; it never reports a schema miss and
      holds at most six issues. */
  lemma LoadDqIssues(raw: RawTables, parseNum: string -> Option<real>, parseDate: Value -> Option<DateTime>)
    requires LoadOutcome(raw, parseNum, parseDate).Success?
    ensures var l := LoadOutcome(raw, parseNum, parseDate).value;
      && Checks(l.customers, l.orders, l.od, parseNum).Success?
      && l.dqIssues == Messages(Checks(l.customers, l.orders, l.od, parseNum).value)
      && (forall x :: x in Checks(l.customers, l.orders, l.od, parseNum).value ==> !x.MissingOrderColumns?)
      && |l.dqIssues| <= 6
  {
    LoadPastValidation(raw, parseNum, parseDate);
    CleanAndCheckIssues(Renamed(raw), parseNum, parseDate);
  }

  /** The issue list past validation: the battery's messages on the
      returned tables, no schema miss, at most six. */
  lemma CleanAndCheckIssues(t: RawTables, parseNum: string -> Option<real>, parseDate: Value -> Option<DateTime>)
    requires HasColumns(t.customers, CustomerRequired) && HasColumns(t.orders, RequiredOrderColumns)
    requires HasColumns(t.od, DetailRequired)
    requires CleanAndCheck(t, parseNum, parseDate).Success?
    ensures var l := CleanAndCheck(t, parseNum, parseDate).value;
      && Checks(l.customers, l.orders, l.od, parseNum).Success?
      && l.dqIssues == Messages(Checks(l.customers, l.orders, l.od, parseNum).value)
      && (forall x :: x in Checks(l.customers, l.orders, l.od, parseNum).value ==> !x.MissingOrderColumns?)
      && |l.dqIssues| <= 6
  {
    CleanAndCheckKeeps(t, parseNum, parseDate);
    CleanAndCheckRows(t, parseNum, parseDate);
    var l := CleanAndCheck(t, parseNum, parseDate).value;
    assert HasColumns(l.orders, RequiredOrderColumns) && HasColumns(l.od, NumericDetailColumns);
    CleanedChecks(l.customers, l.orders, l.od, parseNum);
  }

  /** A load fails on a missing required column, reported for the first
      table found short, or on a non-numeric OrderID among the cleaned
      orders, and on nothing else. */
  lemma LoadFailures(raw: RawTables, parseNum: string -> Option<real>, parseDate: Value -> Option<DateTime>)
    ensures var r := LoadOutcome(raw, parseNum, parseDate);
      var t := Renamed(raw);
      r.Failure? <==>
        || !HasColumns(t.customers, CustomerRequired) || !HasColumns(t.orders, RequiredOrderColumns)
        || !HasColumns(t.od, DetailRequired)
        || OrderIdNotNumeric(t.orders, parseDate)
  {
    var t := Renamed(raw);
    if Validation(t).Pass? {
      LoadValidated(raw, parseNum, parseDate);
      CleanAndCheckFails(t, parseNum, parseDate);
    }
  }

  /** Some dated order has an OrderID that is not a number. */
  predicate OrderIdNotNumeric(orders: Table, parseDate: Value -> Option<DateTime>)
  {
    "OrderDate" in orders.columns
    && exists v :: v in Column(CleanOrders(orders, parseDate), "OrderID") && Incomparable(v)
  }

  /** Past validation, the only way to fail is a non-numeric OrderID. */
  lemma CleanAndCheckFails(t: RawTables, parseNum: string -> Option<real>, parseDate: Value -> Option<DateTime>)
    requires HasColumns(t.customers, CustomerRequired) && HasColumns(t.orders, RequiredOrderColumns)
    requires HasColumns(t.od, DetailRequired)
    ensures "OrderDate" in t.orders.columns
    ensures CleanAndCheck(t, parseNum, parseDate).Failure? <==> OrderIdNotNumeric(t.orders, parseDate)
  {
    assert "OrderDate" in RequiredOrderColumns;
    DetailRequiredNumeric(t.od);
    var orders := CleanOrders(t.orders, parseDate);
    var od := CleanDetails(t.od, parseNum);
    assert CleanAndCheck(t, parseNum, parseDate).Failure? <==> Checks(t.customers, orders, od, parseNum).Failure?;
    ChecksOnValidated(t.customers, orders, od, parseNum);
  }

  /** With the order and detail columns present, the battery fails exactly
      on a non-numeric OrderID. */
  lemma ChecksOnValidated(customers: Table, orders: Table, od: Table, parseNum: string -> Option<real>)
    requires HasColumns(orders, RequiredOrderColumns) && HasColumns(od, NumericDetailColumns)
    ensures Checks(customers, orders, od, parseNum).Failure? <==>
      exists v :: v in Column(orders, "OrderID") && Incomparable(v)
  {
    assert MissingColumns(orders.columns, RequiredOrderColumns) == [];
  }

  /** `load` as the pipeline runs it: each table renamed from a copy, the
      three validations in turn, then the cleaning steps and the battery. */
  method Load(raw: RawTables, parseNum: string -> Option<real>, parseDate: Value -> Option<DateTime>)
    returns (r: Result<Loaded, Error>)
    ensures r == LoadOutcome(raw, parseNum, parseDate)
  {
    var t := RenameTables(raw);
    var check := ValidateTables(t);
    if check.Fail? {
      return Failure(check.error);
    }
    r := CleanAndRunChecks(t, parseNum, parseDate);
  }

  /** Step 1 of `load`: each table renamed from a copy of the extracted one. */
  method RenameTables(raw: RawTables) returns (t: RawTables)
    ensures t == Renamed(raw)
  {
    var customers := RenameColumns(raw.customers, CustomerFields);
    var orders := RenameColumns(raw.orders, OrderFields);
    var od := RenameColumns(raw.od, DetailFields);
    var products: Option<Table> := None;
    if raw.products.Some? {
      products := Some(RenameColumns(raw.products.value, ProductFields));
    }
    t := RawTables(customers, orders, od, products);
  }

  /** Step 2 of `load`: the three validations, each raising on its own. */
  method ValidateTables(t: RawTables) returns (check: Outcome<Error>)
    ensures check == Validation(t)
  {
    check := ValidateRequiredColumns(t.customers, CustomerRequired, "customers");
    if check.Fail? {
      return;
    }
    check := ValidateRequiredColumns(t.orders, RequiredOrderColumns, "orders");
    if check.Fail? {
      return;
    }
    check := ValidateRequiredColumns(t.od, DetailRequired, "order_details");
  }

  /** Steps 3 and 5 of `load`: the in-place column rewrites and drops, then
      the battery, which coerces the details once more in place. */
  method CleanAndRunChecks(t: RawTables, parseNum: string -> Option<real>, parseDate: Value -> Option<DateTime>)
    returns (r: Result<Loaded, Error>)
    requires HasColumns(t.customers, CustomerRequired) && HasColumns(t.orders, RequiredOrderColumns)
    requires HasColumns(t.od, DetailRequired)
    ensures r == CleanAndCheck(t, parseNum, parseDate)
  {
    var orders, od := CleanTables(t, parseNum, parseDate);
    var result, odAfter := DqChecks(t.customers, orders, od, parseNum);
    match result
    case Failure(e) =>
      r := Failure(e);
    case Success(issues) =>
      DetailRequiredNumeric(t.od);
      ChecksOnValidated(t.customers, orders, od, parseNum);
      DqCoercionStable(t.od, parseNum);
      r := Success(Loaded(t.customers, orders, odAfter, t.products, Messages(issues)));
  }

  /** Step 3 of `load`: OrderDate parsed and undated orders dropped; the
      numeric detail columns coerced, Discount filled, and lines without a
      Quantity or UnitPrice dropped. */
  method CleanTables(t: RawTables, parseNum: string -> Option<real>, parseDate: Value -> Option<DateTime>)
    returns (orders: Table, od: Table)
    requires HasColumns(t.orders, RequiredOrderColumns) && HasColumns(t.od, DetailRequired)
    ensures "OrderDate" in t.orders.columns && HasColumns(t.od, NumericDetailColumns)
    ensures orders == CleanOrders(t.orders, parseDate)
    ensures od == CleanDetails(t.od, parseNum)
  {
    DetailRequiredNumeric(t.od);
    assert "OrderDate" in RequiredOrderColumns;
    orders := MapColumn(t.orders, "OrderDate", DateCoercer(parseDate));
    orders := DropNull(orders, DateSubset);
    od := CoerceRequiredColumns(t.od, parseNum);
    assert "Discount" in NumericDetailColumns;
    od := MapColumn(od, "Discount", FillZero());
    od := DropNull(od, PriceSubset);
  }

  /** The loop `for col in ["Quantity", "UnitPrice", "Discount"]` of
      `load`, on a frame known to hold all three columns. */
  method CoerceRequiredColumns(od: Table, parseNum: string -> Option<real>) returns (odAfter: Table)
    requires HasColumns(od, NumericDetailColumns)
    ensures odAfter == CoerceNumeric(od, NumericDetailColumns, parseNum)
  {
    odAfter := od;
    for i := 0 to |NumericDetailColumns|
      invariant odAfter == CoerceNumeric(od, NumericDetailColumns[..i], parseNum)
    {
      assert NumericDetailColumns[i] in NumericDetailColumns;
      CoerceStep(od, NumericDetailColumns, i, parseNum);
      odAfter := MapColumn(odAfter, NumericDetailColumns[i], Coercer(parseNum));
    }
    assert NumericDetailColumns[..|NumericDetailColumns|] == NumericDetailColumns;
  }
}

=== FILE: pipeline.dfy ===
/** How the stages fit together: what a successful load hands to the
    transform stage, and what the transform stage hands to the build
    stage, meets what each of them needs. */
module Pipeline {
  import opened Wrappers
  import opened Tables
  import opened LoadStage
  import opened TransformStage
  import opened BuildStage

  /** A successful load returns tables with every column the transform
      stage reads. */
  lemma LoadFeedsTransform(raw: RawTables, parseNum: string -> Option<real>, parseDate: Value -> Option<DateTime>)
    requires LoadOutcome(raw, parseNum, parseDate).Success?
    ensures var l := LoadOutcome(raw, parseNum, parseDate).value;
      && HasColumns(l.customers, DimCustomerColumns)
      && HasColumns(l.orders, OrderKeyColumns)
      && HasColumns(l.od, DetailColumns)
  {
    LoadKeepsTables(raw, parseNum, parseDate);
  }

  /** On tables shaped like the transform stage's output, the customer
      and country rankings always succeed, so `build` fails only where the
      optional product catalog lacks ProductName or CategoryID. */
  lemma BuildOnModelTables(dim: Table, fact: Table, products: Option<Table>)
    requires dim.columns == DimCustomerColumns && fact.columns == FactColumns
    ensures NoOverlap(fact.columns, dim.columns, "CustomerID")
    ensures NoOverlap(fact.columns, ProductDimColumns, "ProductID")
    ensures Build(dim, fact, products).Success? <==> SalesByProduct(fact, products).Success?
  {
    FactDimDisjoint();
    FactProductDisjoint();
    RankingsSucceed(dim, fact);
  }

  /** The fact table shares only CustomerID with the customer dimension. */
  lemma FactDimDisjoint()
    ensures NoOverlap(FactColumns, DimCustomerColumns, "CustomerID")
  {
    forall c | c in DimCustomerColumns && c != "CustomerID" ensures c !in FactColumns {
      assert c == "CompanyName" || c == "Country";
    }
  }

  /** The fact table shares only ProductID with the product dimension. */
  lemma FactProductDisjoint()
    ensures NoOverlap(FactColumns, ProductDimColumns, "ProductID")
  {
    forall c | c in ProductDimColumns && c != "ProductID" ensures c !in FactColumns {
      assert c == "ProductName" || c == "CategoryID";
    }
  }

  /** On the model tables both customer rankings find every column they read. */
  lemma RankingsSucceed(dim: Table, fact: Table)
    requires dim.columns == DimCustomerColumns && fact.columns == FactColumns
    ensures NoOverlap(fact.columns, dim.columns, "CustomerID")
    ensures SalesBy(fact, dim, "CustomerID", "CompanyName").Success?
    ensures SalesBy(fact, dim, "CustomerID", "Country").Success?
  {
    FactDimDisjoint();
    assert "CustomerID" in fact.columns && "line_amount" in fact.columns;
    assert "CustomerID" in dim.columns && "CompanyName" in dim.columns && "Country" in dim.columns;
  }

  /** The transform stage's output is such a pair of tables. */
  lemma TransformFeedsBuild(customers: Table, orders: Table, od: Table, products: Option<Table>)
    requires HasColumns(customers, DimCustomerColumns)
    requires HasColumns(od, DetailColumns) && HasColumns(orders, OrderKeyColumns)
    ensures var t := Transform(customers, orders, od, products);
      && NoOverlap(t.factSales.columns, t.dimCustomer.columns, "CustomerID")
      && NoOverlap(t.factSales.columns, ProductDimColumns, "ProductID")
      && (Build(t.dimCustomer, t.factSales, t.products).Success? <==>
          SalesByProduct(t.factSales, t.products).Success?)
  {
    var t := Transform(customers, orders, od, products);
    BuildOnModelTables(t.dimCustomer, t.factSales, t.products);
  }
}

=== FILE: schema.dfy ===
/** Schema normalisation of the load stage (etl/load.py): case-insensitive
    renaming of headers to their proper names, and the required-column check. */
module Schema {
  import opened Wrappers
  import opened Text
  import opened Seqs
  import opened Tables

  /** The position of the last header whose lowercase form is `l`. */
  function LastIndexOf(columns: seq<string>, l: string): (r: Option<nat>)
    ensures r.Some? ==> r.value < |columns| && Lower(columns[r.value]) == l
    ensures r.Some? ==> forall k :: r.value < k < |columns| ==> Lower(columns[k]) != l
    ensures r.None? ==> forall k :: 0 <= k < |columns| ==> Lower(columns[k]) != l
  {
    if columns == [] then None
    else if Lower(columns[|columns| - 1]) == l then Some(|columns| - 1)
    else LastIndexOf(columns[..|columns| - 1], l)
  }

  /** The header at `i` is spelled like the last header sharing its lowercase form. */
  predicate IsLastSpelling(columns: seq<string>, i: nat)
    requires i < |columns|
  {
    var j := LastIndexOf(columns, Lower(columns[i]));
    j.Some? && columns[j.value] == columns[i]
  }

  /** `{col.lower(): col for col in df.columns}`: later headers overwrite earlier ones. */
  function LowerIndex(columns: seq<string>): (m: map<string, string>)
    ensures forall i :: 0 <= i < |columns| ==> Lower(columns[i]) in m
    ensures forall l :: l in m ==> LastIndexOf(columns, l).Some? && m[l] == columns[LastIndexOf(columns, l).value]
  {
    if columns == [] then map[]
    else
      var n := |columns| - 1;
      var before := LowerIndex(columns[..n]);
      assert forall i :: 0 <= i < n ==> columns[..n][i] == columns[i];
      before[Lower(columns[n]) := columns[n]]
  }

  /** The rename map: for each expected lowercase key present in the frame,
      the actual header it was found under maps to the proper name. */
  function RenameMap(columns: seq<string>, expected: map<string, string>): (m: map<string, string>)
    ensures forall h :: h in m <==> Lower(h) in expected && Lower(h) in LowerIndex(columns) && LowerIndex(columns)[Lower(h)] == h
    ensures forall h :: h in m ==> m[h] == expected[Lower(h)]
  {
    var current := LowerIndex(columns);
    assert forall k :: k in current ==> Lower(current[k]) == k by {
      forall k | k in current ensures Lower(current[k]) == k {
        assert LastIndexOf(columns, k).Some?;
      }
    }
    map k | k in expected.Keys && k in current :: current[k] := expected[k]
  }

  lemma RenameAt(columns: seq<string>, expected: map<string, string>, i: nat)
    requires i < |columns|
    ensures var m := RenameMap(columns, expected);
      (columns[i] in m <==> Lower(columns[i]) in expected && IsLastSpelling(columns, i)) &&
      (columns[i] in m ==> m[columns[i]] == expected[Lower(columns[i])])
  {
    var l := Lower(columns[i]);
    assert l in LowerIndex(columns);
  }

  /** The headers after `df.rename(columns=rename_map)`. A header is renamed
      exactly when its lowercase form is an expected key and it is spelled like
      the last header with that lowercase form; every other header passes
      through; count and order are kept. */
  function RenameHeaders(columns: seq<string>, expected: map<string, string>): (r: seq<string>)
    ensures |r| == |columns|
    ensures forall i :: 0 <= i < |columns| ==>
      r[i] == if Lower(columns[i]) in expected && IsLastSpelling(columns, i)
              then expected[Lower(columns[i])] else columns[i]
  {
    var m := RenameMap(columns, expected);
    assert forall i :: 0 <= i < |columns| ==>
      (columns[i] in m <==> Lower(columns[i]) in expected && IsLastSpelling(columns, i)) &&
      (columns[i] in m ==> m[columns[i]] == expected[Lower(columns[i])]) by {
      forall i | 0 <= i < |columns| { RenameAt(columns, expected, i); }
    }
    seq(|columns|, i requires 0 <= i < |columns| => if columns[i] in m then m[columns[i]] else columns[i])
  }

  /** rename_columns: the headers are normalised, the rows are untouched. */
  function RenameColumns(t: Table, expected: map<string, string>): (r: Table)
    ensures r.columns == RenameHeaders(t.columns, expected)
    ensures r.rows == t.rows
  {
    Frame(RenameHeaders(t.columns, expected), t.rows)
  }

  /** Every proper name lowercases back to its key. */
  ghost predicate Canonical(expected: map<string, string>)
  {
    forall k :: k in expected ==> Lower(expected[k]) == k
  }

  /** Renaming keeps each header's lowercase form under a canonical map. */
  lemma RenameKeepsLower(columns: seq<string>, expected: map<string, string>)
    requires Canonical(expected)
    ensures var r := RenameHeaders(columns, expected);
      forall i :: 0 <= i < |columns| ==> Lower(r[i]) == Lower(columns[i])
  {
  }

  /** Headers with the same lowercase forms have their last occurrences at the same places. */
  lemma {:induction false} LastIndexOfSameLower(columns: seq<string>, other: seq<string>, l: string)
    requires |columns| == |other|
    requires forall k :: 0 <= k < |columns| ==> Lower(columns[k]) == Lower(other[k])
    ensures LastIndexOf(columns, l) == LastIndexOf(other, l)
  {
    if columns != [] {
      var n := |columns| - 1;
      if Lower(columns[n]) != l {
        LastIndexOfSameLower(columns[..n], other[..n], l);
      }
    }
  }

  lemma RenameIdempotentAt(columns: seq<string>, expected: map<string, string>, i: nat)
    requires Canonical(expected) && i < |columns|
    ensures var r := RenameHeaders(columns, expected);
      RenameHeaders(r, expected)[i] == r[i]
  {
    var r := RenameHeaders(columns, expected);
    var l := Lower(columns[i]);
    RenameKeepsLower(columns, expected);
    LastIndexOfSameLower(columns, r, l);
    var j := LastIndexOf(columns, l).value;
    assert IsLastSpelling(columns, j);
  }

  /** Normalising twice with a canonical map is normalising once. */
  lemma RenameIdempotent(columns: seq<string>, expected: map<string, string>)
    requires Canonical(expected)
    ensures RenameHeaders(RenameHeaders(columns, expected), expected) == RenameHeaders(columns, expected)
  {
    forall i | 0 <= i < |columns|
      ensures RenameHeaders(RenameHeaders(columns, expected), expected)[i] == RenameHeaders(columns, expected)[i]
    {
      RenameIdempotentAt(columns, expected, i);
    }
  }

  /** No two headers share a lowercase form. */
  ghost predicate CaseUnique(columns: seq<string>)
  {
    forall i, j :: 0 <= i < j < |columns| ==> Lower(columns[i]) != Lower(columns[j])
  }

  /** Headers that differ only in case are normalised identically: with no
      case collisions, every header whose lowercase form is expected becomes
      its proper name, whatever its spelling. */
  lemma RenameCaseInsensitive(columns: seq<string>, other: seq<string>, expected: map<string, string>)
    requires |columns| == |other| && CaseUnique(columns)
    requires forall i :: 0 <= i < |columns| ==> Lower(columns[i]) == Lower(other[i])
    ensures var r, r' := RenameHeaders(columns, expected), RenameHeaders(other, expected);
      forall i :: 0 <= i < |columns| && Lower(columns[i]) in expected ==>
        r[i] == r'[i] == expected[Lower(columns[i])]
  {
    forall i | 0 <= i < |columns| ensures IsLastSpelling(columns, i) && IsLastSpelling(other, i) {
      LastIndexOfSameLower(columns, other, Lower(columns[i]));
      var j := LastIndexOf(columns, Lower(columns[i])).value;
      assert j == i;
    }
  }

  /** The lowercase-key maps the load stage normalises each table with. */
  const CustomerFields: map<string, string> :=
    map["customerid" := "CustomerID", "companyname" := "CompanyName", "country" := "Country"]
  const OrderFields: map<string, string> :=
    map["orderid" := "OrderID", "customerid" := "CustomerID", "orderdate" := "OrderDate"]
  const DetailFields: map<string, string> :=
    map["orderid" := "OrderID", "productid" := "ProductID", "unitprice" := "UnitPrice",
        "quantity" := "Quantity", "discount" := "Discount"]
  const ProductFields: map<string, string> :=
    map["productid" := "ProductID", "productname" := "ProductName", "categoryid" := "CategoryID"]

  /** Each map the load stage uses is canonical, so its normalisation is idempotent. */
  lemma FieldMapsCanonical()
    ensures Canonical(CustomerFields) && Canonical(OrderFields)
    ensures Canonical(DetailFields) && Canonical(ProductFields)
  {
    CustomerOrderFieldsCanonical();
    DetailFieldsCanonical();
    ProductFieldsCanonical();
  }

  lemma CustomerOrderFieldsCanonical()
    ensures Canonical(CustomerFields) && Canonical(OrderFields)
  {
    forall k | k in CustomerFields ensures Lower(CustomerFields[k]) == k {
      if k == "customerid" { assert Lower("CustomerID") == k; }
      else if k == "companyname" { assert Lower("CompanyName") == k; }
      else { assert Lower("Country") == k; }
    }
    forall k | k in OrderFields ensures Lower(OrderFields[k]) == k {
      if k == "orderid" { assert Lower("OrderID") == k; }
      else if k == "customerid" { assert Lower("CustomerID") == k; }
      else { assert Lower("OrderDate") == k; }
    }
  }

  lemma DetailFieldsCanonical()
    ensures Canonical(DetailFields)
  {
    forall k | k in DetailFields ensures Lower(DetailFields[k]) == k {
      if k == "orderid" { assert Lower("OrderID") == k; }
      else if k == "productid" { assert Lower("ProductID") == k; }
      else if k == "unitprice" { assert Lower("UnitPrice") == k; }
      else if k == "quantity" { assert Lower("Quantity") == k; }
      else { assert Lower("Discount") == k; }
    }
  }

  lemma ProductFieldsCanonical()
    ensures Canonical(ProductFields)
  {
    forall k | k in ProductFields ensures Lower(ProductFields[k]) == k {
      if k == "productid" { assert Lower("ProductID") == k; }
      else if k == "productname" { assert Lower("ProductName") == k; }
      else { assert Lower("CategoryID") == k; }
    }
  }

  /** When two headers collide in lowercase, only the later one is renamed. */
  lemma RenameCollision(cols: seq<string>)
    requires cols == ["customerID", "CUSTOMERID", "Freight"]
    ensures var r := RenameHeaders(cols, OrderFields);
      |r| == 3 && r[0] == "customerID" && r[1] == "CustomerID" && r[2] == "Freight"
  {
    assert Lower(cols[0]) == "customerid" && Lower(cols[1]) == "customerid";
    assert Lower(cols[2]) == "freight" && "freight" !in OrderFields;
    assert cols[..2] == ["customerID", "CUSTOMERID"];
    assert LastIndexOf(cols, "customerid") == Some(1);
  }

  /** validate_required_columns: raises KeyError exactly when a required
      column is absent, naming every absent one, sorted. */
  function ValidateRequiredColumns(t: Table, required: seq<string>, tableName: string): (r: Outcome<Error>)
    ensures r.Pass? <==> HasColumns(t, required)
    ensures r.Fail? ==> r.error.KeyError? && exists missing ::
      && (forall c :: c in missing <==> c in required && c !in t.columns)
      && NoDuplicates(missing) && SortedBy(missing, LexLe)
      && r.error.message == tableName + ": missing required columns: " + PyListRepr(missing)
  {
    var missing := MissingColumns(t.columns, required);
    if missing == [] then Pass
    else Fail(KeyError(tableName + ": missing required columns: " + PyListRepr(missing)))
  }
}

=== FILE: seqs.dfy ===
/** Order-preserving sequence operations the stages are built from:
    filtering rows, keeping first occurrences (drop_duplicates),
    counting rows that satisfy a test, and sorting by a total preorder. */
module Seqs {

  function Filter<T(!new)>(s: seq<T>, p: T -> bool): (r: seq<T>)
    ensures |r| <= |s|
    ensures forall x :: x in r <==> x in s && p(x)
  {
    if s == [] then []
    else if p(s[0]) then [s[0]] + Filter(s[1..], p)
    else Filter(s[1..], p)
  }

  function Map<T, U>(s: seq<T>, f: T -> U): (r: seq<U>)
    ensures |r| == |s|
    ensures forall i :: 0 <= i < |s| ==> r[i] == f(s[i])
  {
    seq(|s|, i requires 0 <= i < |s| => f(s[i]))
  }

  /** An element of a mapped sequence is the image of an element. */
  lemma MapMember<T, U>(s: seq<T>, f: T -> U, y: U)
    ensures y in Map(s, f) <==> exists x :: x in s && y == f(x)
  {
    var r := Map(s, f);
    if y in r {
      var i :| 0 <= i < |r| && r[i] == y;
      assert s[i] in s;
    }
    if exists x :: x in s && y == f(x) {
      var x :| x in s && y == f(x);
      var i :| 0 <= i < |s| && s[i] == x;
      assert r[i] == y;
    }
  }

  /** A sequence that agrees with `f` position by position is the map. */
  lemma MapPointwise<T, U>(s: seq<T>, r: seq<U>, f: T -> U)
    requires |r| == |s| && forall i :: 0 <= i < |s| ==> r[i] == f(s[i])
    ensures r == Map(s, f)
  {
  }

  /** Mapping distributes over concatenation. */
  lemma MapAppend<T, U>(s: seq<T>, t: seq<T>, f: T -> U)
    ensures Map(s + t, f) == Map(s, f) + Map(t, f)
  {
    var l, r := Map(s + t, f), Map(s, f) + Map(t, f);
    assert |l| == |r|;
    forall i | 0 <= i < |l| ensures l[i] == r[i] {
      if i >= |s| {
        assert (s + t)[i] == t[i - |s|];
      }
    }
  }

  /** The test `p` applied after the rewrite `f`. */
  function Compose<T, U>(f: T -> U, p: U -> bool): T -> bool
  {
    x => p(f(x))
  }

  /** Filtering after a row-wise rewrite is rewriting the rows that pass the test. */
  lemma {:induction false} FilterMap<T(!new), U(!new)>(s: seq<T>, f: T -> U, p: U -> bool)
    ensures Filter(Map(s, f), p) == Map(Filter(s, Compose(f, p)), f)
  {
    if s != [] {
      FilterMap(s[1..], f, p);
      assert Map(s, f)[1..] == Map(s[1..], f);
    }
  }

  /** `r` is `s` with some elements left out, the rest in their order. */
  predicate Subsequence<T(==)>(r: seq<T>, s: seq<T>)
    decreases |s|
  {
    r == [] || (s != [] && if r[0] == s[0] then Subsequence(r[1..], s[1..]) else Subsequence(r, s[1..]))
  }

  /** Filtering keeps the surviving elements in their order. */
  lemma {:induction false} FilterSubsequence<T(!new)>(s: seq<T>, p: T -> bool)
    ensures Subsequence(Filter(s, p), s)
  {
    if s != [] {
      FilterSubsequence(s[1..], p);
      var r := Filter(s, p);
      if p(s[0]) {
        assert r[1..] == Filter(s[1..], p);
      } else if r != [] {
        assert r[0] in r;
      }
    }
  }

  /** Tests that agree on every element keep the same elements. */
  lemma {:induction false} FilterCongruent<T(!new)>(s: seq<T>, p: T -> bool, q: T -> bool)
    requires forall x :: x in s ==> p(x) == q(x)
    ensures Filter(s, p) == Filter(s, q)
  {
    if s != [] {
      assert forall x :: x in s[1..] ==> x in s;
      FilterCongruent(s[1..], p, q);
    }
  }

  predicate NoDuplicates<T(==)>(s: seq<T>)
  {
    forall i, j :: 0 <= i < j < |s| ==> s[i] != s[j]
  }

  predicate DistinctBy<T, K(==)>(s: seq<T>, key: T -> K)
  {
    forall i, j :: 0 <= i < j < |s| ==> key(s[i]) != key(s[j])
  }

  lemma {:induction false} NoDuplicatesCount<T>(s: seq<T>, x: T)
    requires NoDuplicates(s)
    ensures multiset(s)[x] <= 1
  {
    if s != [] {
      var n := |s| - 1;
      assert s == s[..n] + [s[n]];
      NoDuplicatesCount(s[..n], x);
      if s[n] == x {
        assert x !in s[..n];
      }
    }
  }

  lemma RepeatCount<T>(r: seq<T>, i: nat, j: nat)
    requires i < j < |r| && r[i] == r[j]
    ensures multiset(r)[r[i]] >= 2
  {
    assert r == r[..j] + r[j..];
    assert r[i] in r[..j];
    assert r[j] in r[j..];
  }

  /** A permutation of a list whose keys are distinct has distinct keys. */
  lemma PermutationDistinctBy<T, K>(s: seq<T>, r: seq<T>, key: T -> K)
    requires multiset(r) == multiset(s) && DistinctBy(s, key)
    ensures DistinctBy(r, key)
  {
    forall i, j | 0 <= i < j < |r| ensures key(r[i]) != key(r[j]) {
      assert r[i] in multiset(s) && r[j] in multiset(s);
      var p :| 0 <= p < |s| && s[p] == r[i];
      var q :| 0 <= q < |s| && s[q] == r[j];
      if r[i] == r[j] {
        RepeatCount(r, i, j);
        assert NoDuplicates(s) by {
          forall a, b | 0 <= a < b < |s| ensures s[a] != s[b] {
            assert key(s[a]) != key(s[b]);
          }
        }
        NoDuplicatesCount(s, r[i]);
      } else {
        assert p != q;
        if p < q { assert key(s[p]) != key(s[q]); } else { assert key(s[q]) != key(s[p]); }
      }
    }
  }

  /** drop_duplicates(): the first occurrence of each element, in order. */
  function Dedup<T(==,!new)>(s: seq<T>): (r: seq<T>)
    ensures NoDuplicates(r)
    ensures forall x :: x in r <==> x in s
    ensures |r| <= |s|
  {
    if s == [] then []
    else
      var p := Dedup(s[..|s| - 1]);
      assert forall x :: x in s <==> x in s[..|s| - 1] || x == s[|s| - 1];
      if s[|s| - 1] in p then p else p + [s[|s| - 1]]
  }

  /** The position of the first occurrence of `x` in `s`. */
  function FirstAt<T(==)>(s: seq<T>, x: T): (k: nat)
    requires x in s
    ensures k < |s| && s[k] == x && x !in s[..k]
  {
    if s[0] == x then 0
    else
      var k := FirstAt(s[1..], x);
      assert s[1..][..k] == s[1..k + 1];
      k + 1
  }

  /** A first occurrence in a prefix is the first occurrence in the whole. */
  lemma FirstAtPrefix<T>(s: seq<T>, n: nat, x: T)
    requires n <= |s| && x in s[..n]
    ensures FirstAt(s, x) == FirstAt(s[..n], x)
  {
    var k, j := FirstAt(s, x), FirstAt(s[..n], x);
    assert s[j] == x;
  }

  /** The elements of `r` come in the order of their first occurrences in `s`. */
  ghost predicate FirstOrdered<T>(r: seq<T>, s: seq<T>)
  {
    forall i, j :: 0 <= i < j < |r| && r[i] in s && r[j] in s ==> FirstAt(s, r[i]) < FirstAt(s, r[j])
  }

  lemma FirstOrderedPrefix<T>(s: seq<T>, n: nat, p: seq<T>)
    requires n <= |s| && (forall x :: x in p ==> x in s[..n]) && FirstOrdered(p, s[..n])
    ensures FirstOrdered(p, s)
  {
    forall i, j | 0 <= i < j < |p| && p[i] in s && p[j] in s ensures FirstAt(s, p[i]) < FirstAt(s, p[j]) {
      assert p[i] in p && p[j] in p;
      FirstAtPrefix(s, n, p[i]);
      FirstAtPrefix(s, n, p[j]);
    }
  }

  lemma FirstOrderedSnoc<T>(p: seq<T>, s: seq<T>, x: T)
    requires FirstOrdered(p, s) && x in s
    requires forall y :: y in p ==> y in s && FirstAt(s, y) < FirstAt(s, x)
    ensures FirstOrdered(p + [x], s)
  {
    var r := p + [x];
    forall i, j | 0 <= i < j < |r| ensures FirstAt(s, r[i]) < FirstAt(s, r[j]) {
      assert r[i] == p[i];
      if j < |p| {
        assert r[j] == p[j];
      }
    }
  }

  /** drop_duplicates() keeps first occurrences: its elements come in the
      order in which they first appear in the input. */
  lemma {:induction false} DedupFirstOrder<T(!new)>(s: seq<T>)
    ensures FirstOrdered(Dedup(s), s)
  {
    if s != [] {
      var n := |s| - 1;
      var s' := s[..n];
      var p := Dedup(s');
      DedupFirstOrder(s');
      FirstOrderedPrefix(s, n, p);
      if s[n] !in p {
        assert Dedup(s) == p + [s[n]];
        assert FirstAt(s, s[n]) == n;
        forall y | y in p ensures y in s && FirstAt(s, y) < n {
          FirstAtPrefix(s, n, y);
        }
        FirstOrderedSnoc(p, s, s[n]);
      }
    }
  }

  /** The number of elements that pass a test: `mask.sum()`. */
  function Count<T>(s: seq<T>, p: T -> bool): nat
  {
    if s == [] then 0 else Count(s[..|s| - 1], p) + (if p(s[|s| - 1]) then 1 else 0)
  }

  /** Counting from the front: the first element adds one if it passes. */
  lemma {:induction false} CountCons<T>(x: T, s: seq<T>, p: T -> bool)
    ensures Count([x] + s, p) == (if p(x) then 1 else 0) + Count(s, p)
  {
    if s != [] {
      var n := |s| - 1;
      assert ([x] + s)[..|s|] == [x] + s[..n];
      CountCons(x, s[..n], p);
    }
  }

  /** Filtering keeps as many elements as pass the test. */
  lemma {:induction false} FilterCount<T(!new)>(s: seq<T>, p: T -> bool)
    ensures |Filter(s, p)| == Count(s, p)
  {
    if s != [] {
      assert s == [s[0]] + s[1..];
      CountCons(s[0], s[1..], p);
      FilterCount(s[1..], p);
    }
  }

  /** A test no element passes keeps nothing. */
  lemma {:induction false} FilterNone<T(!new)>(s: seq<T>, p: T -> bool)
    requires forall x :: x in s ==> !p(x)
    ensures Filter(s, p) == []
  {
    if s != [] {
      assert s[0] in s;
      FilterNone(s[1..], p);
    }
  }

  /** A test that holds at no two positions keeps at most one element. */
  lemma {:induction false} FilterAtMostOne<T(!new)>(s: seq<T>, p: T -> bool)
    requires forall i, j :: 0 <= i < j < |s| && p(s[i]) ==> !p(s[j])
    ensures |Filter(s, p)| <= 1
  {
    if s != [] {
      var rest := Filter(s[1..], p);
      if p(s[0]) {
        forall x | x in s[1..] ensures !p(x) {
          var j :| 0 <= j < |s[1..]| && s[1..][j] == x;
          assert s[j + 1] == x;
        }
        FilterNone(s[1..], p);
      }
      if !p(s[0]) {
        assert forall i, j :: 0 <= i < j < |s[1..]| && p(s[1..][i]) ==> !p(s[1..][j]) by {
          forall i, j | 0 <= i < j < |s[1..]| && p(s[1..][i]) ensures !p(s[1..][j]) {
            assert s[1..][i] == s[i + 1] && s[1..][j] == s[j + 1];
          }
        }
        FilterAtMostOne(s[1..], p);
      }
    }
  }

  /** The positions where a test holds. */
  ghost function Positions<T>(s: seq<T>, p: T -> bool): set<int>
  {
    set i | 0 <= i < |s| && p(s[i])
  }

  /** Two tests that agree position by position hold at the same positions. */
  lemma PositionsPointwise<T, U>(s: seq<T>, p: T -> bool, t: seq<U>, q: U -> bool)
    requires |s| == |t|
    requires forall i :: 0 <= i < |s| ==> p(s[i]) == q(t[i])
    ensures Positions(s, p) == Positions(t, q)
  {
  }

  /** `mask.sum()` is the number of positions where the mask holds. */
  lemma {:induction false} CountIsCardinality<T>(s: seq<T>, p: T -> bool)
    ensures Count(s, p) == |Positions(s, p)|
  {
    if s != [] {
      var n := |s| - 1;
      CountIsCardinality(s[..n], p);
      var before := Positions(s[..n], p);
      var all := Positions(s, p);
      var step := if p(s[n]) then {n} else {};
      forall i ensures i in all <==> i in before + step {
        if 0 <= i < n {
          assert s[..n][i] == s[i];
        }
      }
      assert all == before + step;
      assert n !in before;
    }
  }

  /** `mask.any()` is a positive `mask.sum()`. */
  lemma {:induction false} CountPositive<T(!new)>(s: seq<T>, p: T -> bool)
    ensures Count(s, p) > 0 <==> exists x :: x in s && p(x)
  {
    if s != [] {
      var n := |s| - 1;
      CountPositive(s[..n], p);
      assert forall x :: x in s <==> x in s[..n] || x == s[n];
    }
  }

  ghost predicate TotalPreorder<T(!new)>(le: (T, T) -> bool)
  {
    && (forall a, b :: le(a, b) || le(b, a))
    && (forall a, b, c :: le(a, b) && le(b, c) ==> le(a, c))
  }

  ghost predicate SortedBy<T>(s: seq<T>, le: (T, T) -> bool)
  {
    forall i, j :: 0 <= i < j < |s| ==> le(s[i], s[j])
  }

  lemma SortedCons<T(!new)>(x: T, s: seq<T>, le: (T, T) -> bool)
    requires TotalPreorder(le) && SortedBy(s, le)
    requires s == [] || le(x, s[0])
    ensures SortedBy([x] + s, le)
  {
    var r := [x] + s;
    forall i, j | 0 <= i < j < |r| ensures le(r[i], r[j]) {
      if i == 0 && j > 1 {
        assert le(s[0], s[j - 1]);
      }
    }
  }

  function InsertBy<T(!new)>(x: T, s: seq<T>, le: (T, T) -> bool): (r: seq<T>)
    requires TotalPreorder(le) && SortedBy(s, le)
    ensures SortedBy(r, le)
    ensures multiset(r) == multiset(s) + multiset{x}
  {
    if s == [] then [x]
    else if le(x, s[0]) then SortedCons(x, s, le); [x] + s
    else
      var rest := InsertBy(x, s[1..], le);
      assert s == [s[0]] + s[1..];
      assert rest[0] in multiset(rest);
      assert rest[0] == x || rest[0] in s[1..];
      SortedCons(s[0], rest, le);
      [s[0]] + rest
  }

  /** An element that precedes the head is inserted in front. */
  lemma InsertByFront<T(!new)>(x: T, s: seq<T>, le: (T, T) -> bool)
    requires TotalPreorder(le) && SortedBy(s, le) && s != [] && le(x, s[0])
    ensures InsertBy(x, s, le) == [x] + s
  {
  }

  /** An element that does not precede the head is inserted past it. */
  lemma InsertByPast<T(!new)>(x: T, s: seq<T>, le: (T, T) -> bool)
    requires TotalPreorder(le) && SortedBy(s, le) && s != [] && !le(x, s[0])
    ensures SortedBy(s[1..], le)
    ensures InsertBy(x, s, le) == [s[0]] + InsertBy(x, s[1..], le)
  {
  }

  /** sorted(s) under `le`: an ordered permutation of `s`. */
  function SortBy<T(!new)>(s: seq<T>, le: (T, T) -> bool): (r: seq<T>)
    requires TotalPreorder(le)
    ensures SortedBy(r, le)
    ensures multiset(r) == multiset(s)
  {
    if s == [] then []
    else
      assert s == [s[0]] + s[1..];
      InsertBy(s[0], SortBy(s[1..], le), le)
  }
}

=== FILE: tables.dfy ===
/** The data model shared by the stages: a cell is null, a number, a text
    or a timestamp; a table is a data frame of named columns whose rows
    hold one cell per column; errors are the exceptions the stages raise. */
module Tables {
  import opened Wrappers
  import opened Text
  import opened Seqs

  datatype Date = Date(year: int, month: int, day: int)

  /** A timestamp: its calendar date and the nanoseconds since midnight. */
  datatype DateTime = DateTime(date: Date, nanos: nat)

  /** One cell of a data frame; `Null` is pandas' NaN / NaT / None, and
      `Day` a calendar date without a time. */
  datatype Value = Null | Num(n: real) | Text(s: string) | Stamp(t: DateTime) | Day(d: Date)

  datatype Frame = Frame(columns: seq<string>, rows: seq<seq<Value>>)

  /** A data frame: every row holds exactly one cell per column. */
  type Table = f: Frame | forall row | row in f.rows :: |row| == |f.columns|
    witness Frame([], [])

  /** The exceptions raised by the stages, with the text they carry. */
  datatype Error =
    | KeyError(message: string)
    | TypeError(column: string)
    | FileNotFoundError(message: string)

  /** The tables the extraction stage hands to the load stage. */
  datatype RawTables = RawTables(customers: Table, orders: Table, od: Table, products: Option<Table>)

  /** The position of the first column with this label. */
  function IndexOf(columns: seq<string>, name: string): (r: Option<nat>)
    ensures r.None? <==> name !in columns
    ensures r.Some? ==> r.value < |columns| && columns[r.value] == name && name !in columns[..r.value]
  {
    if columns == [] then None
    else if columns[0] == name then Some(0)
    else match IndexOf(columns[1..], name)
      case None => None
      case Some(k) =>
        assert columns[1..][..k] == columns[1..k + 1];
        Some(k + 1)
  }

  /** `df[name]` at one row; a cell of a column the frame lacks reads as null. */
  function Get(columns: seq<string>, row: seq<Value>, name: string): Value
  {
    match IndexOf(columns, name)
    case None => Null
    case Some(k) => if k < |row| then row[k] else Null
  }

  /** The whole column `df[name]`, top to bottom. */
  function Column(t: Table, name: string): (c: seq<Value>)
    ensures |c| == |t.rows|
  {
    seq(|t.rows|, i requires 0 <= i < |t.rows| => Get(t.columns, t.rows[i], name))
  }

  /** A test holds of some cell of a column exactly when it holds at some row. */
  lemma ColumnAny(t: Table, name: string, p: Value -> bool)
    ensures (exists v :: v in Column(t, name) && p(v)) <==>
      exists i :: 0 <= i < |t.rows| && p(Get(t.columns, t.rows[i], name))
  {
    var c := Column(t, name);
    if exists i :: 0 <= i < |t.rows| && p(Get(t.columns, t.rows[i], name)) {
      var i :| 0 <= i < |t.rows| && p(Get(t.columns, t.rows[i], name));
      assert c[i] in c;
    }
  }

  predicate HasColumns(t: Table, names: seq<string>)
  {
    forall c :: c in names ==> c in t.columns
  }

  /** One row with the cell under `name` replaced by `v`. */
  function SetCell(columns: seq<string>, row: seq<Value>, name: string, v: Value): (r: seq<Value>)
    requires name in columns && |row| == |columns|
    ensures |r| == |row|
    ensures Get(columns, r, name) == v
    ensures forall c :: c != name ==> Get(columns, r, c) == Get(columns, row, c)
  {
    var k := IndexOf(columns, name).value;
    row[k := v]
  }

  /** `df[name] = f(df[name])`: the column is rewritten cell by cell. */
  function MapColumn(t: Table, name: string, f: Value -> Value): (r: Table)
    requires name in t.columns
    ensures r.columns == t.columns && |r.rows| == |t.rows|
  {
    var rows := seq(|t.rows|, i requires 0 <= i < |t.rows| =>
      SetCell(t.columns, t.rows[i], name, f(Get(t.columns, t.rows[i], name))));
    assert forall i | 0 <= i < |rows| :: |rows[i]| == |t.columns| by {
      forall i | 0 <= i < |rows| ensures |rows[i]| == |t.columns| {
        assert t.rows[i] in t.rows;
        var v := f(Get(t.columns, t.rows[i], name));
        assert rows[i] == SetCell(t.columns, t.rows[i], name, v);
      }
    }
    Frame(t.columns, rows)
  }

  predicate NoNullIn(columns: seq<string>, names: seq<string>, row: seq<Value>)
  {
    forall c :: c in names ==> Get(columns, row, c) != Null
  }

  /** The row test of `dropna(subset=names)`. */
  function Complete(columns: seq<string>, names: seq<string>): seq<Value> -> bool
  {
    row => NoNullIn(columns, names, row)
  }

  /** `df.dropna(subset=names)`: the rows with no null among those columns, in order. */
  function DropNull(t: Table, names: seq<string>): (r: Table)
    ensures r.columns == t.columns
    ensures forall row :: row in r.rows <==> row in t.rows && NoNullIn(t.columns, names, row)
  {
    var rows := Filter(t.rows, Complete(t.columns, names));
    assert forall row | row in rows :: row in t.rows;
    Frame(t.columns, rows)
  }

  /** The rows `dropna` keeps stay in their order. */
  lemma DropNullInOrder(t: Table, names: seq<string>)
    ensures Subsequence(DropNull(t, names).rows, t.rows)
  {
    FilterSubsequence(t.rows, Complete(t.columns, names));
  }

  /** The row rewrite of `df[name] = f(df[name])`. */
  function UpdateRow(columns: seq<string>, name: string, f: Value -> Value, row: seq<Value>): seq<Value>
  {
    if name in columns && |row| == |columns| then SetCell(columns, row, name, f(Get(columns, row, name)))
    else row
  }

  function Updater(columns: seq<string>, name: string, f: Value -> Value): seq<Value> -> seq<Value>
  {
    row => UpdateRow(columns, name, f, row)
  }

  /** What one rewritten row reads in each column. */
  lemma UpdateRowGet(columns: seq<string>, name: string, f: Value -> Value, row: seq<Value>, c: string)
    requires name in columns && |row| == |columns|
    ensures |UpdateRow(columns, name, f, row)| == |row|
    ensures Get(columns, UpdateRow(columns, name, f, row), c)
      == if c == name then f(Get(columns, row, name)) else Get(columns, row, c)
  {
  }

  /** Row `i` of a rewritten column is row `i` rewritten. */
  lemma MapColumnRow(t: Table, name: string, f: Value -> Value, i: nat)
    requires name in t.columns && i < |t.rows|
    ensures i < |MapColumn(t, name, f).rows|
    ensures MapColumn(t, name, f).rows[i] == UpdateRow(t.columns, name, f, t.rows[i])
  {
    assert t.rows[i] in t.rows;
  }

  /** What a cell of a rewritten column reads. */
  lemma MapColumnGet(t: Table, name: string, f: Value -> Value, i: nat, c: string)
    requires name in t.columns && i < |t.rows|
    ensures var r := MapColumn(t, name, f);
      i < |r.rows| && Get(r.columns, r.rows[i], c) ==
        if c == name then f(Get(t.columns, t.rows[i], name)) else Get(t.columns, t.rows[i], c)
  {
    MapColumnRow(t, name, f, i);
    UpdateRowGet(t.columns, name, f, t.rows[i], c);
  }

  /** Rewriting a column rewrites each row on its own. */
  lemma MapColumnRows(t: Table, name: string, f: Value -> Value)
    requires name in t.columns
    ensures MapColumn(t, name, f).rows == Map(t.rows, Updater(t.columns, name, f))
  {
    var r := MapColumn(t, name, f);
    forall i | 0 <= i < |t.rows| ensures r.rows[i] == Updater(t.columns, name, f)(t.rows[i]) {
      assert t.rows[i] in t.rows;
    }
  }

  /** `sorted(set(names) - set(columns))`: the missing names, each once, in
      Python's string order. */
  function MissingColumns(columns: seq<string>, names: seq<string>): (r: seq<string>)
    ensures forall c :: c in r <==> c in names && c !in columns
    ensures NoDuplicates(r)
    ensures SortedBy(r, LexLe)
    ensures r == [] <==> forall c :: c in names ==> c in columns
  {
    LexLeIsTotalPreorder();
    var missing := Dedup(Filter(names, c => c !in columns));
    var r := SortBy(missing, LexLe);
    PermutationDistinctBy(missing, r, c => c);
    assert forall c :: c in r <==> c in multiset(r);
    assert forall c :: c in missing <==> c in multiset(missing);
    r
  }

  lemma LexLeIsTotalPreorder()
    ensures TotalPreorder(LexLe)
  {
    forall a, b ensures LexLe(a, b) || LexLe(b, a) {
      LexLeTotal(a, b);
    }
    forall a, b, c | LexLe(a, b) && LexLe(b, c) ensures LexLe(a, c) {
      LexLeTransitive(a, b, c);
    }
  }

  /** pd.to_numeric(v, errors="coerce"): numbers stay, texts are parsed,
      anything else becomes NaN. */
  function ToNumeric(parseNum: string -> Option<real>, v: Value): (r: Option<real>)
    ensures v.Num? ==> r == Some(v.n)
    ensures v.Null? ==> r.None?
  {
    match v
    case Null => None
    case Num(x) => Some(x)
    case Text(s) => parseNum(s)
    case Stamp(_) => None
    case Day(_) => None
  }

  /** pd.to_datetime(v, errors="coerce"): timestamps stay, others are parsed. */
  function ToDatetime(parseDate: Value -> Option<DateTime>, v: Value): (r: Option<DateTime>)
    ensures v.Stamp? ==> r == Some(v.t)
    ensures v.Null? ==> r.None?
  {
    match v
    case Null => None
    case Stamp(t) => Some(t)
    case _ => parseDate(v)
  }

  function NumOrNull(x: Option<real>): Value
  {
    match x
    case Some(n) => Num(n)
    case None => Null
  }

  function StampOrNull(x: Option<DateTime>): Value
  {
    match x
    case Some(t) => Stamp(t)
    case None => Null
  }
}

=== FILE: text.dfy ===
/** The string operations the pipeline relies on: ASCII lower-casing,
    Python's ordering of strings, decimal rendering of counts and the
    rendering of a list of names as Python prints it. */
module Text {

  /** str.lower() on one character, for the ASCII letters. */
  function LowerChar(c: char): (r: char)
    ensures 'A' <= c <= 'Z' ==> 'a' <= r <= 'z' && r as int == c as int + 32
    ensures !('A' <= c <= 'Z') ==> r == c
  {
    if 'A' <= c <= 'Z' then (c as int + 32) as char else c
  }

  predicate NoCapitals(s: string)
  {
    forall i :: 0 <= i < |s| ==> !('A' <= s[i] <= 'Z')
  }

  /** str.lower(), for the ASCII letters: no capital is left, every other
      character stays where it was. */
  function Lower(s: string): (r: string)
    ensures |r| == |s| && NoCapitals(r)
    ensures forall i :: 0 <= i < |s| && !('A' <= s[i] <= 'Z') ==> r[i] == s[i]
  {
    seq(|s|, i requires 0 <= i < |s| => LowerChar(s[i]))
  }

  /** A string without capitals is its own lower-case form. */
  lemma LowerFixes(s: string)
    requires NoCapitals(s)
    ensures Lower(s) == s
  {
    assert forall i :: 0 <= i < |s| ==> Lower(s)[i] == s[i];
  }

  /** Lower-casing twice is lower-casing once. */
  lemma LowerIdempotent(s: string)
    ensures Lower(Lower(s)) == Lower(s)
  {
    LowerFixes(Lower(s));
  }

  /** Python's `<=` on strings: lexicographic by code point, a prefix first. */
  predicate LexLe(a: string, b: string)
  {
    |a| == 0 || (|b| > 0 && (a[0] < b[0] || (a[0] == b[0] && LexLe(a[1..], b[1..]))))
  }

  lemma {:induction false} LexLeTotal(a: string, b: string)
    ensures LexLe(a, b) || LexLe(b, a)
  {
    if |a| > 0 && |b| > 0 && a[0] == b[0] {
      LexLeTotal(a[1..], b[1..]);
    }
  }

  lemma {:induction false} LexLeTransitive(a: string, b: string, c: string)
    requires LexLe(a, b) && LexLe(b, c)
    ensures LexLe(a, c)
  {
    if |a| > 0 && |b| > 0 && |c| > 0 && a[0] == b[0] && b[0] == c[0] {
      LexLeTransitive(a[1..], b[1..], c[1..]);
    }
  }

  lemma {:induction false} LexLeAntisymmetric(a: string, b: string)
    requires LexLe(a, b) && LexLe(b, a)
    ensures a == b
  {
    if |a| > 0 && |b| > 0 {
      LexLeAntisymmetric(a[1..], b[1..]);
      assert a == [a[0]] + a[1..] && b == [b[0]] + b[1..];
    }
  }

  function DigitChar(d: nat): (c: char)
    requires d < 10
    ensures '0' <= c <= '9' && c as int - '0' as int == d
  {
    ('0' as int + d) as char
  }

  predicate IsDigits(s: string)
  {
    forall i :: 0 <= i < |s| ==> '0' <= s[i] <= '9'
  }

  /** str(n) for a non-negative int. */
  function NatToString(n: nat): (s: string)
    ensures |s| >= 1 && IsDigits(s)
    ensures n >= 10 ==> s[0] != '0'
  {
    if n < 10 then [DigitChar(n)] else NatToString(n / 10) + [DigitChar(n % 10)]
  }

  /** The number a string of decimal digits denotes: int(s). */
  function DecimalValue(s: string): nat
    requires IsDigits(s)
  {
    if s == [] then 0
    else DecimalValue(s[..|s| - 1]) * 10 + (s[|s| - 1] as int - '0' as int)
  }

  /** The count written into an issue text can be read back unchanged. */
  lemma {:induction false} DecimalRoundTrip(n: nat)
    ensures DecimalValue(NatToString(n)) == n
  {
    if n >= 10 {
      DecimalRoundTrip(n / 10);
      var s := NatToString(n);
      assert s[..|s| - 1] == NatToString(n / 10);
    }
  }

  /** sep.join(xs). */
  function Join(xs: seq<string>, sep: string): (r: string)
    ensures xs == [] ==> r == ""
    ensures |xs| == 1 ==> r == xs[0]
  {
    if xs == [] then ""
    else if |xs| == 1 then xs[0]
    else xs[0] + sep + Join(xs[1..], sep)
  }

  /** Joining one more item appends the separator and the item. */
  lemma {:induction false} JoinSnoc(xs: seq<string>, x: string, sep: string)
    requires xs != []
    ensures Join(xs + [x], sep) == Join(xs, sep) + sep + x
  {
    if |xs| > 1 {
      assert (xs + [x])[1..] == xs[1..] + [x];
      JoinSnoc(xs[1..], x, sep);
    }
  }

  /** One item as Python quotes it inside a list: `'a'`. */
  function Quoted(x: string): string
  {
    "'" + x + "'"
  }

  function QuoteAll(xs: seq<string>): (r: seq<string>)
    ensures |r| == |xs|
  {
    seq(|xs|, i requires 0 <= i < |xs| => Quoted(xs[i]))
  }

  /** str(xs) for a list of strings without quotes in them: the quoted
      items between brackets, separated by a comma and a space. */
  function PyListRepr(xs: seq<string>): (r: string)
    ensures |r| >= 2 && r[0] == '[' && r[|r| - 1] == ']'
    ensures xs == [] ==> r == "[]"
    ensures |xs| == 1 ==> r == "['" + xs[0] + "']"
  {
    "[" + Join(QuoteAll(xs), ", ") + "]"
  }

  /** One more item: the closing bracket gives way to `, 'x']`. */
  lemma PyListReprSnoc(xs: seq<string>, x: string)
    requires xs != []
    ensures var r := PyListRepr(xs);
      PyListRepr(xs + [x]) == r[..|r| - 1] + ", '" + x + "']"
  {
    var q := QuoteAll(xs);
    assert QuoteAll(xs + [x]) == q + [Quoted(x)];
    JoinSnoc(q, Quoted(x), ", ");
    var r := PyListRepr(xs);
    assert r[..|r| - 1] == "[" + Join(q, ", ");
  }

  /** Two names: `['a', 'b']`. */
  lemma PyListReprTwo(a: string, b: string)
    ensures PyListRepr([a, b]) == "['" + a + "', '" + b + "']"
  {
    PyListReprSnoc([a], b);
    assert [a] + [b] == [a, b];
  }
}

=== FILE: transform.dfy ===
/** The transform stage: the customer dimension and the sales fact table
    derived from the cleaned tables; products pass through. */
module TransformStage {
  import opened Wrappers
  import opened Seqs
  import opened Tables
  import opened Frames

  const DimCustomerColumns: seq<string> := ["CustomerID", "CompanyName", "Country"]
  const OrderKeyColumns: seq<string> := ["OrderID", "CustomerID", "OrderDate"]
  const DetailColumns: seq<string> := ["OrderID", "ProductID", "UnitPrice", "Quantity", "Discount"]
  const FactColumns: seq<string> :=
    ["OrderID", "CustomerID", "ProductID", "order_date", "UnitPrice", "Quantity", "Discount", "line_amount"]
  /** The two columns `assign` appends. */
  const DerivedColumns: seq<string> := ["order_date", "line_amount"]

  /** What `transform` returns. */
  datatype Transformed = Transformed(dimCustomer: Table, factSales: Table, products: Option<Table>)

  /** The customer dimension: the three key attributes of every customer,
      each distinct combination once. */
  function DimCustomer(customers: Table): (r: Table)
    requires HasColumns(customers, DimCustomerColumns)
    ensures r.columns == DimCustomerColumns
    ensures NoDuplicates(r.rows)
    ensures forall x :: x in r.rows <==>
      exists row :: row in customers.rows && x == Pick(customers.columns, row, DimCustomerColumns)
  {
    var projected := Project(customers, DimCustomerColumns);
    forall x ensures x in projected.rows <==>
      exists row :: row in customers.rows && x == Pick(customers.columns, row, DimCustomerColumns)
    {
      ProjectMember(customers, DimCustomerColumns, x);
    }
    DropDuplicates(projected)
  }

  /** `.dt.date`: the calendar date of a timestamp; NaT stays missing. */
  function OrderDay(v: Value): Value
  {
    match v
    case Stamp(t) => Day(t.date)
    case _ => Null
  }

  /** `UnitPrice * Quantity * (1.0 - Discount)`; a missing operand gives a
      missing amount. */
  function LineAmount(unitPrice: Value, quantity: Value, discount: Value): Value
  {
    if unitPrice.Num? && quantity.Num? && discount.Num? then Num(unitPrice.n * quantity.n * (1.0 - discount.n))
    else Null
  }

  /** `order_date` forgets the time of day: two timestamps give the same
      date exactly when they fall on the same calendar day, and a missing
      date stays missing. */
  lemma OrderDayForgetsTime(a: DateTime, b: DateTime)
    ensures OrderDay(Stamp(a)) == OrderDay(Stamp(b)) <==> a.date == b.date
    ensures OrderDay(Stamp(a)) != Null && OrderDay(Null) == Null
  {
  }

  /** A line of 3 units at 10.0 with a 10% discount is worth 27.0. */
  lemma LineAmountExample()
    ensures LineAmount(Num(10.0), Num(3.0), Num(0.1)) == Num(27.0)
  {
  }

  /** The ranges the quality gate checks on a line. */
  predicate WithinRanges(unitPrice: Value, quantity: Value, discount: Value)
  {
    && unitPrice.Num? && quantity.Num? && discount.Num?
    && unitPrice.n >= 0.0 && quantity.n > 0.0 && 0.0 <= discount.n <= 1.0
  }

  /** On a line within the ranges the quality gate checks, the amount is a
      number between zero and the undiscounted price of the line; a missing
      operand leaves it missing. */
  lemma LineAmountRange(unitPrice: Value, quantity: Value, discount: Value)
    ensures !(unitPrice.Num? && quantity.Num? && discount.Num?) ==>
      LineAmount(unitPrice, quantity, discount) == Null
    ensures WithinRanges(unitPrice, quantity, discount) ==>
      var r := LineAmount(unitPrice, quantity, discount);
      r.Num? && 0.0 <= r.n <= unitPrice.n * quantity.n
  {
    if WithinRanges(unitPrice, quantity, discount) {
      var gross := unitPrice.n * quantity.n;
      NonNegativeProduct(unitPrice.n, quantity.n);
      NonNegativeProduct(gross, discount.n);
      NonNegativeProduct(gross, 1.0 - discount.n);
      assert gross * (1.0 - discount.n) == gross - gross * discount.n;
    }
  }

  lemma NonNegativeProduct(a: real, b: real)
    requires a >= 0.0 && b >= 0.0
    ensures a * b >= 0.0
  {
  }

  /** A merged row followed by its two derived cells. */
  function DerivedRow(columns: seq<string>, row: seq<Value>): (r: seq<Value>)
    ensures |r| == |row| + 2
  {
    row + [OrderDay(Get(columns, row, "OrderDate")),
           LineAmount(Get(columns, row, "UnitPrice"), Get(columns, row, "Quantity"), Get(columns, row, "Discount"))]
  }

  /** The derivation of every merged row. */
  function Derive(columns: seq<string>): seq<Value> -> seq<Value>
  {
    row => DerivedRow(columns, row)
  }

  /** `.assign(order_date=..., line_amount=...)`. */
  function WithDerived(t: Table): (r: Table)
    ensures r.columns == t.columns + DerivedColumns && |r.rows| == |t.rows|
  {
    var rows := Map(t.rows, Derive(t.columns));
    DerivedWidths(t);
    Frame(t.columns + DerivedColumns, rows)
  }

  /** Each derived row is two cells wider than its merged row. */
  lemma DerivedWidths(t: Table)
    ensures var f := Frame(t.columns + DerivedColumns, Map(t.rows, Derive(t.columns)));
      forall row | row in f.rows :: |row| == |f.columns|
  {
    var rows := Map(t.rows, Derive(t.columns));
    forall row | row in rows ensures |row| == |t.columns| + 2 {
      var i :| 0 <= i < |rows| && rows[i] == row;
      assert rows[i] == Derive(t.columns)(t.rows[i]);
      assert t.rows[i] in t.rows;
    }
  }

  /** The columns the merge of the details with the order keys yields. */
  function JoinedColumns(dcols: seq<string>): seq<string>
  {
    assert OrderKeyColumns[0] == "OrderID";
    dcols + OtherColumns(OrderKeyColumns, "OrderID")
  }

  /** The fact table: every detail line with an order of the same OrderID,
      one row per such pair, with the date part of the order date and the
      discounted line amount. */
  function FactSales(od: Table, orders: Table): (r: Table)
    requires HasColumns(od, DetailColumns) && HasColumns(orders, OrderKeyColumns)
    ensures r.columns == FactColumns
  {
    assert "OrderID" in OrderKeyColumns;
    var keys := Project(orders, OrderKeyColumns);
    assert "OrderID" in DetailColumns;
    var joined := Merge(od, keys, "OrderID", Inner);
    var derived := WithDerived(joined);
    OtherKeyColumns();
    forall c | c in FactColumns ensures c in derived.columns {
      if c in DetailColumns {
        assert c in od.columns;
      }
    }
    Project(derived, FactColumns)
  }

  /** The fact table holds one row per pair of a detail line and an order
      with the same OrderID: a line repeated in the details appears as
      often in the facts. */
  lemma FactSalesCount(od: Table, orders: Table)
    requires HasColumns(od, DetailColumns) && HasColumns(orders, OrderKeyColumns)
    ensures |FactSales(od, orders).rows| == JoinCount(od.columns, od.rows, Project(orders, OrderKeyColumns), "OrderID", Inner)
  {
    assert "OrderID" in OrderKeyColumns;
    JoinRowsCount(od.columns, od.rows, Project(orders, OrderKeyColumns), "OrderID", Inner);
  }

  /** The order columns the merge appends after the detail columns. */
  lemma OtherKeyColumns()
    ensures OtherColumns(OrderKeyColumns, "OrderID") == ["CustomerID", "OrderDate"]
  {
    assert IndexOf(OrderKeyColumns, "OrderID") == Some(0);
  }

  /** `transform`: the dimension, the fact table, and products unchanged. */
  function Transform(customers: Table, orders: Table, od: Table, products: Option<Table>): (r: Transformed)
    requires HasColumns(customers, DimCustomerColumns)
    requires HasColumns(od, DetailColumns) && HasColumns(orders, OrderKeyColumns)
    ensures r.dimCustomer.columns == DimCustomerColumns && r.factSales.columns == FactColumns
    ensures r.products == products
  {
    Transformed(DimCustomer(customers), FactSales(od, orders), products)
  }

  // ----- the fact rows, pair by pair -----

  /** The fact row of one detail line `d` and one order `o`: each fact
      column holds its `FactCell`. */
  function FactRow(dcols: seq<string>, d: seq<Value>, ocols: seq<string>, o: seq<Value>): (r: seq<Value>)
    ensures |r| == |FactColumns|
  {
    seq(|FactColumns|, k requires 0 <= k < |FactColumns| => FactCell(dcols, d, ocols, o, FactColumns[k]))
  }

  /** The details carry none of the columns the merge and the assignment
      add, so no name is suffixed or shadowed. */
  predicate Disjoint(dcols: seq<string>)
  {
    "CustomerID" !in dcols && "OrderDate" !in dcols && "order_date" !in dcols && "line_amount" !in dcols
  }

  /** The merged row of a line and an order's key columns. */
  function JoinedRow(dcols: seq<string>, d: seq<Value>, ocols: seq<string>, o: seq<Value>): seq<Value>
  {
    d + DropKey(OrderKeyColumns, Pick(ocols, o, OrderKeyColumns), "OrderID")
  }

  /** Reading the merged row: detail columns from the line, the order's
      CustomerID and OrderDate from the order. */
  lemma JoinedRowGet(dcols: seq<string>, d: seq<Value>, ocols: seq<string>, o: seq<Value>, c: string)
    requires "OrderID" in dcols && |d| == |dcols|
    ensures |JoinedRow(dcols, d, ocols, o)| == |JoinedColumns(dcols)|
    ensures Get(JoinedColumns(dcols), JoinedRow(dcols, d, ocols, o), c) ==
      if c in dcols then Get(dcols, d, c)
      else if c in OrderKeyColumns then Get(ocols, o, c)
      else Null
  {
    var p := Pick(ocols, o, OrderKeyColumns);
    assert "OrderID" in OrderKeyColumns;
    OtherKeyColumns();
    DropKeyGet(OrderKeyColumns, p, "OrderID", "CustomerID");
    JoinedGet(dcols, d, OrderKeyColumns, p, "OrderID", c);
    if c !in dcols && c in OrderKeyColumns {
      PickGet(ocols, o, OrderKeyColumns, c);
    }
    if c !in dcols && c !in OrderKeyColumns {
      assert IndexOf(OrderKeyColumns, c).None?;
    }
  }

  /** The fact row the pipeline builds from a line and an order. */
  function PipelineRow(dcols: seq<string>, d: seq<Value>, ocols: seq<string>, o: seq<Value>): seq<Value>
  {
    var jcols := JoinedColumns(dcols);
    Pick(jcols + DerivedColumns, Derive(jcols)(JoinedRow(dcols, d, ocols, o)), FactColumns)
  }

  /** Reading a derived row: merged columns first, then the two new ones. */
  lemma DerivedGet(jcols: seq<string>, j: seq<Value>, c: string)
    requires |j| == |jcols| && "order_date" !in jcols && "line_amount" !in jcols
    ensures Get(jcols + DerivedColumns, Derive(jcols)(j), c) ==
      if c in jcols then Get(jcols, j, c)
      else if c == "order_date" then OrderDay(Get(jcols, j, "OrderDate"))
      else if c == "line_amount" then LineAmount(Get(jcols, j, "UnitPrice"), Get(jcols, j, "Quantity"), Get(jcols, j, "Discount"))
      else Null
  {
    var extra := [OrderDay(Get(jcols, j, "OrderDate")),
                  LineAmount(Get(jcols, j, "UnitPrice"), Get(jcols, j, "Quantity"), Get(jcols, j, "Discount"))];
    GetAppend(jcols, j, DerivedColumns, extra, c);
    GetCons("order_date", ["line_amount"], extra[0], [extra[1]], c);
    GetCons("line_amount", [], extra[1], [], c);
    assert DerivedColumns == ["order_date"] + ["line_amount"];
    assert extra == [extra[0]] + [extra[1]];
    assert ["line_amount"] == ["line_amount"] + [];
    assert [extra[1]] == [extra[1]] + [];
  }

  /** The pipeline's fact row of a line and an order is `FactRow`. */
  lemma PipelineRowIsFactRow(dcols: seq<string>, d: seq<Value>, ocols: seq<string>, o: seq<Value>)
    requires HasColumns(Frame(dcols, []), DetailColumns) && Disjoint(dcols) && |d| == |dcols|
    ensures PipelineRow(dcols, d, ocols, o) == FactRow(dcols, d, ocols, o)
  {
    var jcols := JoinedColumns(dcols);
    var j := JoinedRow(dcols, d, ocols, o);
    var p := PipelineRow(dcols, d, ocols, o);
    var f := FactRow(dcols, d, ocols, o);
    forall k | 0 <= k < |FactColumns| ensures p[k] == f[k] {
      var c := FactColumns[k];
      FactCellGet(dcols, d, ocols, o, c);
      assert p[k] == Get(jcols + DerivedColumns, Derive(jcols)(j), c);
      assert f[k] == FactCell(dcols, d, ocols, o, c);
    }
  }

  /** Each fact column of the pipeline's row reads the cell `FactRow` puts
      there. */
  lemma FactCellGet(dcols: seq<string>, d: seq<Value>, ocols: seq<string>, o: seq<Value>, c: string)
    requires HasColumns(Frame(dcols, []), DetailColumns) && Disjoint(dcols) && |d| == |dcols|
    requires c in FactColumns
    ensures var jcols := JoinedColumns(dcols);
      Get(jcols + DerivedColumns, Derive(jcols)(JoinedRow(dcols, d, ocols, o)), c)
        == FactCell(dcols, d, ocols, o, c)
  {
    if c == "order_date" {
      FactCellDay(dcols, d, ocols, o);
    } else if c == "line_amount" {
      FactCellAmount(dcols, d, ocols, o);
    } else if c == "CustomerID" || c == "OrderDate" {
      FactCellFromOrder(dcols, d, ocols, o, c);
    } else {
      assert c in DetailColumns;
      FactCellFromLine(dcols, d, ocols, o, c);
    }
  }

  /** The derived `order_date` reads the date part of the order's date. */
  lemma FactCellDay(dcols: seq<string>, d: seq<Value>, ocols: seq<string>, o: seq<Value>)
    requires HasColumns(Frame(dcols, []), DetailColumns) && Disjoint(dcols) && |d| == |dcols|
    ensures var jcols := JoinedColumns(dcols);
      Get(jcols + DerivedColumns, Derive(jcols)(JoinedRow(dcols, d, ocols, o)), "order_date")
        == OrderDay(Get(ocols, o, "OrderDate"))
  {
    var jcols := JoinedColumns(dcols);
    assert "OrderID" in DetailColumns;
    JoinedRowGet(dcols, d, ocols, o, "OrderDate");
    DerivedFree(dcols, d, ocols, o);
    DerivedGet(jcols, JoinedRow(dcols, d, ocols, o), "order_date");
  }

  /** The derived `line_amount` reads the line's discounted amount. */
  lemma FactCellAmount(dcols: seq<string>, d: seq<Value>, ocols: seq<string>, o: seq<Value>)
    requires HasColumns(Frame(dcols, []), DetailColumns) && Disjoint(dcols) && |d| == |dcols|
    ensures var jcols := JoinedColumns(dcols);
      Get(jcols + DerivedColumns, Derive(jcols)(JoinedRow(dcols, d, ocols, o)), "line_amount")
        == LineAmount(Get(dcols, d, "UnitPrice"), Get(dcols, d, "Quantity"), Get(dcols, d, "Discount"))
  {
    var jcols := JoinedColumns(dcols);
    AmountInputs(dcols, d, ocols, o);
    DerivedFree(dcols, d, ocols, o);
    DerivedGet(jcols, JoinedRow(dcols, d, ocols, o), "line_amount");
  }

  /** The merged columns leave room for the two derived ones. */
  lemma DerivedFree(dcols: seq<string>, d: seq<Value>, ocols: seq<string>, o: seq<Value>)
    requires HasColumns(Frame(dcols, []), DetailColumns) && Disjoint(dcols) && |d| == |dcols|
    ensures var jcols := JoinedColumns(dcols);
      |JoinedRow(dcols, d, ocols, o)| == |jcols| && "order_date" !in jcols && "line_amount" !in jcols
  {
    assert "OrderID" in DetailColumns;
    OtherKeyColumns();
    JoinedRowGet(dcols, d, ocols, o, "OrderID");
  }

  /** The merged row holds the line's UnitPrice, Quantity and Discount. */
  lemma AmountInputs(dcols: seq<string>, d: seq<Value>, ocols: seq<string>, o: seq<Value>)
    requires HasColumns(Frame(dcols, []), DetailColumns) && |d| == |dcols|
    ensures var jcols := JoinedColumns(dcols);
      var j := JoinedRow(dcols, d, ocols, o);
      && Get(jcols, j, "UnitPrice") == Get(dcols, d, "UnitPrice")
      && Get(jcols, j, "Quantity") == Get(dcols, d, "Quantity")
      && Get(jcols, j, "Discount") == Get(dcols, d, "Discount")
  {
    assert "OrderID" in DetailColumns && "UnitPrice" in DetailColumns;
    assert "Quantity" in DetailColumns && "Discount" in DetailColumns;
    JoinedRowGet(dcols, d, ocols, o, "UnitPrice");
    JoinedRowGet(dcols, d, ocols, o, "Quantity");
    JoinedRowGet(dcols, d, ocols, o, "Discount");
  }

  /** CustomerID and OrderDate come from the order. */
  lemma FactCellFromOrder(dcols: seq<string>, d: seq<Value>, ocols: seq<string>, o: seq<Value>, c: string)
    requires HasColumns(Frame(dcols, []), DetailColumns) && Disjoint(dcols) && |d| == |dcols|
    requires c == "CustomerID" || c == "OrderDate"
    ensures var jcols := JoinedColumns(dcols);
      Get(jcols + DerivedColumns, Derive(jcols)(JoinedRow(dcols, d, ocols, o)), c)
        == FactCell(dcols, d, ocols, o, c)
  {
    var jcols := JoinedColumns(dcols);
    var j := JoinedRow(dcols, d, ocols, o);
    assert "OrderID" in DetailColumns;
    assert c in OrderKeyColumns;
    OtherKeyColumns();
    JoinedRowGet(dcols, d, ocols, o, c);
    DerivedGet(jcols, j, c);
  }

  /** Every other fact column comes from the detail line. */
  lemma FactCellFromLine(dcols: seq<string>, d: seq<Value>, ocols: seq<string>, o: seq<Value>, c: string)
    requires HasColumns(Frame(dcols, []), DetailColumns) && Disjoint(dcols) && |d| == |dcols|
    requires c in DetailColumns
    ensures var jcols := JoinedColumns(dcols);
      Get(jcols + DerivedColumns, Derive(jcols)(JoinedRow(dcols, d, ocols, o)), c)
        == FactCell(dcols, d, ocols, o, c)
  {
    var jcols := JoinedColumns(dcols);
    var j := JoinedRow(dcols, d, ocols, o);
    assert "OrderID" in DetailColumns;
    OtherKeyColumns();
    JoinedRowGet(dcols, d, ocols, o, c);
    DerivedGet(jcols, j, c);
  }

  /** One cell of a fact row, by column name: customer and order date
      from the order, the date part of that date, the discounted amount,
      and every other column from the detail line. */
  function FactCell(dcols: seq<string>, d: seq<Value>, ocols: seq<string>, o: seq<Value>, c: string): Value
  {
    if c == "CustomerID" || c == "OrderDate" then Get(ocols, o, c)
    else if c == "order_date" then OrderDay(Get(ocols, o, "OrderDate"))
    else if c == "line_amount" then
      LineAmount(Get(dcols, d, "UnitPrice"), Get(dcols, d, "Quantity"), Get(dcols, d, "Discount"))
    else Get(dcols, d, c)
  }

  /** A merged row is in the rewritten table exactly when it derives one. */
  lemma DerivedMember(t: Table, a: seq<Value>)
    ensures a in WithDerived(t).rows <==> exists j :: j in t.rows && a == Derive(t.columns)(j)
  {
    MapMember(t.rows, Derive(t.columns), a);
  }

  /** Every fact row is the `FactRow` of a detail line and an order with
      the same OrderID: a line without a matching order yields none. */
  lemma FactSalesSound(od: Table, orders: Table, x: seq<Value>)
    requires HasColumns(od, DetailColumns) && HasColumns(orders, OrderKeyColumns) && Disjoint(od.columns)
    requires x in FactSales(od, orders).rows
    ensures exists d, o ::
              d in od.rows && o in orders.rows
              && Get(orders.columns, o, "OrderID") == Get(od.columns, d, "OrderID")
              && x == FactRow(od.columns, d, orders.columns, o)
  {
    assert "OrderID" in OrderKeyColumns && "OrderID" in DetailColumns;
    var keys := Project(orders, OrderKeyColumns);
    var joined := Merge(od, keys, "OrderID", Inner);
    var derived := WithDerived(joined);
    OtherKeyColumns();
    assert joined.columns == JoinedColumns(od.columns);
    assert HasColumns(derived, FactColumns) by {
      forall c | c in FactColumns ensures c in derived.columns {
        if c in DetailColumns {
          assert c in od.columns;
        }
      }
    }
    ProjectMember(derived, FactColumns, x);
    var a :| a in derived.rows && x == Pick(derived.columns, a, FactColumns);
    DerivedMember(joined, a);
    var j :| j in joined.rows && a == Derive(joined.columns)(j);
    InnerJoinMember(od.columns, od.rows, keys, "OrderID", j);
    var d, p :| d in od.rows && p in keys.rows && Get(keys.columns, p, "OrderID") == Get(od.columns, d, "OrderID")
      && j == d + DropKey(keys.columns, p, "OrderID");
    ProjectMember(orders, OrderKeyColumns, p);
    var o :| o in orders.rows && p == Pick(orders.columns, o, OrderKeyColumns);
    PickGet(orders.columns, o, OrderKeyColumns, "OrderID");
    assert x == PipelineRow(od.columns, d, orders.columns, o);
    assert "OrderID" in od.columns;
    PipelineRowIsFactRow(od.columns, d, orders.columns, o);
  }

  /** Every detail line and order with the same OrderID yield their
      `FactRow`. */
  lemma FactSalesComplete(od: Table, orders: Table, d: seq<Value>, o: seq<Value>)
    requires HasColumns(od, DetailColumns) && HasColumns(orders, OrderKeyColumns) && Disjoint(od.columns)
    requires d in od.rows && o in orders.rows && Get(orders.columns, o, "OrderID") == Get(od.columns, d, "OrderID")
    ensures FactRow(od.columns, d, orders.columns, o) in FactSales(od, orders).rows
  {
    assert "OrderID" in OrderKeyColumns && "OrderID" in DetailColumns;
    var keys := Project(orders, OrderKeyColumns);
    var joined := Merge(od, keys, "OrderID", Inner);
    var derived := WithDerived(joined);
    OtherKeyColumns();
    assert joined.columns == JoinedColumns(od.columns);
    assert HasColumns(derived, FactColumns) by {
      forall c | c in FactColumns ensures c in derived.columns {
        if c in DetailColumns {
          assert c in od.columns;
        }
      }
    }
    var p := Pick(orders.columns, o, OrderKeyColumns);
    ProjectMember(orders, OrderKeyColumns, p);
    PickGet(orders.columns, o, OrderKeyColumns, "OrderID");
    var j := d + DropKey(keys.columns, p, "OrderID");
    InnerJoinMember(od.columns, od.rows, keys, "OrderID", j);
    var a := Derive(joined.columns)(j);
    DerivedMember(joined, a);
    var x := Pick(derived.columns, a, FactColumns);
    ProjectMember(derived, FactColumns, x);
    assert x == PipelineRow(od.columns, d, orders.columns, o);
    assert "OrderID" in od.columns;
    PipelineRowIsFactRow(od.columns, d, orders.columns, o);
  }

  /** On a table that already has exactly the three dimension columns,
      the dimension keeps every distinct row as it is. */
  lemma {:induction false} DimCustomerOnItsColumns(customers: Table)
    requires customers.columns == DimCustomerColumns
    ensures forall x :: x in DimCustomer(customers).rows <==> x in customers.rows
  {
    forall row | row in customers.rows
      ensures Pick(customers.columns, row, DimCustomerColumns) == row
    {
      assert IndexOf(DimCustomerColumns, "CustomerID") == Some(0);
      assert IndexOf(DimCustomerColumns, "CompanyName") == Some(1);
      assert IndexOf(DimCustomerColumns, "Country") == Some(2);
    }
  }

  /** Duplicates are dropped over whole rows, not by CustomerID: two rows
      with one key and two spellings of the name both stay in the
      dimension, under the same key. */
  lemma DimCustomerKeyRepeats(customers: Table, a: seq<Value>, b: seq<Value>)
    requires customers.columns == DimCustomerColumns && customers.rows == [a, b]
    requires a[0] == b[0] && a[1] != b[1]
    ensures a in DimCustomer(customers).rows && b in DimCustomer(customers).rows
    ensures a != b && Get(DimCustomerColumns, a, "CustomerID") == Get(DimCustomerColumns, b, "CustomerID")
  {
    DimCustomerOnItsColumns(customers);
    assert a in customers.rows && b in customers.rows;
    SameKeyRows(a, b);
  }

  /** Two dimension rows that differ past the first cell share their key. */
  lemma SameKeyRows(a: seq<Value>, b: seq<Value>)
    requires |a| == |b| == |DimCustomerColumns| && a[0] == b[0] && a[1] != b[1]
    ensures a != b && Get(DimCustomerColumns, a, "CustomerID") == Get(DimCustomerColumns, b, "CustomerID")
  {
    assert IndexOf(DimCustomerColumns, "CustomerID") == Some(0);
  }
}

=== FILE: wrappers.dfy ===
/** Option, Result and Outcome: the error paths of the pipeline's stages. */
module Wrappers {

  datatype Option<+T> = None | Some(value: T)

  /** A computation that either yields a value or raises an error. */
  datatype Result<+T, +E> = Success(value: T) | Failure(error: E)

  /** A check that either passes or raises an error. */
  datatype Outcome<+E> = Pass | Fail(error: E)
}
